=== FILE: README.md ===
# AvatarGo calibration and IK core, in Dafny

AvatarGo fits a humanoid avatar to a person wearing a VR headset, two hand
controllers and three body trackers. This project models the discrete and
geometric logic at the core of that system:

- **Calibration pipeline.** The stage machine (`PipelineUtils`) and its
  message tables are modelled. So is the per-frame input controller
  (`SingleInput.Update`), with its busy and debounce gates, its floor-marker
  countdown, device detection and identification, the one-off pipeline
  start and the forward step. The one-shot position sampler
  (`ContinuousInput`) is modelled too.
- **Body measurement.** The body's measures and anchor joints
  (`AvatarBody`) are modelled. Each measurement coroutine becomes a
  function that returns the new body together with a trace of steps:
  block input, sample one object, unblock, report.
- **Devices.** The model covers SteamVR device counting and role activation
  (`SteamVRDriver.detectDevices` and `setDevicesIndex`). It also covers
  identification by a least-squares plane fit (`Utils.FitPlane`, exact over
  the reals) followed by a classification in plane coordinates. Role
  binding by pre-order name search (`Utils.FindDescendants`,
  `AvatarDriver`) and the always-ready simulator driver are included.
- **IK controller.** `AvatarController_UnityIK` is modelled through:
  - its 0→1→2 calibration flag;
  - the end-effector target arithmetic of `OnAnimatorIK`;
  - the `LateUpdate` dispatch;
  - the 30-bone finger layout;
  - the two finger-bending gradient-descent rules, with their clamps and
    early stops;
  - the chain scores they minimise, built from three probe points per
    chain and the controller's, thumb plane's or touched object's
    distance, and never negative.
- **Controller-style policy.** `AvatarGo.resetControllersStyle` and the
  component's small notifications and guards are modelled.
- **Geometry primitives.** The capsule and plane distances of
  `ControllerFingers` are modelled, along with the sphere and box signed
  distance functions and the forearm displacement of `ArmsStretch`. The
  box is measured in its local frame: the offset from its own position,
  turned back by its parent's rotation when it has a parent and by its
  own otherwise.

The representation choices:

- Floats are `real`s.
- A vector's length is an abstract `norm` that is non-negative and zero
  exactly at the zero vector.
- Rotations, Unity transforms and joint kinematics are parameters (functions
  of object ids or of the finger parameters).
- Everything the program reads from the scene, OpenVR or physics is an
  input. Everything it writes is part of the returned state.

Some behaviour of the code is modelled as written:

- `computeHeightWidthMeasure` reads the pelvis as the zero vector when the
  head is inactive. The foot lengths are then measured from height zero
  (`AvatarBody.HeightWidthMeasures`).
- Identification re-binds the head to its previous binding and leaves
  unmatched roles as they were (`SteamVRDriver.IdentifiedRoles`).
- The tracker index buffer has three slots. `DetectDevices` therefore
  requires at most three running trackers.
- `LateUpdate` dereferences the root anchor once calibration is over.
  `IkController.LateUpdate` therefore requires it to exist.

## Model

| member | source | states |
|---|---|---|
| PipelineUtils.NextStage | AvatarGo/Assets/AvatarGo/Scripts/Utils/PipelineUtils.cs:19-48 | the next stage is a live stage other than DEVICES; the stage's numeric value never decreases, and strictly increases unless already DONE; DONE and DIRTY go to DONE |
| PipelineUtils.NextStageIsImmediateSuccessor | AvatarGo/Assets/AvatarGo/Scripts/Utils/PipelineUtils.cs:29-48 | DEVICES, T_POSE and ROOT_AVATAR each go to the stage right after them in the order DEVICES, T_POSE, ROOT_AVATAR, DONE |
| PipelineUtils.ImmediateSuccessorIsNextStage | AvatarGo/Assets/AvatarGo/Scripts/Utils/PipelineUtils.cs:29-48 | conversely, an immediate successor of a stage other than DIRTY is its next stage |
| PipelineUtils.DoneIsFixpoint | AvatarGo/Assets/AvatarGo/Scripts/Utils/PipelineUtils.cs:31-47 | any number of steps from DONE stays at DONE |
| PipelineUtils.AdvanceIsMonotone | AvatarGo/Assets/AvatarGo/Scripts/Utils/PipelineUtils.cs:19-48 | the stage's value never decreases over any number of steps |
| PipelineUtils.ThreeStepsReachDone | AvatarGo/Assets/AvatarGo/Scripts/Utils/PipelineUtils.cs:31-47 | three or more steps from any stage reach DONE |
| PipelineUtils.AdvanceSplit | AvatarGo/Assets/AvatarGo/Scripts/Utils/PipelineUtils.cs:29-48 | m + k steps are m steps followed by k steps |
| PipelineUtils.IntroMessage | AvatarGo/Assets/AvatarGo/Scripts/Utils/PipelineUtils.cs:51-73 | the intro message is empty exactly for DIRTY |
| PipelineUtils.SuccessMessage | AvatarGo/Assets/AvatarGo/Scripts/Utils/PipelineUtils.cs:76-95 | the success message is non-empty exactly for DEVICES and T_POSE |
| PipelineUtils.FailureMessage | AvatarGo/Assets/AvatarGo/Scripts/Utils/PipelineUtils.cs:98-128 | DIRTY has a message for every code; DEVICES has one exactly for codes 0, 1 and 2; T_POSE and later stages have none |
| PipelineUtils.FailureMessagesDistinct | AvatarGo/Assets/AvatarGo/Scripts/Utils/PipelineUtils.cs:104-119 | the three device failure messages differ pairwise |
| PipelineUtils.ProgressMessage | AvatarGo/Assets/AvatarGo/Scripts/Utils/PipelineUtils.cs:131-153 | the progress message is non-empty exactly for DIRTY, T_POSE and ROOT_AVATAR |
| SceneTree.FindIsFirstInPreOrder | AvatarGo/Assets/AvatarGo/Scripts/Utils/Utils.cs:12-30 | the recursive search returns the first node of the subtree's pre-order listing with the name, or null when there is none |
| SceneTree.FindInIsFirstInPreOrder | AvatarGo/Assets/AvatarGo/Scripts/Utils/Utils.cs:20-29 | searching the children in order finds the first match of their concatenated pre-order listings |
| SceneTree.FindSpec | AvatarGo/Assets/AvatarGo/Scripts/Utils/Utils.cs:12-30 | a node whose own name matches is returned before its children; the result is null iff no node of the subtree has the name; a result has the name and lies in the subtree |
| SceneTree.FindAny | AvatarGo/Assets/AvatarGo/Scripts/Utils/Utils.cs:33-43 | the names overload is null iff no name occurs; otherwise it is the match of a name such that no earlier name occurs |
| SceneTree.FindAnyIsNamedDescendant | AvatarGo/Assets/AvatarGo/Scripts/Utils/Utils.cs:33-43 | a result of the names overload carries one of the names and lies in the subtree |
| AvatarDriver.RoleBinding | AvatarGo/Assets/AvatarGo/Scripts/Drivers/AvatarDriver.cs:26-73 | each role is bound to the first-priority name found in the tree and stays null iff none of its names occurs |
| AvatarDriver.BoundRoleIsNamedDescendant | AvatarGo/Assets/AvatarGo/Scripts/Drivers/AvatarDriver.cs:26-73 | a bound role's object carries one of the role's names and lies under the root |
| AvatarDriver.NewDriver | AvatarGo/Assets/AvatarGo/Scripts/Drivers/AvatarDriver.cs:26-108 | a new driver holds the name bindings and is not ready |
| AvatarDriver.NewSimulator | AvatarGo/Assets/AvatarGo/Scripts/Drivers/SimulatorDriver.cs:8-14 | the simulator is of kind Simulation, is ready at construction and has exactly the base driver's bindings |
| AvatarDriver.SetActive | AvatarGo/Assets/AvatarGo/Scripts/Drivers/AvatarDriver.cs:75-101 | every bound role's object gets the flag; every other object keeps its active state |
| ContinuousInput.InitSatisfiesInv | AvatarGo/Assets/AvatarGo/Scripts/Input/ContinuousInput.cs:15-17 | the sampler starts not capturing, with the zero vector as its point |
| ContinuousInput.Capture | AvatarGo/Assets/AvatarGo/Scripts/Input/ContinuousInput.cs:39-47 | a null target changes nothing; otherwise the sampler starts capturing that target and keeps the stored point |
| ContinuousInput.Tick | AvatarGo/Assets/AvatarGo/Scripts/Input/ContinuousInput.cs:25-32 | a tick while capturing stores the target's current position and stops capturing; otherwise it changes nothing |
| ContinuousInput.Read | AvatarGo/Assets/AvatarGo/Scripts/Input/ContinuousInput.cs:49-53 | reading requires the capture to be complete, and what it reads is unchanged by any frame while no capture is requested |
| ContinuousInput.OperationsPreserveInv | AvatarGo/Assets/AvatarGo/Scripts/Input/ContinuousInput.cs:25-47 | capturing implies a target, before and after every operation |
| ContinuousInput.CaptureTickRead | AvatarGo/Assets/AvatarGo/Scripts/Input/ContinuousInput.cs:25-53 | capture, one tick and read give the target's position at that tick |
| ContinuousInput.SecondCaptureWins | AvatarGo/Assets/AvatarGo/Scripts/Input/ContinuousInput.cs:39-47 | of two captures before a tick, the second target is the one sampled |
| ContinuousInput.IdleTickKeepsPoint | AvatarGo/Assets/AvatarGo/Scripts/Input/ContinuousInput.cs:25-53 | a tick while idle leaves the readable point unchanged |
| PlaneFit.FitPlane | AvatarGo/Assets/AvatarGo/Scripts/Utils/Utils.cs:46-89 | the fit fails iff there are fewer than three points or the centred moment determinant is zero; on success c = -1 |
| PlaneFit.Solve | AvatarGo/Assets/AvatarGo/Scripts/Utils/Utils.cs:75-88 | the 2x2 solve fails exactly when the determinant is zero |
| PlaneFit.FitPlaneThroughCentroid | AvatarGo/Assets/AvatarGo/Scripts/Utils/Utils.cs:55-82 | the fitted plane passes through the mean of the points |
| PlaneFit.Cramer | AvatarGo/Assets/AvatarGo/Scripts/Utils/Utils.cs:75-80 | the closed-form a and b satisfy both normal equations when the determinant is non-zero |
| PlaneFit.FitPlaneSolvesNormalEquations | AvatarGo/Assets/AvatarGo/Scripts/Utils/Utils.cs:63-82 | the fitted (a, b) solve xx·a + xy·b = xz and xy·a + yy·b = yz over the centred moments |
| PlaneFit.SolveSolves | AvatarGo/Assets/AvatarGo/Scripts/Utils/Utils.cs:75-88 | a successful solve satisfies the normal equations |
| PlaneFit.SumOfPermutation | AvatarGo/Assets/AvatarGo/Scripts/Utils/Utils.cs:55-72 | sums over two orderings of the same multiset of points are equal |
| PlaneFit.FitPlaneOrderIndependent | AvatarGo/Assets/AvatarGo/Scripts/Utils/Utils.cs:46-89 | reordering the points does not change the fit |
| SteamVRDriver.Contains | AvatarGo/Assets/AvatarGo/Scripts/Drivers/SteamVRDriver.cs:248-265 | the substring test holds iff the pattern occurs at some position |
| SteamVRDriver.Classify | AvatarGo/Assets/AvatarGo/Scripts/Drivers/SteamVRDriver.cs:248-265 | only running devices count; a running device is the headset iff its model names "hmd", a controller iff it names "controller" but not "hmd", a tracker iff it names "tracker_vive" and neither of the others |
| SteamVRDriver.DetectDevices | AvatarGo/Assets/AvatarGo/Scripts/Drivers/SteamVRDriver.cs:218-293 | the counts are the numbers of running controllers and trackers; the first slots hold the trackers' indices in order and the rest keep their old values; success iff at least two controllers and three trackers |
| SteamVRDriver.DetectStep | AvatarGo/Assets/AvatarGo/Scripts/Drivers/SteamVRDriver.cs:248-265 | one slot adds its device to its class count, and a tracker's slot number goes into the next free buffer place |
| SteamVRDriver.SetDevicesIndex | AvatarGo/Assets/AvatarGo/Scripts/Drivers/SteamVRDriver.cs:164-215 | right hand iff ≥1 controller, left hand iff ≥2, pelvis iff ≥1 tracker, right foot iff ≥2, left foot iff ≥3, each tracker role with its slot's index |
| SteamVRDriver.ConnectedActivatesAll | AvatarGo/Assets/AvatarGo/Scripts/Drivers/SteamVRDriver.cs:164-215 | with enough devices for detection to succeed, every role is activated |
| SteamVRDriver.ActivationFitsLayout | AvatarGo/Assets/AvatarGo/Scripts/Drivers/SteamVRDriver.cs:164-215 | with only the roles setDevicesIndex switched on active, no more hands are active than controllers and no more tracked roles than trackers |
| SteamVRDriver.BuildLayout | AvatarGo/Assets/AvatarGo/Scripts/Drivers/SteamVRDriver.cs:312-368 | the layout holds one point and one object for the head and each counted device |
| SteamVRDriver.BuildLayoutSlots | AvatarGo/Assets/AvatarGo/Scripts/Drivers/SteamVRDriver.cs:312-368 | with no more active hands than controllers: slot 0 holds the head if it is active and is empty otherwise; the active hands fill the slots from 1, left before right; the active pelvis, left foot and right foot fill the slots from `1 + controllers` in that order; every other slot is empty (null, zero point); every filled slot holds its object's position |
| SteamVRDriver.OrientNormal | AvatarGo/Assets/AvatarGo/Scripts/Drivers/SteamVRDriver.cs:406-409 | the normal is kept or negated so that its dot product with the head's forward direction is the absolute value |
| SteamVRDriver.PlanePointOnPlane | AvatarGo/Assets/AvatarGo/Scripts/Drivers/SteamVRDriver.cs:412 | the point (0, 0, -d/c) lies on the fitted plane |
| SteamVRDriver.PlaneCoordinates | AvatarGo/Assets/AvatarGo/Scripts/Drivers/SteamVRDriver.cs:416-438 | every point gets coordinates, and the head is the origin |
| SteamVRDriver.LastMatchMeaning | AvatarGo/Assets/AvatarGo/Scripts/Drivers/SteamVRDriver.cs:441-466 | a role keeps its binding when no slot matches, and otherwise gets the object of a matching slot after which none matches |
| SteamVRDriver.AssignHandsIsLastMatch | AvatarGo/Assets/AvatarGo/Scripts/Drivers/SteamVRDriver.cs:441-451 | each hand is the last controller on its side (u < 0 left, else right); the other roles are untouched |
| SteamVRDriver.AssignTrackersIsLastMatch | AvatarGo/Assets/AvatarGo/Scripts/Drivers/SteamVRDriver.cs:452-466 | the pelvis is the last tracker with abs(v) < 0.8, each foot the last other tracker on its side; the other roles are untouched |
| SteamVRDriver.Identify | AvatarGo/Assets/AvatarGo/Scripts/Drivers/SteamVRDriver.cs:296-310 | failures carry code 0, 1 or 2, and code 0 happens iff there are fewer than two devices |
| SteamVRDriver.IdentifyFailureCodes | AvatarGo/Assets/AvatarGo/Scripts/Drivers/SteamVRDriver.cs:370-405 | with two or more devices, code 1 iff the plane fit fails, code 2 iff the normalised normal and forward direction have abs(dot) < 0.5 |
| SteamVRDriver.IdentifiedOrientation | AvatarGo/Assets/AvatarGo/Scripts/Drivers/SteamVRDriver.cs:384-412 | on success the oriented normal has dot product ≥ 0.5 with the forward direction, and the reference point lies on the plane |
| SteamVRDriver.IdentifiedRoles | AvatarGo/Assets/AvatarGo/Scripts/Drivers/SteamVRDriver.cs:424-474 | on success the head keeps its binding and each other role is the last matching device of its kind, or keeps its binding |
| SteamVRDriver.IdentifyDevices | AvatarGo/Assets/AvatarGo/Scripts/Drivers/SteamVRDriver.cs:296-481 | only full success sets ready, unblocks input and re-binds the roles; a failure leaves input blocked, ready and the roles as they were |
| AvatarBody.NewBody | AvatarGo/Assets/AvatarGo/Scripts/AvatarBody.cs:38-54 | a new body has no anchors, the default measures and is neither completed nor started |
| AvatarBody.SetCompleted | AvatarGo/Assets/AvatarGo/Scripts/AvatarBody.cs:257-260 | sets the completed flag and nothing else |
| AvatarBody.SetStarted | AvatarGo/Assets/AvatarGo/Scripts/AvatarBody.cs:269-272 | sets the started flag and nothing else |
| AvatarBody.WristOffsetIsBackward | AvatarGo/Assets/AvatarGo/Scripts/AvatarBody.cs:198-220 | the wrist anchor offset is 0.175 backward |
| AvatarBody.AnkleAnchor | AvatarGo/Assets/AvatarGo/Scripts/AvatarBody.cs:135-161 | an ankle anchor hangs under its foot tracker and undoes the tracker's rotation |
| AvatarBody.SetupUpperAnchors | AvatarGo/Assets/AvatarGo/Scripts/AvatarBody.cs:198-232 | the wrist anchors get identity rotation and the backward offset; the neck anchor gets identity rotation and no offset; nothing else changes |
| AvatarBody.FeetLeft | AvatarGo/Assets/AvatarGo/Scripts/AvatarBody.cs:274-288 | with left foot and pelvis active, the left length is abs(foot.z - pelvis.z) and the left ankle anchor is created; otherwise the body is unchanged; nothing else changes |
| AvatarBody.FeetRight | AvatarGo/Assets/AvatarGo/Scripts/AvatarBody.cs:274-288 | the same for the right side |
| AvatarBody.FeetSidesIndependent | AvatarGo/Assets/AvatarGo/Scripts/AvatarBody.cs:274-288 | each side's length and anchor depend on that side alone, and lengths stay non-negative |
| AvatarBody.SampleAt | AvatarGo/Assets/AvatarGo/Scripts/Input/ContinuousInput.cs:39-53 | one sample through the sampler yields the object's position and leaves the sampler idle |
| AvatarBody.HeightWidth | AvatarGo/Assets/AvatarGo/Scripts/AvatarBody.cs:59-102 | the routine blocks input first, only samples in between, then unblocks and reports success; it keeps the completed and started flags |
| AvatarBody.HeightWidthSamplesInOrder | AvatarGo/Assets/AvatarGo/Scripts/AvatarBody.cs:63-97 | the objects are sampled one at a time: the head if active, the pelvis if head and pelvis are, then both feet if both are |
| AvatarBody.HeightWidthMeasures | AvatarGo/Assets/AvatarGo/Scripts/AvatarBody.cs:63-97 | the eye height is the head sample's y iff the head is active; the left and right foot lengths are each the absolute z distance from that foot's sample to the pelvis sample, or to zero when the head is inactive; without both feet and the pelvis neither length nor any anchor changes |
| AvatarBody.RootMeasures | AvatarGo/Assets/AvatarGo/Scripts/AvatarBody.cs:104-133 | the routine is bracketed by blocking and reporting success; with the pelvis inactive it changes nothing |
| AvatarBody.RootBody | AvatarGo/Assets/AvatarGo/Scripts/AvatarBody.cs:113-128 | the root step keeps the completed and started flags |
| AvatarBody.SaveRootStepData | AvatarGo/Assets/AvatarGo/Scripts/AvatarBody.cs:234-248 | each of the six live poses is copied into its own field, and nothing else changes |
| AvatarBody.RootMeasuresEffect | AvatarGo/Assets/AvatarGo/Scripts/AvatarBody.cs:104-196 | with the pelvis active, it samples pelvis and both feet, creates the root anchor at the hips offset, rewrites both ankle offsets from the matching foot sample to the avatar's foot and snapshots all six poses (pelvis, both feet, head, both hands) from the last frame; the other anchors and measures are untouched |
| ArmsStretch.StretchSide | AvatarGo/Assets/AvatarGo/Scripts/Avatar/ArmsStretch.cs:28-40 | a side without an end effector is untouched; otherwise the forearm moves by the displacement and carries its child hand along, so the forearm-to-hand vector is kept; the effector never changes |
| ArmsStretch.DoUpdate | AvatarGo/Assets/AvatarGo/Scripts/Avatar/ArmsStretch.cs:26-41 | each side is moved rigidly, keeping its forearm-to-hand vector, and a side without an effector keeps its pose |
| ArmsStretch.StretchTowardsHand | AvatarGo/Assets/AvatarGo/Scripts/Avatar/ArmsStretch.cs:30-39 | the forearm moves by a non-negative multiple of the forearm-to-hand vector |
| ArmsStretch.HandAtEffectorNoMove | AvatarGo/Assets/AvatarGo/Scripts/Avatar/ArmsStretch.cs:31-38 | a hand already at its effector leaves the arm in place |
| ArmsStretch.SidesIndependent | AvatarGo/Assets/AvatarGo/Scripts/Avatar/ArmsStretch.cs:26-41 | each side's result depends on that side alone |
| Sdf.SphereDistance | AvatarGo/Assets/AvatarGo/Scripts/Utils/SphereSDF.cs:9-12 | the distance is at least -R, with equality exactly at the centre |
| Sdf.SphereTranslationInvariant | AvatarGo/Assets/AvatarGo/Scripts/Utils/SphereSDF.cs:9-12 | moving centre and point together leaves the distance unchanged |
| Sdf.SphereRadiusMonotone | AvatarGo/Assets/AvatarGo/Scripts/Utils/SphereSDF.cs:9-12 | a larger radius never increases the distance |
| Sdf.InteriorTerm | AvatarGo/Assets/AvatarGo/Scripts/Utils/CubeSDF.cs:10-15 | the interior term is at most zero, and zero iff the largest component of q is non-negative |
| Sdf.BoxDistance | AvatarGo/Assets/AvatarGo/Scripts/Utils/CubeSDF.cs:13-14 | for a point in the box's local frame: inside the box the distance is at most zero; outside it is the norm of the positive part of q, which is positive |
| Sdf.CubeDistance | AvatarGo/Assets/AvatarGo/Scripts/Utils/CubeSDF.cs:10-15 | a world point's distance is at most zero exactly when the point, taken into the box's local frame, lies within the box |
| Sdf.ParentRotationWins | AvatarGo/Assets/AvatarGo/Scripts/Utils/CubeSDF.cs:12 | a box with a parent is turned back by the parent's rotation only: its own rotation does not affect the distance |
| Sdf.CubeTranslationInvariant | AvatarGo/Assets/AvatarGo/Scripts/Utils/CubeSDF.cs:12 | moving box and point together leaves the distance unchanged |
| Sdf.ShapeDistance | AvatarGo/Assets/AvatarGo/Scripts/Controllers/AvatarController_UnityIK.cs:491-495 | an object's distance is the sphere's or the box's: the sphere's is -R exactly at its centre and never less, the box's is at most zero exactly inside it |
| Sdf.BoxMirrorSymmetric | AvatarGo/Assets/AvatarGo/Scripts/Utils/CubeSDF.cs:10-15 | flipping the sign of any local coordinate leaves the distance unchanged |
| Sdf.BoxCentreDistance | AvatarGo/Assets/AvatarGo/Scripts/Utils/CubeSDF.cs:10-15 | at the centre of a box with positive size the distance is -min(size)/2 |
| ControllerFingers.Start | AvatarGo/Assets/AvatarGo/Scripts/Avatar/ControllerFingers.cs:21-25 | both plane normals are normalised and nothing else changes |
| ControllerFingers.CapsuleParam | AvatarGo/Assets/AvatarGo/Scripts/Avatar/ControllerFingers.cs:45-53 | the projection parameter lies in [0, 1]; the segment must not be degenerate |
| ControllerFingers.CapsuleDistance | AvatarGo/Assets/AvatarGo/Scripts/Avatar/ControllerFingers.cs:28-53 | the capsule distance is at least -(radius + 0.005) |
| ControllerFingers.CapsuleIsSegmentDistance | AvatarGo/Assets/AvatarGo/Scripts/Avatar/ControllerFingers.cs:45-53 | the capsule distance is the distance to the projected point of the segment, less radius and finger thickness |
| ControllerFingers.CapsuleEndpoints | AvatarGo/Assets/AvatarGo/Scripts/Avatar/ControllerFingers.cs:45-53 | both segment ends are at the minimum distance |
| ControllerFingers.ThumbPlaneDistance | AvatarGo/Assets/AvatarGo/Scripts/Avatar/ControllerFingers.cs:28-60 | the thumb-plane distance is the absolute signed offset from the plane, so never negative |
| ControllerFingers.SeparatorDistance | AvatarGo/Assets/AvatarGo/Scripts/Avatar/ControllerFingers.cs:28-67 | the separator distance is zero on the plane's centre point |
| ControllerFingers.SeparatorAlongNormal | AvatarGo/Assets/AvatarGo/Scripts/Avatar/ControllerFingers.cs:28-67 | a point `t` normals from the separator's centre has separator distance `t` times the normal's squared length, so with a non-zero normal it is positive exactly on the normal's side |
| ControllerFingers.ControllerDistance | AvatarGo/Assets/AvatarGo/Scripts/Avatar/ControllerFingers.cs:40-53 | a world point is taken into the controller's frame; its distance is then its distance from the nearest point of the segment less the radii, and never below -(radius + 0.005) |
| ControllerFingers.SignedPlaneDistanceAlongNormal | AvatarGo/Assets/AvatarGo/Scripts/Avatar/ControllerFingers.cs:55-67 | the signed offset grows linearly along the normal and changes sign across the plane |
| FingerSolver.BoneIndex | AvatarGo/Assets/AvatarGo/Scripts/Controllers/AvatarController_UnityIK.cs:314-392 | every bone has an index below 30 |
| FingerSolver.BoneAtIndex | AvatarGo/Assets/AvatarGo/Scripts/Controllers/AvatarController_UnityIK.cs:314-392 | decoding a bone's index gives the bone back |
| FingerSolver.IndexOfBoneAt | AvatarGo/Assets/AvatarGo/Scripts/Controllers/AvatarController_UnityIK.cs:314-392 | encoding the bone at an index gives the index back |
| FingerSolver.ThumbLayout | AvatarGo/Assets/AvatarGo/Scripts/Controllers/AvatarController_UnityIK.cs:314-401 | an index is a thumb bone iff its offset within its hand is at least 12, which holds for its whole chain; the right thumb starts at 12 |
| FingerSolver.InitInBounds | AvatarGo/Assets/AvatarGo/Scripts/Controllers/AvatarController_UnityIK.cs:388-391 | the initial parameters, all zero, are within their bounds |
| FingerSolver.Penalty | AvatarGo/Assets/AvatarGo/Scripts/Controllers/AvatarController_UnityIK.cs:522-541 | a distance's penalty is non-negative, at least its absolute value, and zero iff the distance is zero |
| FingerSolver.SeparatorTerm | AvatarGo/Assets/AvatarGo/Scripts/Controllers/AvatarController_UnityIK.cs:522-541 | a separator term is non-negative, zero for a thumb, and the distance itself when positive |
| FingerSolver.ControllerScore | AvatarGo/Assets/AvatarGo/Scripts/Controllers/AvatarController_UnityIK.cs:522-541 | a controller score is non-negative and bounds the sum of absolute distances |
| FingerSolver.ObjectScore | AvatarGo/Assets/AvatarGo/Scripts/Controllers/AvatarController_UnityIK.cs:543-555 | an object score is non-negative and zero iff all three distances are |
| FingerSolver.ThumbIgnoresSeparator | AvatarGo/Assets/AvatarGo/Scripts/Controllers/AvatarController_UnityIK.cs:522-541 | a thumb's score does not depend on the separator distances |
| FingerSolver.PlaneScore | AvatarGo/Assets/AvatarGo/Scripts/Controllers/AvatarController_UnityIK.cs:557-563 | the thumb plane score is non-negative and zero iff all three plane distances are |
| FingerSolver.ProbePoints | AvatarGo/Assets/AvatarGo/Scripts/Controllers/AvatarController_UnityIK.cs:525-527 | the first two probes are the joints; the third lies on the last joint's up ray, and coincides with the last joint when the bone has no length, the offset is zero or up is zero |
| FingerSolver.ControllerChains | AvatarGo/Assets/AvatarGo/Scripts/Controllers/AvatarController_UnityIK.cs:522-541 | every chain score against a controller is non-negative, and zero only with all three probe points on the capsule's surface |
| FingerSolver.PlaneChains | AvatarGo/Assets/AvatarGo/Scripts/Controllers/AvatarController_UnityIK.cs:557-563 | every thumb plane score is non-negative, and zero exactly when all three probe points lie on the thumb plane |
| FingerSolver.ObjectChains | AvatarGo/Assets/AvatarGo/Scripts/Controllers/AvatarController_UnityIK.cs:543-555 | every chain score against an object is non-negative, and zero exactly when all three probe points lie on the object's surface |
| FingerSolver.SetT | AvatarGo/Assets/AvatarGo/Scripts/Controllers/AvatarController_UnityIK.cs:403-420 | writes one bone's parameter and nothing else |
| FingerSolver.SetThumbX | AvatarGo/Assets/AvatarGo/Scripts/Controllers/AvatarController_UnityIK.cs:425-446 | writes one thumb's twist and nothing else |
| FingerSolver.TwistStep | AvatarGo/Assets/AvatarGo/Scripts/Controllers/AvatarController_UnityIK.cs:425-446 | the twist stays in [0, 1], changes only when the plane distance exceeds 0.001, and the other thumb is untouched |
| FingerSolver.AutomaticBone | AvatarGo/Assets/AvatarGo/Scripts/Controllers/AvatarController_UnityIK.cs:403-446 | one descent step clamps a thumb bone to [-1, 1] and a finger bone to [0, 1], with the gradient of the thumb's first bone sampled untwisted; other bones are untouched; the twist changes only for thumbs |
| FingerSolver.FirstThumbStepIgnoresTwist | AvatarGo/Assets/AvatarGo/Scripts/Controllers/AvatarController_UnityIK.cs:403-418 | the thumb's first bone steps the same whatever the current twist, as it is reset to its plain rotation before sampling |
| FingerSolver.AutomaticChain | AvatarGo/Assets/AvatarGo/Scripts/Controllers/AvatarController_UnityIK.cs:399-450 | a chain pass keeps all bounds and touches only the chain's remaining bones |
| FingerSolver.AutomaticHand | AvatarGo/Assets/AvatarGo/Scripts/Controllers/AvatarController_UnityIK.cs:394-452 | a hand pass keeps all bounds and touches only that hand's bones |
| FingerSolver.Automatic | AvatarGo/Assets/AvatarGo/Scripts/Controllers/AvatarController_UnityIK.cs:226-253 | the Automatic pass on both hands keeps every parameter within its bounds |
| FingerSolver.EarlyStopKeepsRest | AvatarGo/Assets/AvatarGo/Scripts/Controllers/AvatarController_UnityIK.cs:449 | once a chain's score falls below 0.001 its remaining bones keep their parameters |
| FingerSolver.TwistNeedsPlaneDistance | AvatarGo/Assets/AvatarGo/Scripts/Controllers/AvatarController_UnityIK.cs:425-446 | when the plane distance is at most 0.001 after the bend, neither twist changes |
| FingerSolver.RelaxBehaviour | AvatarGo/Assets/AvatarGo/Scripts/Controllers/AvatarController_UnityIK.cs:462-489 | a thumb moves towards 0.1 without crossing it, by at most 0.00125 except below -0.90125, where it jumps to -0.9; a finger stays in [0.1, 1] and moves down by at most 0.00125 |
| FingerSolver.RelaxHand | AvatarGo/Assets/AvatarGo/Scripts/Controllers/AvatarController_UnityIK.cs:462-489 | without contact every bone of the hand relaxes, the rest is untouched, and the bounds hold |
| FingerSolver.ObjectsBone | AvatarGo/Assets/AvatarGo/Scripts/Controllers/AvatarController_UnityIK.cs:498-514 | one step with contact keeps a thumb bone in [-1, 1] and a finger bone in [0, 0.75], and touches nothing else |
| FingerSolver.ObjectsChain | AvatarGo/Assets/AvatarGo/Scripts/Controllers/AvatarController_UnityIK.cs:496-518 | a chain pass keeps bounds and twists and touches only the chain's remaining bones |
| FingerSolver.ObjectsHandContact | AvatarGo/Assets/AvatarGo/Scripts/Controllers/AvatarController_UnityIK.cs:491-519 | a hand pass with contact touches only that hand's bones |
| FingerSolver.ObjectsHand | AvatarGo/Assets/AvatarGo/Scripts/Controllers/AvatarController_UnityIK.cs:455-520 | either branch of the Objects pass keeps the bounds |
| FingerSolver.Objects | AvatarGo/Assets/AvatarGo/Scripts/Controllers/AvatarController_UnityIK.cs:226-253 | the Objects pass keeps the bounds and never changes the thumb twists |
| FingerSolver.ObjectsIgnoresTwist | AvatarGo/Assets/AvatarGo/Scripts/Controllers/AvatarController_UnityIK.cs:491-519 | the Objects pass never applies a twist: parameters with the same bends produce the same bends whatever the thumbs' twists |
| FingerSolver.ObjectsChainTwistFree | AvatarGo/Assets/AvatarGo/Scripts/Controllers/AvatarController_UnityIK.cs:496-518 | a chain pass against an untwisted score bends the same from any twist |
| FingerSolver.ObjectsContactFingerBound | AvatarGo/Assets/AvatarGo/Scripts/Controllers/AvatarController_UnityIK.cs:508-517 | with contact, every finger bone the pass changes ends in [0, 0.75] |
| IkController.InitSatisfiesInv | AvatarGo/Assets/AvatarGo/Scripts/Controllers/AvatarController_UnityIK.cs:12-15 | the controller starts with flag 0, not calibrated, with parameters within bounds |
| IkController.Configure | AvatarGo/Assets/AvatarGo/Scripts/Controllers/AvatarController_UnityIK.cs:270-312 | each setter changes its own switch and nothing else, and the finger setters also set the mode |
| IkController.OnAnimatorIK | AvatarGo/Assets/AvatarGo/Scripts/Controllers/AvatarController_UnityIK.cs:63-192 | goals are set iff everything is present and the flag is not 0; the state changes only on the first full pass, which moves the flag from 0 to 1 and records the reference vector |
| IkController.HandTarget | AvatarGo/Assets/AvatarGo/Scripts/Controllers/AvatarController_UnityIK.cs:148-173 | the hand bone is first put at the shifted wrist w, where its grab point is w plus the grab offset; the goal, w mirrored past that point, is w less the grab offset, whatever the hand's previous position |
| IkController.HandTargetMirrorsGrab | AvatarGo/Assets/AvatarGo/Scripts/Controllers/AvatarController_UnityIK.cs:148-173 | the shifted wrist is the midpoint of the hand goal and the grab point |
| IkController.FootTarget | AvatarGo/Assets/AvatarGo/Scripts/Controllers/AvatarController_UnityIK.cs:175-191 | relative to the hips bone, a foot goal sits where its ankle anchor sits relative to the root anchor |
| IkController.TargetsOf | AvatarGo/Assets/AvatarGo/Scripts/Controllers/AvatarController_UnityIK.cs:147-191 | relative to the hips bone, each goal sits where its anchor sits relative to the root anchor, each hand goal then pulled back by its grab offset |
| IkController.TargetsIgnoreTrackedTranslation | AvatarGo/Assets/AvatarGo/Scripts/Controllers/AvatarController_UnityIK.cs:118-191 | moving every anchor by the same vector leaves all four goals unchanged |
| IkController.Place | AvatarGo/Assets/AvatarGo/Scripts/Controllers/AvatarController_UnityIK.cs:258-267 | a missing model stays missing; a clamped model is held so that its offset lands on the grab point; an unclamped one is reset to its parent |
| IkController.FingerPass | AvatarGo/Assets/AvatarGo/Scripts/Controllers/AvatarController_UnityIK.cs:226-253 | Open and Uniform leave the parameters alone; the solver modes keep them within bounds; Objects keeps the twists; the scores descended on are the non-negative chain scores against each hand's controller or touched object |
| IkController.LateUpdate | AvatarGo/Assets/AvatarGo/Scripts/Controllers/AvatarController_UnityIK.cs:194-268 | below flag 2 only the flag moves from 1 to 2; afterwards it writes the hips, the hands and the arm stretch as the switches say, and places both models |
| IkController.LateUpdate0 | AvatarGo/Assets/AvatarGo/Scripts/Controllers/AvatarController_UnityIK.cs:196-200 | the early return writes nothing and moves the flag from 1 to 2 |
| IkController.CalibrationSequence | AvatarGo/Assets/AvatarGo/Scripts/Controllers/AvatarController_UnityIK.cs:12-200 | first IK pass records the reference and sets no goal; the next LateUpdate finishes calibration without writing; the next IK pass sets the goals |
| IkController.LateUpdateAloneNeverCalibrates | AvatarGo/Assets/AvatarGo/Scripts/Controllers/AvatarController_UnityIK.cs:194-200 | at flag 0, LateUpdate changes nothing |
| AvatarGoComponent.ApplyAll | AvatarGo/Assets/AvatarGo/Scripts/Controllers/AvatarController_UnityIK.cs:270-312 | a sequence of setter calls keeps the flag, the reference and the finger parameters, and keeps the controller's invariant |
| AvatarGoComponent.BranchMatchesTable | AvatarGo/Assets/AvatarGo/Scripts/AvatarGo.cs:54-155 | each branch of the style switch decides what an independent table of the style policy lists, with uniform bend 0.1 for hidden controllers |
| AvatarGoComponent.ApplySetters | AvatarGo/Assets/AvatarGo/Scripts/AvatarGo.cs:54-155 | a branch's four setter calls leave the switches and mode the branch chose |
| AvatarGoComponent.ResetControllersStyle | AvatarGo/Assets/AvatarGo/Scripts/AvatarGo.cs:54-171 | the reset touches only the controller, the body and the models |
| AvatarGoComponent.ResetFollowsTable | AvatarGo/Assets/AvatarGo/Scripts/AvatarGo.cs:54-171 | the controller's switches and the visibility of all six models (head, pelvis and both feet follow the body flag; both hands the controller flag) after a reset are those of the policy table |
| AvatarGoComponent.NotDoneIsOpenFree | AvatarGo/Assets/AvatarGo/Scripts/AvatarGo.cs:58-70 | before DONE every style yields a free, open-handed controller without clamp or stretch, and no model is hidden |
| AvatarGoComponent.DoneHidesBodyModels | AvatarGo/Assets/AvatarGo/Scripts/AvatarGo.cs:72-170 | after DONE the head, pelvis and foot models are hidden for every style |
| AvatarGoComponent.ResetCentresWrists | AvatarGo/Assets/AvatarGo/Scripts/AvatarGo.cs:157-163 | with both wrist anchors present, their offsets become 0.1 backward; nothing else of the body changes |
| AvatarGoComponent.ResetIdempotent | AvatarGo/Assets/AvatarGo/Scripts/AvatarGo.cs:54-171 | resetting twice gives the same models and body as resetting once |
| AvatarGoComponent.OnCalibrationFinishedInvoke | AvatarGo/Assets/AvatarGo/Scripts/AvatarGo.cs:48-52 | sets the finished flag, changes nothing else, and notifies the listeners if there are any |
| AvatarGoComponent.NotifyIdempotent | AvatarGo/Assets/AvatarGo/Scripts/AvatarGo.cs:48-52 | notifying twice leaves the same state as notifying once |
| AvatarGoComponent.InitBody | AvatarGo/Assets/AvatarGo/Scripts/AvatarGo.cs:215-219 | installs a fresh body with the given measures, no anchors, not completed, and changes nothing else |
| AvatarGoComponent.LoadAvatar | AvatarGo/Assets/AvatarGo/Scripts/AvatarGo.cs:315-320 | loading refuses iff the body is not completed, and then changes nothing |
| SingleInput.Init | AvatarGo/Assets/AvatarGo/Scripts/Input/SingleInput.cs:27-28 | the controller starts at DEVICES, not succeeded, ready exactly with a simulator, and satisfies its invariant |
| SingleInput.Tick | AvatarGo/Assets/AvatarGo/Scripts/Input/SingleInput.cs:66-174 | a frame without a driver does nothing; the ground snap fires exactly when the pending marker's count reads 2; a started body stays started |
| SingleInput.Prelude | AvatarGo/Assets/AvatarGo/Scripts/Input/SingleInput.cs:68-92 | a pending success is consumed by advancing exactly one stage; the mannequin is loaded exactly on entering ROOT_AVATAR and calibration finished exactly on entering DONE; the snap fires exactly when the count reads 2 |
| SingleInput.Handle | AvatarGo/Assets/AvatarGo/Scripts/Input/SingleInput.cs:104-122 | only adds effects, never a snap; devices are detected whenever the controllers are not started on SteamVR and only then; the stage moves only when the pipeline starts |
| SingleInput.Respond | AvatarGo/Assets/AvatarGo/Scripts/Input/SingleInput.cs:124-189 | adds at most one of identify, pipeline start or forward; a start needs a ready driver and an unstarted body, and moves to T_POSE; a forward needs ROOT_AVATAR and starts a measurement |
| SingleInput.StickToGround | AvatarGo/Assets/AvatarGo/Scripts/Input/SingleInput.cs:234-255 | without a marker nothing changes; a snap clears the marker; otherwise the countdown advances by one; nothing else changes |
| SingleInput.StartControllers | AvatarGo/Assets/AvatarGo/Scripts/Input/SingleInput.cs:36-50 | each hand is marked by its activity, and the started flag becomes set once either hand is active |
| SingleInput.Detection | AvatarGo/Assets/AvatarGo/Scripts/Input/SingleInput.cs:104-113 | before the controllers start, a SteamVR tick detects devices, clears ready and starts the controllers on success; otherwise nothing changes |
| SingleInput.UpdateControllers | AvatarGo/Assets/AvatarGo/Scripts/Input/SingleInput.cs:191-194 | with both hands known nothing changes; otherwise the controllers are restarted |
| SingleInput.IdleElapsed | AvatarGo/Assets/AvatarGo/Scripts/Input/SingleInput.cs:210-218 | the idle timer clears the recent flag and nothing else |
| SingleInput.BlockControllers | AvatarGo/Assets/AvatarGo/Scripts/Input/SingleInput.cs:220-223 | sets the busy flag and nothing else |
| SingleInput.MeasurementDone | AvatarGo/Assets/AvatarGo/Scripts/AvatarBody.cs:99-100 | a finished measurement reports success and unblocks the input, leaving stage, ready and marker alone |
| SingleInputProperties.PreludePreservesInv | AvatarGo/Assets/AvatarGo/Scripts/Input/SingleInput.cs:66-102 | the part of the tick before the gates keeps the invariant and clears succeeded |
| SingleInputProperties.PreludeFrame | AvatarGo/Assets/AvatarGo/Scripts/Input/SingleInput.cs:66-102 | before the gates a tick only snaps, loads the mannequin or finishes, and leaves gates, controllers, ready and started alone |
| SingleInputProperties.HandleFrame | AvatarGo/Assets/AvatarGo/Scripts/Input/SingleInput.cs:104-167 | past the gates a tick only detects, identifies, measures or forwards, and leaves the marker and completion alone |
| SingleInputProperties.HandleStarted | AvatarGo/Assets/AvatarGo/Scripts/Input/SingleInput.cs:137-167 | once started the body stays started and only detection, identification or forwarding can happen |
| SingleInputProperties.HandleForward | AvatarGo/Assets/AvatarGo/Scripts/Input/SingleInput.cs:164-189 | a forward step happens only in ROOT_AVATAR, and it blocks input, raises the recent flag and starts measuring |
| SingleInputProperties.HandleIdentify | AvatarGo/Assets/AvatarGo/Scripts/Input/SingleInput.cs:125-134 | identification happens only with SteamVR, nothing else but detection happens with it, and ready and busy follow its result |
| SingleInputProperties.HandlePreservesInv | AvatarGo/Assets/AvatarGo/Scripts/Input/SingleInput.cs:104-167 | the part of the tick past the gates keeps the invariant |
| SingleInputProperties.TickPreservesInv | AvatarGo/Assets/AvatarGo/Scripts/Input/SingleInput.cs:66-174 | a tick keeps the invariant |
| SingleInputProperties.EventsPreserveInv | AvatarGo/Assets/AvatarGo/Scripts/Input/SingleInput.cs:210-223 | the idle timer, blocking and a finished measurement keep the invariant |
| SingleInputProperties.TickStageMonotone | AvatarGo/Assets/AvatarGo/Scripts/Input/SingleInput.cs:66-174 | a tick never lowers the stage's value |
| SingleInputProperties.SucceededAdvancesOneStep | AvatarGo/Assets/AvatarGo/Scripts/Input/SingleInput.cs:73-92 | after a success the tick advances exactly one stage and clears succeeded, whatever the gates say |
| SingleInputProperties.EnteringDoneFinishes | AvatarGo/Assets/AvatarGo/Scripts/Input/SingleInput.cs:84-90 | entering DONE completes the body and fires calibration-finished in that tick |
| SingleInputProperties.GatedTickDoesNothing | AvatarGo/Assets/AvatarGo/Scripts/Input/SingleInput.cs:94-102 | with a pending marker, busy or recent set, a tick neither identifies, starts nor forwards, and leaves gates, ready and controllers alone |
| SingleInputProperties.GroundSnapOnThirdTick | AvatarGo/Assets/AvatarGo/Scripts/Input/SingleInput.cs:234-255 | after a marker appears, the snap fires on the third tick and clears the marker |
| SingleInputProperties.RespondIdentify | AvatarGo/Assets/AvatarGo/Scripts/Input/SingleInput.cs:125-134 | an identification leaves the body alone, has no other effect, and sets ready and busy from its result |
| SingleInputProperties.IdentifyOnlyOnTrigger | AvatarGo/Assets/AvatarGo/Scripts/Input/SingleInput.cs:94-134 | identification happens only with SteamVR on an ungated tick, and that tick neither starts nor forwards the pipeline |
| SingleInputProperties.IdentifyDecidesReadiness | AvatarGo/Assets/AvatarGo/Scripts/Input/SingleInput.cs:125-134 | a tick that identifies leaves the body's flags alone and sets ready and busy from the result |
| SingleInputProperties.TickUngated | AvatarGo/Assets/AvatarGo/Scripts/Input/SingleInput.cs:94-102 | a tick with any effect beyond the prelude had its driver and passed every gate |
| SingleInputProperties.StartedIsFinal | AvatarGo/Assets/AvatarGo/Scripts/Input/SingleInput.cs:137-161 | once started, the body stays started and the pipeline is not started again |
| SingleInputProperties.PipelineStart | AvatarGo/Assets/AvatarGo/Scripts/Input/SingleInput.cs:137-161 | starting the pipeline sets started and T_POSE; a simulator succeeds at once from the root, SteamVR blocks input and measures |
| SingleInputProperties.Run | AvatarGo/Assets/AvatarGo/Scripts/Input/SingleInput.cs:66-174 | a run of ticks yields one effect set per tick |
| SingleInputProperties.RunStartsAtMostOnce | AvatarGo/Assets/AvatarGo/Scripts/Input/SingleInput.cs:137-161 | over any run the pipeline starts at most once, and never once the body is started |
| SingleInputProperties.ForwardOnlyAtRootAvatar | AvatarGo/Assets/AvatarGo/Scripts/Input/SingleInput.cs:177-218 | a forward step happens only in ROOT_AVATAR and raises the recent flag, so the next tick cannot forward again |
| SingleInputProperties.SimulatorStaysReady | AvatarGo/Assets/AvatarGo/Scripts/Drivers/SimulatorDriver.cs:6-15 | no tick clears a simulator's ready flag |
| SingleInputProperties.DetectClearsReady | AvatarGo/Assets/AvatarGo/Scripts/Drivers/SteamVRDriver.cs:286-287 | a tick that detects devices without identifying leaves the driver not ready |

## Left out

- Rotations are not modelled. Quaternion products, Slerp, `FromToRotation`,
  Euler angles and bone hierarchy propagation are parameters or absent;
  only identity and inverse quaternions appear.
- The joint positions the finger solver scores come from a kinematics
  parameter (`FingerSolver.Kinematics`): bending a bone by `t` is not
  modelled. The descent is not claimed to lower the score, since the code
  makes no such promise.
- The object under a palm is a sphere or a box, the two `ISDF`
  implementations. The overlap query that finds it is an input, and a
  collider without an `ISDF`, which the source would dereference as null,
  is not modelled.
- `FingersClosedObjects` and `FingersLengths` are not modelled. They are
  not read by the two descent routines.
- Unity transforms (`TransformPoint`, `TransformDirection`,
  `worldToLocalMatrix`) are function parameters.
- Coroutines and timers (`WaitUntil`, `WaitForSeconds`) are replaced by
  step traces and by the events `MeasurementDone`, `IdleElapsed` and
  `BlockControllers`.
- `DisplayMirror` text, colours, the mirror, `colourDevices`, logging and
  editor gizmos have no effect on the modelled state.
- `StickAvatarToGround`'s raycast is not modelled: the snap is an effect
  with no position.
- The avatar's construction in `loadAvatar` and `createCharacter` is not
  modelled; only the guard in front of it is.
- `setupScene`, `setupDriver` and the `LayerUtils` calls are scene
  plumbing and are not modelled. The model assumes all six driver roles
  are bound, as `setupDriver` dereferences them.
- `placeLastAvatar` is not modelled. It is never set.
- SteamVRDriver.DetectDevices: requires at most three running trackers.
  With a fourth, the source writes past its three-slot index buffer.
- OpenVR queries, physics contacts and sampled positions are inputs, not
  computed.
- Float rounding and IEEE behaviour are not modelled; all arithmetic is
  exact over the reals.
- `Matrix3x3`, `AvatarProperties`, `AvatarUtils`, `VRUtils`, networking and
  `AvatarController`'s plain fields are not part of this model.
- FingerSolver.RelaxBehaviour: the thumb's per-frame step is bounded by
  0.00125 only above -0.90125. Below that, the clamp to [-0.9, 0.1] moves
  it further in one frame, and the lemma states that case separately.
- ControllerFingers.CapsuleDistance: requires distinct capsule end points,
  since the source divides by the squared segment length.
- IkController.FingerPass: requires, for the automatic mode, that both
  controllers' capsules have distinct end points, for the same reason;
  `IkController.LateUpdate` requires it once calibration is over.
- SteamVRDriver.BuildLayout: requires no more active hand roles than
  controllers and trackers together, and no more active tracker roles
  than trackers. Otherwise the source's `identifyDevices` writes past its
  point arrays. `SetDevicesIndex` switches on roles only for counted
  devices, so the requirement holds while no other role is active
  (`SteamVRDriver.ActivationFitsLayout`).
- AvatarBody.RootBody: requires both ankle anchors to exist, as the ankle
  correction dereferences them.
- FingerSolver.Automatic: states only that the bounds hold; the exact
  per-bone values are stated by AutomaticBone and AutomaticChain.

=== FILE: arms_stretch.dfy ===
/** `ArmsStretch.DoUpdate`: each forearm with an end effector is pushed
    along the forearm-to-hand direction by the hand's distance from the
    effector, so the hand can reach a controller beyond arm's length. The
    hand bone is a child of the forearm, so it is carried along by the
    same displacement. */
module ArmsStretch {
  import opened Common
  import opened Vectors

  /** One arm: the forearm and hand bone positions and the end effector's
      position, if one is set. */
  datatype Arm = Arm(lowerArm: Vec3, hand: Vec3, effector: Option<Vec3>)

  /** The displacement applied to one forearm: the normalised forearm to
      hand direction times the hand to effector distance. */
  function Displacement(norm: NormFn, a: Arm): Vec3
    requires IsNorm(norm) && a.effector.Some?
  {
    Scale(Distance(norm, a.hand, a.effector.value), Normalized(norm, Sub(a.hand, a.lowerArm)))
  }

  /** One side of `DoUpdate`: a side without an effector is left alone;
      otherwise forearm and hand move together, so the forearm-to-hand
      vector is kept. */
  function StretchSide(norm: NormFn, a: Arm): (r: Arm)
    requires IsNorm(norm)
    ensures a.effector == None ==> r == a
    ensures r.effector == a.effector
    ensures Sub(r.hand, r.lowerArm) == Sub(a.hand, a.lowerArm)
    ensures Sub(r.hand, a.hand) == Sub(r.lowerArm, a.lowerArm)
    ensures a.effector.Some? ==> r.lowerArm == Add(a.lowerArm, Displacement(norm, a))
  {
    if a.effector == None then a
    else
      var d := Displacement(norm, a);
      a.(lowerArm := Add(a.lowerArm, d), hand := Add(a.hand, d))
  }

  /** `DoUpdate`: the right side, then the left. Each side is moved
      rigidly, and a side without an effector keeps its pose. */
  function DoUpdate(norm: NormFn, right: Arm, left: Arm): (r: (Arm, Arm))
    requires IsNorm(norm)
    ensures right.effector.None? ==> r.0 == right
    ensures left.effector.None? ==> r.1 == left
    ensures r.0.effector == right.effector && r.1.effector == left.effector
    ensures Sub(r.0.hand, r.0.lowerArm) == Sub(right.hand, right.lowerArm)
    ensures Sub(r.1.hand, r.1.lowerArm) == Sub(left.hand, left.lowerArm)
  {
    (StretchSide(norm, right), StretchSide(norm, left))
  }

  /** The forearm moves towards the hand, never away from it: its
      displacement is a non-negative multiple of the forearm-to-hand
      vector. */
  lemma StretchTowardsHand(norm: NormFn, a: Arm)
    requires IsNorm(norm) && a.effector.Some?
    ensures exists c: real :: c >= 0.0 && Sub(StretchSide(norm, a).lowerArm, a.lowerArm) == Scale(c, Sub(a.hand, a.lowerArm))
  {
    var v := Sub(a.hand, a.lowerArm);
    var dist := Distance(norm, a.hand, a.effector.value);
    NormalizedIsNonNegativeMultiple(norm, v);
    var k: real :| k >= 0.0 && Normalized(norm, v) == Scale(k, v);
    var moved := StretchSide(norm, a).lowerArm;
    assert Sub(moved, a.lowerArm) == Scale(dist, Scale(k, v));
    ScaleScale(dist, k, v);
    assert dist * k >= 0.0;
  }

  lemma ScaleScale(s: real, t: real, v: Vec3)
    ensures Scale(s, Scale(t, v)) == Scale(s * t, v)
  {
  }

  /** A hand already at its effector leaves the arm where it is. */
  lemma HandAtEffectorNoMove(norm: NormFn, a: Arm)
    requires IsNorm(norm) && a.effector == Some(a.hand)
    ensures StretchSide(norm, a) == a
  {
    var n := Normalized(norm, Sub(a.hand, a.lowerArm));
    assert Scale(0.0, n) == Zero;
  }

  /** Each side's result depends on that side alone. */
  lemma SidesIndependent(norm: NormFn, right: Arm, left: Arm, right2: Arm, left2: Arm)
    requires IsNorm(norm)
    ensures DoUpdate(norm, right, left).0 == DoUpdate(norm, right, left2).0
    ensures DoUpdate(norm, right, left).1 == DoUpdate(norm, right2, left).1
  {
  }
}

=== FILE: avatar_body.dfy ===
/** `AvatarBody`: the measures and anchor joints the calibration produces.
    The two measurement coroutines become functions that return the new
    body together with the trace of what they did (blocking the input,
    sampling positions one at a time through the continuous-input sampler,
    reporting success). The scene is given frame by frame. */
module AvatarBody {
  import opened Common
  import opened Vectors
  import opened SceneTree
  import opened AvatarDriver
  import ContinuousInput

  /** A position and a rotation in world space. */
  datatype Pose = Pose(position: Vec3, rotation: Quat)

  /** An unset `Vector3`/`Quaternion` pair: both zero. */
  const PoseDefault := Pose(Zero, QuatDefault)

  /** The poses of the six tracked objects snapshot by the root step. */
  datatype RootStep = RootStep(
    leftFoot: Pose, rightFoot: Pose, pelvis: Pose, head: Pose, leftHand: Pose, rightHand: Pose)

  const RootStepDefault := RootStep(PoseDefault, PoseDefault, PoseDefault, PoseDefault, PoseDefault, PoseDefault)

  /** `BodyMeasures` */
  datatype Measures = Measures(
    footToAnkleLeft: real,
    footToAnkleRight: real,
    eyesHeight: real,
    depthCenterHead: real,
    widthCenterHead: real,
    rootStep: RootStep)

  /** The measures a new body starts with. */
  const DefaultMeasures := Measures(0.2769778, 0.2772783, 1.68952, -0.07, -0.01000001, RootStepDefault)

  /** An anchor joint: a child object of a tracked object with a local
      offset and rotation. */
  datatype Anchor = Anchor(parent: ObjId, localPosition: Vec3, localRotation: Quat)

  /** The six anchor joints; `None` is a null `GameObject`. */
  datatype Anchors = Anchors(
    neck: Option<Anchor>,
    wristLeft: Option<Anchor>,
    wristRight: Option<Anchor>,
    root: Option<Anchor>,
    ankleLeft: Option<Anchor>,
    ankleRight: Option<Anchor>)

  const NoAnchors := Anchors(None, None, None, None, None, None)

  datatype Body = Body(anchors: Anchors, measures: Measures, completed: bool, started: bool)

  /** The constructor: no anchors, the default measures, neither completed
      nor started. */
  function NewBody(): (b: Body)
    ensures b.anchors.neck == b.anchors.wristLeft == b.anchors.wristRight == None
    ensures b.anchors.root == b.anchors.ankleLeft == b.anchors.ankleRight == None
    ensures b.measures.footToAnkleLeft == 0.2769778 && b.measures.footToAnkleRight == 0.2772783
    ensures b.measures.eyesHeight == 1.68952
    ensures b.measures.depthCenterHead == -0.07 && b.measures.widthCenterHead == -0.01000001
    ensures !b.completed && !b.started
  {
    Body(NoAnchors, DefaultMeasures, false, false)
  }

  /** `isCompleted`/`setCompleted`: only the flag changes. */
  function SetCompleted(b: Body, flag: bool): (r: Body)
    ensures r.completed == flag
    ensures r.(completed := b.completed) == b
  {
    b.(completed := flag)
  }

  /** `isStarted`/`setStarted`: only the flag changes. */
  function SetStarted(b: Body, flag: bool): (r: Body)
    ensures r.started == flag
    ensures r.(started := b.started) == b
  {
    b.(started := flag)
  }

  // ---------------------------------------------------------------------
  // The scene

  /** The driver's role bindings and which objects are active. */
  datatype Rig = Rig(roles: Roles, active: ObjId -> bool)

  /** `x && x.activeInHierarchy` */
  function Active(rig: Rig, n: Option<Node>): bool {
    n.Some? && rig.active(n.value.id)
  }

  /** What a routine can read of the scene in one frame: positions,
      rotations and each object's world-to-local map applied to a
      direction (a `Vector4` with w = 0). */
  datatype Frame = Frame(position: ObjId -> Vec3, rotation: ObjId -> Quat, toLocal: ObjId -> Vec3 -> Vec3)

  /** `queryJointPositionAvatar` for the three joints the root step asks
      for, as positions of the loaded avatar. */
  datatype AvatarJoints = AvatarJoints(hips: Vec3, leftFoot: Vec3, rightFoot: Vec3)

  // ---------------------------------------------------------------------
  // Anchor set-up

  /** `-0.175 * Vector3.forward`: the wrist sits 17.5 cm behind the
      controller. */
  const WristOffset := Scale(-0.175, Forward)

  lemma WristOffsetIsBackward()
    ensures WristOffset == Vec3(0.0, 0.0, -0.175)
  {
  }

  /** `setupLeftAnkleJoint`/`setupRightAnkleJoint`: a child of the foot
      tracker, rotated by the inverse of the tracker's rotation, offset
      by -footToAnkle along the world z axis (the source's comment calls
      this "forward"). */
  function AnkleAnchor(parent: ObjId, footToAnkle: real, f: Frame): (a: Anchor)
    ensures a.parent == parent
    ensures a.localRotation == Inverse(f.rotation(parent))
  {
    Anchor(parent, f.toLocal(parent)(Vec3(0.0, 0.0, -footToAnkle)), Inverse(f.rotation(parent)))
  }

  /** `setupLeftWristJoint`, `setupRightWristJoint` and `setupNeckJoint`,
      as `ForwardPipeline` calls them: wrists on the hand controllers with
      the backward offset, the neck on the head with none; all three with
      the identity rotation. Nothing else changes. */
  function SetupUpperAnchors(b: Body, rig: Rig): (r: Body)
    requires rig.roles.head.Some? && rig.roles.handLeft.Some? && rig.roles.handRight.Some?
    ensures r.anchors.wristLeft == Some(Anchor(rig.roles.handLeft.value.id, Vec3(0.0, 0.0, -0.175), Identity))
    ensures r.anchors.wristRight == Some(Anchor(rig.roles.handRight.value.id, Vec3(0.0, 0.0, -0.175), Identity))
    ensures r.anchors.neck == Some(Anchor(rig.roles.head.value.id, Zero, Identity))
    ensures r.anchors.(neck := b.anchors.neck, wristLeft := b.anchors.wristLeft, wristRight := b.anchors.wristRight) == b.anchors
    ensures r.(anchors := b.anchors) == b
  {
    b.(anchors := b.anchors.(
      wristLeft := Some(Anchor(rig.roles.handLeft.value.id, WristOffset, Identity)),
      wristRight := Some(Anchor(rig.roles.handRight.value.id, WristOffset, Identity)),
      neck := Some(Anchor(rig.roles.head.value.id, Zero, Identity))))
  }

  /** `computeFeetMeasuresUsingRoot`, left side: with the left foot and the
      pelvis active the foot-to-ankle length is the forward distance
      between them and the ankle anchor is created. */
  function FeetLeft(b: Body, rig: Rig, footLeft: Vec3, pelvis: Vec3, f: Frame): (r: Body)
    ensures Active(rig, rig.roles.footLeft) && Active(rig, rig.roles.pelvis) ==>
      && r.measures.footToAnkleLeft == Abs(footLeft.z - pelvis.z)
      && r.anchors.ankleLeft == Some(AnkleAnchor(rig.roles.footLeft.value.id, r.measures.footToAnkleLeft, f))
    ensures r.measures.(footToAnkleLeft := b.measures.footToAnkleLeft) == b.measures
    ensures r.anchors.(ankleLeft := b.anchors.ankleLeft) == b.anchors
    ensures r.completed == b.completed && r.started == b.started
    ensures !(Active(rig, rig.roles.footLeft) && Active(rig, rig.roles.pelvis)) ==> r == b
  {
    if Active(rig, rig.roles.footLeft) && Active(rig, rig.roles.pelvis) then
      var len := Abs(footLeft.z - pelvis.z);
      b.(measures := b.measures.(footToAnkleLeft := len),
         anchors := b.anchors.(ankleLeft := Some(AnkleAnchor(rig.roles.footLeft.value.id, len, f))))
    else b
  }

  /** `computeFeetMeasuresUsingRoot`, right side. */
  function FeetRight(b: Body, rig: Rig, footRight: Vec3, pelvis: Vec3, f: Frame): (r: Body)
    ensures Active(rig, rig.roles.footRight) && Active(rig, rig.roles.pelvis) ==>
      && r.measures.footToAnkleRight == Abs(footRight.z - pelvis.z)
      && r.anchors.ankleRight == Some(AnkleAnchor(rig.roles.footRight.value.id, r.measures.footToAnkleRight, f))
    ensures r.measures.(footToAnkleRight := b.measures.footToAnkleRight) == b.measures
    ensures r.anchors.(ankleRight := b.anchors.ankleRight) == b.anchors
    ensures r.completed == b.completed && r.started == b.started
    ensures !(Active(rig, rig.roles.footRight) && Active(rig, rig.roles.pelvis)) ==> r == b
  {
    if Active(rig, rig.roles.footRight) && Active(rig, rig.roles.pelvis) then
      var len := Abs(footRight.z - pelvis.z);
      b.(measures := b.measures.(footToAnkleRight := len),
         anchors := b.anchors.(ankleRight := Some(AnkleAnchor(rig.roles.footRight.value.id, len, f))))
    else b
  }

  /** `computeFeetMeasuresUsingRoot`: the two sides one after the other. */
  function FeetMeasures(b: Body, rig: Rig, footLeft: Vec3, footRight: Vec3, pelvis: Vec3, f: Frame): Body {
    FeetRight(FeetLeft(b, rig, footLeft, pelvis, f), rig, footRight, pelvis, f)
  }

  /** The two sides do not interfere: each side's length and anchor come
      from its own foot alone, and every length is non-negative. */
  lemma FeetSidesIndependent(b: Body, rig: Rig, footLeft: Vec3, footRight: Vec3, pelvis: Vec3, f: Frame)
    ensures var r := FeetMeasures(b, rig, footLeft, footRight, pelvis, f);
      && r.measures.footToAnkleLeft == FeetLeft(b, rig, footLeft, pelvis, f).measures.footToAnkleLeft
      && r.anchors.ankleLeft == FeetLeft(b, rig, footLeft, pelvis, f).anchors.ankleLeft
      && r.measures.footToAnkleRight == FeetRight(b, rig, footRight, pelvis, f).measures.footToAnkleRight
      && r.anchors.ankleRight == FeetRight(b, rig, footRight, pelvis, f).anchors.ankleRight
      && (b.measures.footToAnkleLeft >= 0.0 ==> r.measures.footToAnkleLeft >= 0.0)
      && (b.measures.footToAnkleRight >= 0.0 ==> r.measures.footToAnkleRight >= 0.0)
  {
  }

  // ---------------------------------------------------------------------
  // The measurement coroutines

  /** What a coroutine does, in order. */
  datatype Step = BlockInput(on: bool) | Sample(obj: ObjId) | Report(ok: bool)

  /** A finished coroutine: the body, the sampler, how many frames its
      samples took, and its trace. */
  datatype Run = Run(body: Body, sampler: ContinuousInput.Sampler, frames: nat, trace: seq<Step>)

  /** One sample: `captureInstantPosition`, wait a frame until `capturing`
      clears, `getInstantPosition`. */
  function SampleAt(s: ContinuousInput.Sampler, g: ObjId, f: Frame): (r: (ContinuousInput.Sampler, Vec3))
    requires ContinuousInput.Inv(s)
    ensures ContinuousInput.Inv(r.0) && !r.0.capturing
    ensures r.1 == f.position(g)
  {
    var s1 := ContinuousInput.Tick(ContinuousInput.Capture(s, Some(g)), f.position);
    ContinuousInput.CaptureTickRead(s, g, f.position);
    (s1, ContinuousInput.Read(s1))
  }

  /** Whether the routine is well-formed as a protocol: it blocks the input
      first, then only samples, then unblocks and reports success. */
  predicate Bracketed(t: seq<Step>) {
    && |t| >= 3
    && t[0] == BlockInput(true)
    && t[|t| - 2] == BlockInput(false)
    && t[|t| - 1] == Report(true)
    && forall i :: 1 <= i < |t| - 2 ==> t[i].Sample?
  }

  /** The objects sampled, in order. */
  function Sampled(t: seq<Step>): seq<ObjId>
    requires Bracketed(t)
  {
    seq(|t| - 3, i requires 0 <= i < |t| - 3 => t[i + 1].obj)
  }

  /** The sampling part of `computeHeightWidthMeasure`: the head when it is
      active, the pelvis when head and pelvis are, both feet when both are.
      An unsampled head or pelvis reads as the zero vector. */
  datatype HeightWidthSamples = HeightWidthSamples(
    sampler: ContinuousInput.Sampler, frames: nat, sampled: seq<ObjId>,
    head: Vec3, pelvis: Vec3, footLeft: Vec3, footRight: Vec3)

  function HeightWidthSampling(rig: Rig, s: ContinuousInput.Sampler, frames: nat -> Frame): (r: HeightWidthSamples)
    requires ContinuousInput.Inv(s)
    ensures ContinuousInput.Inv(r.sampler)
    ensures |r.sampled| == r.frames
  {
    var rs := rig.roles;
    var withHead := Active(rig, rs.head);
    var withPelvis := withHead && Active(rig, rs.pelvis);
    var withFeet := Active(rig, rs.footLeft) && Active(rig, rs.footRight);
    var h := if withHead then SampleAt(s, rs.head.value.id, frames(0)) else (s, Zero);
    var k1: nat := if withHead then 1 else 0;
    var p := if withPelvis then SampleAt(h.0, rs.pelvis.value.id, frames(k1)) else (h.0, Zero);
    var k2: nat := k1 + if withPelvis then 1 else 0;
    var fl := if withFeet then SampleAt(p.0, rs.footLeft.value.id, frames(k2)) else (p.0, Zero);
    var fr := if withFeet then SampleAt(fl.0, rs.footRight.value.id, frames(k2 + 1)) else (fl.0, Zero);
    HeightWidthSamples(fr.0, k2 + if withFeet then 2 else 0,
      (if withHead then [rs.head.value.id] else []) +
      (if withPelvis then [rs.pelvis.value.id] else []) +
      (if withFeet then [rs.footLeft.value.id, rs.footRight.value.id] else []),
      h.1, p.1, fl.1, fr.1)
  }

  /** `computeHeightWidthMeasure`: the eye height is the head's height; with
      both feet sampled the feet measures are taken against the pelvis
      sample. The routine's last frame supplies the ankle anchors' frame. */
  function HeightWidth(b: Body, rig: Rig, s: ContinuousInput.Sampler, frames: nat -> Frame): (r: Run)
    requires ContinuousInput.Inv(s)
    ensures ContinuousInput.Inv(r.sampler)
    ensures Bracketed(r.trace)
    ensures r.body.completed == b.completed && r.body.started == b.started
  {
    var sm := HeightWidthSampling(rig, s, frames);
    var withFeet := Active(rig, rig.roles.footLeft) && Active(rig, rig.roles.footRight);
    var b1 := if Active(rig, rig.roles.head) then b.(measures := b.measures.(eyesHeight := sm.head.y)) else b;
    var b2 := if withFeet then FeetMeasures(b1, rig, sm.footLeft, sm.footRight, sm.pelvis, frames(sm.frames - 1)) else b1;
    Run(b2, sm.sampler, sm.frames, [BlockInput(true)] + Samples(sm.sampled) + [BlockInput(false), Report(true)])
  }

  function Samples(objs: seq<ObjId>): (t: seq<Step>)
    ensures |t| == |objs| && forall i :: 0 <= i < |t| ==> t[i] == Sample(objs[i])
  {
    seq(|objs|, i requires 0 <= i < |objs| => Sample(objs[i]))
  }

  /** The samples of `computeHeightWidthMeasure`, in order, and the values
      they read: each sample is taken in its own frame, after the previous
      one completed. */
  lemma HeightWidthSamplesInOrder(b: Body, rig: Rig, s: ContinuousInput.Sampler, frames: nat -> Frame)
    requires ContinuousInput.Inv(s)
    ensures var r := HeightWidth(b, rig, s, frames);
            var rs := rig.roles;
            var withHead := Active(rig, rs.head);
            var withPelvis := withHead && Active(rig, rs.pelvis);
            var withFeet := Active(rig, rs.footLeft) && Active(rig, rs.footRight);
      Sampled(r.trace) ==
        (if withHead then [rs.head.value.id] else []) +
        (if withPelvis then [rs.pelvis.value.id] else []) +
        (if withFeet then [rs.footLeft.value.id, rs.footRight.value.id] else [])
  {
    var r := HeightWidth(b, rig, s, frames);
    var sm := HeightWidthSampling(rig, s, frames);
    assert r.trace == [BlockInput(true)] + Samples(sm.sampled) + [BlockInput(false), Report(true)];
    assert Sampled(r.trace) == sm.sampled;
  }

  /** The values `computeHeightWidthMeasure` writes: the eye height is the
      head's height in the first frame; with the head inactive it keeps
      its value. With both feet and the pelvis active the left length is
      measured against the pelvis sample, which is the zero vector when
      the head was inactive. The right length is measured the same way
      from the right foot's sample. */
  lemma HeightWidthMeasures(b: Body, rig: Rig, s: ContinuousInput.Sampler, frames: nat -> Frame)
    requires ContinuousInput.Inv(s)
    ensures var r := HeightWidth(b, rig, s, frames);
            var rs := rig.roles;
      && (Active(rig, rs.head) ==> r.body.measures.eyesHeight == frames(0).position(rs.head.value.id).y)
      && (!Active(rig, rs.head) ==> r.body.measures.eyesHeight == b.measures.eyesHeight)
      && (Active(rig, rs.head) && Active(rig, rs.pelvis) && Active(rig, rs.footLeft) && Active(rig, rs.footRight) ==>
            r.body.measures.footToAnkleLeft ==
              Abs(frames(2).position(rs.footLeft.value.id).z - frames(1).position(rs.pelvis.value.id).z))
      && (!Active(rig, rs.head) && Active(rig, rs.pelvis) && Active(rig, rs.footLeft) && Active(rig, rs.footRight) ==>
            r.body.measures.footToAnkleLeft == Abs(frames(0).position(rs.footLeft.value.id).z))
      && (Active(rig, rs.head) && Active(rig, rs.pelvis) && Active(rig, rs.footLeft) && Active(rig, rs.footRight) ==>
            r.body.measures.footToAnkleRight ==
              Abs(frames(3).position(rs.footRight.value.id).z - frames(1).position(rs.pelvis.value.id).z))
      && (!Active(rig, rs.head) && Active(rig, rs.pelvis) && Active(rig, rs.footLeft) && Active(rig, rs.footRight) ==>
            r.body.measures.footToAnkleRight == Abs(frames(1).position(rs.footRight.value.id).z))
      && (!(Active(rig, rs.footLeft) && Active(rig, rs.footRight) && Active(rig, rs.pelvis)) ==>
            r.body.measures.footToAnkleLeft == b.measures.footToAnkleLeft &&
            r.body.measures.footToAnkleRight == b.measures.footToAnkleRight &&
            r.body.anchors == b.anchors)
  {
  }

  /** `computeRootMeasuresUsingAvatar`. With the pelvis inactive nothing
      but the blocking happens. Otherwise it samples the pelvis and both
      feet, creates the root anchor on the pelvis (offset to the avatar's
      hips), re-offsets both ankle anchors to the avatar's feet and
      snapshots the six poses. The feet are not null-checked and the ankle
      anchors are dereferenced, so both must exist. */
  function RootMeasures(b: Body, rig: Rig, s: ContinuousInput.Sampler, frames: nat -> Frame, joints: AvatarJoints): (r: Run)
    requires ContinuousInput.Inv(s)
    requires Active(rig, rig.roles.pelvis) ==>
      AllBound(rig.roles) && b.anchors.ankleLeft.Some? && b.anchors.ankleRight.Some?
    ensures ContinuousInput.Inv(r.sampler)
    ensures Bracketed(r.trace)
    ensures !Active(rig, rig.roles.pelvis) ==> r.body == b && r.trace == [BlockInput(true), BlockInput(false), Report(true)]
    ensures r.body.completed == b.completed && r.body.started == b.started
  {
    var rs := rig.roles;
    if !Active(rig, rs.pelvis) then Run(b, s, 0, [BlockInput(true), BlockInput(false), Report(true)])
    else
      var p := SampleAt(s, rs.pelvis.value.id, frames(0));
      var fl := SampleAt(p.0, rs.footLeft.value.id, frames(1));
      var fr := SampleAt(fl.0, rs.footRight.value.id, frames(2));
      var f := frames(2);
      Run(RootBody(b, rig, p.1, fl.1, fr.1, f, joints), fr.0, 3,
          [BlockInput(true), Sample(rs.pelvis.value.id), Sample(rs.footLeft.value.id), Sample(rs.footRight.value.id),
           BlockInput(false), Report(true)])
  }

  /** The body update of the root step, given the three samples. */
  function RootBody(b: Body, rig: Rig, pelvis: Vec3, footLeft: Vec3, footRight: Vec3, f: Frame, joints: AvatarJoints): (r: Body)
    requires AllBound(rig.roles) && b.anchors.ankleLeft.Some? && b.anchors.ankleRight.Some?
    ensures r.completed == b.completed && r.started == b.started
  {
    var pid := rig.roles.pelvis.value.id;
    var root := Anchor(pid, f.toLocal(pid)(Sub(joints.hips, pelvis)), Inverse(f.rotation(pid)));
    var al := b.anchors.ankleLeft.value;
    var ar := b.anchors.ankleRight.value;
    var al1 := al.(localPosition := f.toLocal(al.parent)(Sub(joints.leftFoot, footLeft)));
    var ar1 := ar.(localPosition := f.toLocal(ar.parent)(Sub(joints.rightFoot, footRight)));
    b.(anchors := b.anchors.(root := Some(root), ankleLeft := Some(al1), ankleRight := Some(ar1)),
       measures := SaveRootStepData(b.measures, rig.roles, f))
  }

  /** `saveRootStepData`: each of the six live poses goes into its own
      field; the lengths and heights are kept. */
  function SaveRootStepData(m: Measures, rs: Roles, f: Frame): (r: Measures)
    requires AllBound(rs)
    ensures r.rootStep.pelvis == Pose(f.position(rs.pelvis.value.id), f.rotation(rs.pelvis.value.id))
    ensures r.rootStep.leftFoot == Pose(f.position(rs.footLeft.value.id), f.rotation(rs.footLeft.value.id))
    ensures r.rootStep.rightFoot == Pose(f.position(rs.footRight.value.id), f.rotation(rs.footRight.value.id))
    ensures r.rootStep.head == Pose(f.position(rs.head.value.id), f.rotation(rs.head.value.id))
    ensures r.rootStep.leftHand == Pose(f.position(rs.handLeft.value.id), f.rotation(rs.handLeft.value.id))
    ensures r.rootStep.rightHand == Pose(f.position(rs.handRight.value.id), f.rotation(rs.handRight.value.id))
    ensures r.(rootStep := m.rootStep) == m
  {
    m.(rootStep := RootStep(PoseOf(rs.footLeft, f), PoseOf(rs.footRight, f), PoseOf(rs.pelvis, f),
                            PoseOf(rs.head, f), PoseOf(rs.handLeft, f), PoseOf(rs.handRight, f)))
  }

  function PoseOf(n: Option<Node>, f: Frame): Pose
    requires n.Some?
  {
    Pose(f.position(n.value.id), f.rotation(n.value.id))
  }

  /** With the pelvis active the root step samples pelvis, left foot and
      right foot in that order, one frame each; the root anchor hangs from
      the pelvis with the inverse of its rotation and the hips offset; the
      ankle anchors keep parent and rotation and take the offset from the
      foot sample to the avatar's foot; the six poses are snapshotted from
      the last frame; the lengths and eye height are unchanged. */
  lemma RootMeasuresEffect(b: Body, rig: Rig, s: ContinuousInput.Sampler, frames: nat -> Frame, joints: AvatarJoints)
    requires ContinuousInput.Inv(s)
    requires Active(rig, rig.roles.pelvis)
    requires AllBound(rig.roles) && b.anchors.ankleLeft.Some? && b.anchors.ankleRight.Some?
    ensures var r := RootMeasures(b, rig, s, frames, joints);
            var rs := rig.roles;
            var pid := rs.pelvis.value.id;
            var f := frames(2);
            var al := b.anchors.ankleLeft.value;
            var ar := b.anchors.ankleRight.value;
      && Sampled(r.trace) == [pid, rs.footLeft.value.id, rs.footRight.value.id]
      && r.body.anchors.root == Some(Anchor(pid, f.toLocal(pid)(Sub(joints.hips, frames(0).position(pid))), Inverse(f.rotation(pid))))
      && r.body.anchors.ankleLeft == Some(al.(localPosition := f.toLocal(al.parent)(Sub(joints.leftFoot, frames(1).position(rs.footLeft.value.id)))))
      && r.body.anchors.ankleRight == Some(ar.(localPosition := f.toLocal(ar.parent)(Sub(joints.rightFoot, frames(2).position(rs.footRight.value.id)))))
      && r.body.anchors.(root := b.anchors.root, ankleLeft := b.anchors.ankleLeft, ankleRight := b.anchors.ankleRight) == b.anchors
      && r.body.measures.(rootStep := b.measures.rootStep) == b.measures
      && r.body.measures.rootStep.pelvis == Pose(f.position(pid), f.rotation(pid))
      && r.body.measures.rootStep.leftFoot == Pose(f.position(rs.footLeft.value.id), f.rotation(rs.footLeft.value.id))
      && r.body.measures.rootStep.rightFoot == Pose(f.position(rs.footRight.value.id), f.rotation(rs.footRight.value.id))
      && r.body.measures.rootStep.head == Pose(f.position(rs.head.value.id), f.rotation(rs.head.value.id))
      && r.body.measures.rootStep.leftHand == Pose(f.position(rs.handLeft.value.id), f.rotation(rs.handLeft.value.id))
      && r.body.measures.rootStep.rightHand == Pose(f.position(rs.handRight.value.id), f.rotation(rs.handRight.value.id))
  {
    var r := RootMeasures(b, rig, s, frames, joints);
    assert Sampled(r.trace) == [r.trace[1].obj, r.trace[2].obj, r.trace[3].obj];
  }
}

=== FILE: avatar_driver.dfy ===
/** The driver: the six scene objects that drive the avatar's end
    effectors, found by name, plus the `ready` flag; and the simulator
    variant, which is ready from the start. */
module AvatarDriver {
  import opened Common
  import opened SceneTree

  /** `AvatarDriver.AvatarDriverType`; `Simulation` is the enum's value 0
      and hence the default of an unset `type` field. */
  datatype DriverType = Simulation | SteamVR

  /** The six end effectors. */
  datatype Role = Head | HandLeft | HandRight | Pelvis | FootLeft | FootRight

  /** The names searched for each role, in priority order. */
  function RoleNames(role: Role): seq<string> {
    match role
    case Head => ["HMD", "Neck", "Head", "Camera", "Camera (eye)"]
    case HandLeft => ["LeftHand", "HandLeft", "Controller (left)", "Controller1"]
    case HandRight => ["RightHand", "HandRight", "Controller (right)", "Controller2"]
    case Pelvis => ["Pelvis", "Root", "Hips", "Tracker (root)", "Tracker1"]
    case FootLeft => ["LeftFoot", "FootLeft", "Tracker (left)", "Tracker2"]
    case FootRight => ["RightFoot", "FootRight", "Tracker (right)", "Tracker3"]
  }

  /** The six role bindings; `None` is a null `GameObject`. */
  datatype Roles = Roles(
    head: Option<Node>,
    handLeft: Option<Node>,
    handRight: Option<Node>,
    pelvis: Option<Node>,
    footLeft: Option<Node>,
    footRight: Option<Node>)
  {
    function Get(role: Role): Option<Node> {
      match role
      case Head => head
      case HandLeft => handLeft
      case HandRight => handRight
      case Pelvis => pelvis
      case FootLeft => footLeft
      case FootRight => footRight
    }
  }

  const NoRoles := Roles(None, None, None, None, None, None)

  /** No role is null. */
  predicate AllBound(rs: Roles) {
    rs.head.Some? && rs.handLeft.Some? && rs.handRight.Some? &&
    rs.pelvis.Some? && rs.footLeft.Some? && rs.footRight.Some?
  }

  /** The base constructor's lookup, role by role. */
  function BindRoles(root: Node): Roles {
    Roles(FindAny(root, RoleNames(Head)),
          FindAny(root, RoleNames(HandLeft)),
          FindAny(root, RoleNames(HandRight)),
          FindAny(root, RoleNames(Pelvis)),
          FindAny(root, RoleNames(FootLeft)),
          FindAny(root, RoleNames(FootRight)))
  }

  lemma BindRolesGet(root: Node, role: Role)
    ensures BindRoles(root).Get(role) == FindAny(root, RoleNames(role))
  {
    match role
    case Head =>
    case HandLeft =>
    case HandRight =>
    case Pelvis =>
    case FootLeft =>
    case FootRight =>
  }

  /** Each role is bound to the first match, in the tree below `root`, of
      the earliest of its names that occurs, and stays null exactly when
      none of its names occurs. */
  lemma RoleBinding(root: Node, role: Role)
    ensures BindRoles(root).Get(role) == None <==>
            forall i :: 0 <= i < |RoleNames(role)| ==> Find(root, RoleNames(role)[i]) == None
    ensures BindRoles(root).Get(role).Some? ==>
            exists i :: 0 <= i < |RoleNames(role)| && Find(root, RoleNames(role)[i]) == BindRoles(root).Get(role) &&
              forall j :: 0 <= j < i ==> Find(root, RoleNames(role)[j]) == None
  {
    BindRolesGet(root, role);
  }

  /** A bound role is a node of the tree carrying one of the role's names. */
  lemma BoundRoleIsNamedDescendant(root: Node, role: Role)
    requires BindRoles(root).Get(role).Some?
    ensures BindRoles(root).Get(role).value.name in RoleNames(role)
    ensures BindRoles(root).Get(role).value in PreOrder(root)
  {
    BindRolesGet(root, role);
    FindAnyIsNamedDescendant(root, RoleNames(role));
  }

  /** A driver: its type, its `ready` flag and its role bindings. */
  datatype Driver = Driver(kind: DriverType, ready: bool, roles: Roles)

  /** The base constructor: the role lookup; `ready` and `type` keep their
      C# defaults, false and `Simulation`. */
  function NewDriver(root: Node): (d: Driver)
    ensures d.roles == BindRoles(root)
    ensures !IsReady(d)
  {
    Driver(Simulation, false, BindRoles(root))
  }

  /** `SimulatorDriver`'s constructor: the base lookup unchanged, type
      `Simulation` and ready at once. */
  function NewSimulator(root: Node): (d: Driver)
    ensures d.kind == Simulation && IsReady(d)
    ensures d.roles == NewDriver(root).roles
  {
    Driver(Simulation, true, BindRoles(root))
  }

  /** `isReady`. */
  function IsReady(d: Driver): bool {
    d.ready
  }

  const AllRoles: seq<Role> := [Head, HandLeft, HandRight, Pelvis, FootLeft, FootRight]

  lemma AllRolesListed(role: Role)
    ensures role in AllRoles
  {
  }

  /** Identities of the bound role objects. */
  function RoleIds(rs: Roles): (ids: set<ObjId>)
    ensures forall role: Role :: rs.Get(role).Some? ==> rs.Get(role).value.id in ids
    ensures forall o :: o in ids ==> exists role: Role :: rs.Get(role).Some? && rs.Get(role).value.id == o
  {
    set role | role in AllRoles && rs.Get(role).Some? :: rs.Get(role).value.id
  }

  /** `SetActive(flag)` on the set of active scene objects: every bound role
      object becomes active or inactive, null roles are skipped, and every
      other object keeps its state. */
  function SetActive(rs: Roles, active: set<ObjId>, flag: bool): (r: set<ObjId>)
    ensures forall role: Role :: rs.Get(role).Some? ==> (rs.Get(role).value.id in r <==> flag)
    ensures forall o :: o !in RoleIds(rs) ==> (o in r <==> o in active)
  {
    if flag then active + RoleIds(rs) else active - RoleIds(rs)
  }
}

=== FILE: avatar_go.dfy ===
/** The `AvatarGo` component's own logic: the controller-style policy that
    configures the IK controller and shows or hides the device models, the
    calibration-finished notification, body reinitialisation and the guard
    in front of avatar loading. Scene setup, mirrors and the avatar's
    construction are not modelled. */
module AvatarGoComponent {
  import opened Common
  import opened Vectors
  import opened PipelineUtils
  import AvatarBody
  import IkController

  /** `ControllersStyle`. */
  datatype ControllersStyle =
    | OpenHandFreeControllers
    | ClosedHandFreeControllers
    | ClosedHandAttachedControllers
    | OpenHandHiddenControllers
    | CloseHandStretchArm
    | OpenHandStretchArm

  /** The six device models; `None` is a null model, `Some(v)` one whose
      active flag is `v`. */
  datatype Models = Models(
    head: Option<bool>, handLeft: Option<bool>, handRight: Option<bool>,
    pelvis: Option<bool>, footLeft: Option<bool>, footRight: Option<bool>)

  /** The component's state. `stage` is the single-input pipeline's stage,
      `None` without an input system; `controller` is the IK controller,
      `None` when there is none or it is another kind of controller. */
  datatype AvatarGo = AvatarGo(
    style: ControllersStyle,
    fingerIKObjects: bool,
    stage: Option<Stage>,
    controller: Option<IkController.Ik>,
    body: Option<AvatarBody.Body>,
    models: Models,
    calibrationFinished: bool)

  /** The inspector's default style. */
  const DefaultStyle := ClosedHandAttachedControllers

  /** The single-input pipeline has run to completion. */
  predicate Done(g: AvatarGo) {
    g.stage == Some(PipelineUtils.Done)
  }

  /** The bend `SetUniformFingers` receives in the hidden-controller
      styles. */
  const HiddenUniformBend: real := 0.1

  /** The wrist anchors' local offset: the controller's centre. */
  const WristLocalOffset := Scale(-0.1, Forward)

  // ---------------------------------------------------------------------
  // resetControllersStyle

  /** What one branch of `resetControllersStyle` decides: the visibility
      of the body models and of the hand models, and the arguments of its
      four setter calls. */
  datatype Plan = Plan(
    bodyModels: bool, handModels: bool,
    attached: bool, fingers: IkController.Command, clamp: bool, stretch: bool)

  /** The four setter calls every branch makes, in order. */
  function Setters(p: Plan): seq<IkController.Command> {
    [IkController.SetControllersAttached(p.attached), p.fingers,
     IkController.SetClampControllers(p.clamp), IkController.SetArmStretch(p.stretch)]
  }

  /** The branch structure of `resetControllersStyle`. */
  function StyleBranch(style: ControllersStyle, fingerIKObjects: bool, done: bool): Plan {
    var freeActive := !done;
    var hiddenFingers := if fingerIKObjects then IkController.SetObjectsFingers
                         else IkController.SetUniformFingers(HiddenUniformBend);
    if style == OpenHandFreeControllers || !done then
      Plan(freeActive, true, false, IkController.SetOpenFingers, false, false)
    else match style
      case ClosedHandFreeControllers =>
        Plan(freeActive, true, true, IkController.SetAutomaticFingers, false, false)
      case ClosedHandAttachedControllers =>
        Plan(freeActive, true, true, IkController.SetAutomaticFingers, true, false)
      case OpenHandHiddenControllers =>
        Plan(false, false, false, hiddenFingers, false, false)
      case CloseHandStretchArm =>
        Plan(freeActive, true, true, IkController.SetAutomaticFingers, true, true)
      case OpenHandStretchArm =>
        Plan(false, false, false, hiddenFingers, false, true)
  }

  /** Every uniform bend a command list asks for is a fraction. */
  predicate ValidCommands(cmds: seq<IkController.Command>) {
    forall i :: 0 <= i < |cmds| && cmds[i].SetUniformFingers? ==> 0.0 <= cmds[i].t <= 1.0
  }

  /** The setter calls in order. */
  function ApplyAll(c: IkController.Ik, cmds: seq<IkController.Command>): (r: IkController.Ik)
    requires ValidCommands(cmds)
    ensures IkController.Inv(c) ==> IkController.Inv(r)
    ensures r.flag == c.flag && r.params == c.params && r.reference == c.reference
    decreases |cmds|
  {
    if cmds == [] then c
    else ApplyAll(IkController.Configure(c, cmds[0]), cmds[1..])
  }

  function Show(m: Option<bool>, active: bool): Option<bool> {
    if m.None? then None else Some(active)
  }

  /** `resetControllersStyle`: configure the IK controller for the style,
      centre the wrist anchors on the controllers when both exist, and set
      the models' visibility. */
  function ResetControllersStyle(g: AvatarGo): (r: AvatarGo)
    ensures r.(controller := g.controller, body := g.body, models := g.models) == g
    ensures r.controller.Some? <==> g.controller.Some?
  {
    var plan := StyleBranch(g.style, g.fingerIKObjects, Done(g));
    var active := plan.bodyModels;
    var activeControllers := plan.handModels;
    var controller := if g.controller.Some? then Some(ApplyAll(g.controller.value, Setters(plan))) else None;
    var body :=
      if g.body.Some? && g.body.value.anchors.wristLeft.Some? && g.body.value.anchors.wristRight.Some? then
        var a := g.body.value.anchors;
        Some(g.body.value.(anchors := a.(
          wristLeft := Some(a.wristLeft.value.(localPosition := WristLocalOffset)),
          wristRight := Some(a.wristRight.value.(localPosition := WristLocalOffset)))))
      else g.body;
    var m := g.models;
    var models := Models(Show(m.head, active), Show(m.handLeft, activeControllers), Show(m.handRight, activeControllers),
                         Show(m.pelvis, active), Show(m.footLeft, active), Show(m.footRight, active));
    g.(controller := controller, body := body, models := models)
  }

  /** The policy stated per style rather than per branch: which switches
      each style turns on once the pipeline is done, and the common
      open-hand setting before. */
  datatype Toggles = Toggles(
    attached: bool, fingers: IkController.BendFingersType, clamp: bool, stretch: bool,
    bodyModels: bool, handModels: bool)

  predicate ClosedHand(s: ControllersStyle) {
    s == ClosedHandFreeControllers || s == ClosedHandAttachedControllers || s == CloseHandStretchArm
  }

  predicate HiddenControllers(s: ControllersStyle) {
    s == OpenHandHiddenControllers || s == OpenHandStretchArm
  }

  function StyleTable(s: ControllersStyle, fingerIKObjects: bool, done: bool): Toggles {
    if !done then Toggles(false, IkController.Open, false, false, true, true)
    else Toggles(
      ClosedHand(s),
      if ClosedHand(s) then IkController.Automatic
      else if HiddenControllers(s) then (if fingerIKObjects then IkController.Objects else IkController.Uniform)
      else IkController.Open,
      s == ClosedHandAttachedControllers || s == CloseHandStretchArm,
      s == CloseHandStretchArm || s == OpenHandStretchArm,
      false,
      !HiddenControllers(s))
  }

  /** A finger setter: the only commands a plan's second call can be. */
  predicate FingerCommand(cmd: IkController.Command) {
    cmd.SetAutomaticFingers? || cmd.SetObjectsFingers? || cmd.SetOpenFingers? ||
    (cmd.SetUniformFingers? && 0.0 <= cmd.t <= 1.0)
  }

  /** The finger mode a finger setter selects. */
  function ModeOf(cmd: IkController.Command): IkController.BendFingersType {
    match cmd
    case SetAutomaticFingers => IkController.Automatic
    case SetUniformFingers(_) => IkController.Uniform
    case SetObjectsFingers => IkController.Objects
    case _ => IkController.Open
  }

  /** Each branch's plan is the table's row: the branches, read in source
      order, implement the per-style policy, and the hidden styles' uniform
      bend is 0.1. */
  lemma BranchMatchesTable(s: ControllersStyle, fingerIKObjects: bool, done: bool)
    ensures var p := StyleBranch(s, fingerIKObjects, done);
      var t := StyleTable(s, fingerIKObjects, done);
      && FingerCommand(p.fingers)
      && p.bodyModels == t.bodyModels && p.handModels == t.handModels
      && p.attached == t.attached && ModeOf(p.fingers) == t.fingers && p.clamp == t.clamp && p.stretch == t.stretch
      && (p.fingers.SetUniformFingers? ==> p.fingers.t == HiddenUniformBend)
  {
  }

  /** The four setter calls set the three switches and the finger mode
      the plan names; only a uniform-mode call changes the bend. */
  lemma {:induction false} ApplySetters(c: IkController.Ik, p: Plan)
    requires FingerCommand(p.fingers)
    ensures ValidCommands(Setters(p))
    ensures var r := ApplyAll(c, Setters(p)).settings;
      && r.attached == p.attached && r.clamp == p.clamp && r.stretch == p.stretch
      && r.fingers == ModeOf(p.fingers)
      && r.uniformT == (if p.fingers.SetUniformFingers? then p.fingers.t else c.settings.uniformT)
  {
    var cmds := Setters(p);
    var c1 := IkController.Configure(c, cmds[0]);
    var c2 := IkController.Configure(c1, cmds[1]);
    var c3 := IkController.Configure(c2, cmds[2]);
    var c4 := IkController.Configure(c3, cmds[3]);
    assert ApplyAll(c3, cmds[3..]) == c4 by {
      assert cmds[3..][1..] == [];
    }
    assert ApplyAll(c2, cmds[2..]) == c4 by {
      assert cmds[2..][1..] == cmds[3..];
    }
    assert ApplyAll(c1, cmds[1..]) == c4 by {
      assert cmds[1..][1..] == cmds[2..];
    }
  }

  /** The style reset's effect, in the table's terms: the controller's
      switches and all six models' visibility (the wrist anchors are
      `ResetCentresWrists`'). */
  lemma ResetFollowsTable(g: AvatarGo)
    requires g.controller.Some?
    ensures var r := ResetControllersStyle(g);
      var t := StyleTable(g.style, g.fingerIKObjects, Done(g));
      && r.controller.value.settings.attached == t.attached
      && r.controller.value.settings.fingers == t.fingers
      && r.controller.value.settings.clamp == t.clamp
      && r.controller.value.settings.stretch == t.stretch
      && r.models.head == Show(g.models.head, t.bodyModels)
      && r.models.pelvis == Show(g.models.pelvis, t.bodyModels)
      && r.models.handLeft == Show(g.models.handLeft, t.handModels)
      && r.models.handRight == Show(g.models.handRight, t.handModels)
      && r.models.footLeft == Show(g.models.footLeft, t.bodyModels)
      && r.models.footRight == Show(g.models.footRight, t.bodyModels)
  {
    var plan := StyleBranch(g.style, g.fingerIKObjects, Done(g));
    BranchMatchesTable(g.style, g.fingerIKObjects, Done(g));
    ApplySetters(g.controller.value, plan);
  }

  /** Before the pipeline is done, or without an input system, every style
      leaves the hands free and open, and shows every existing model. */
  lemma NotDoneIsOpenFree(g: AvatarGo)
    requires g.controller.Some? && !Done(g)
    ensures var r := ResetControllersStyle(g);
      && !r.controller.value.settings.attached && r.controller.value.settings.fingers == IkController.Open
      && !r.controller.value.settings.clamp && !r.controller.value.settings.stretch
      && r.models.head != Some(false) && r.models.handLeft != Some(false) && r.models.handRight != Some(false)
      && r.models.pelvis != Some(false) && r.models.footLeft != Some(false) && r.models.footRight != Some(false)
  {
    ResetFollowsTable(g);
  }

  /** Once the pipeline is done, no style shows the head, pelvis or foot
      models. */
  lemma DoneHidesBodyModels(g: AvatarGo)
    requires Done(g)
    ensures var r := ResetControllersStyle(g);
      r.models.head != Some(true) && r.models.pelvis != Some(true) &&
      r.models.footLeft != Some(true) && r.models.footRight != Some(true)
  {
  }

  /** With both wrist anchors present, the reset centres both on the
      controllers and touches nothing else in the body. */
  lemma ResetCentresWrists(g: AvatarGo)
    requires g.body.Some? && g.body.value.anchors.wristLeft.Some? && g.body.value.anchors.wristRight.Some?
    ensures var b := ResetControllersStyle(g).body.value;
      && b.anchors.wristLeft.value.localPosition == WristLocalOffset
      && b.anchors.wristRight.value.localPosition == WristLocalOffset
      && b.anchors.wristLeft.value.parent == g.body.value.anchors.wristLeft.value.parent
      && b.anchors.(wristLeft := g.body.value.anchors.wristLeft, wristRight := g.body.value.anchors.wristRight) == g.body.value.anchors
      && b.(anchors := g.body.value.anchors) == g.body.value
  {
  }

  /** Resetting twice is resetting once. */
  lemma ResetIdempotent(g: AvatarGo)
    ensures ResetControllersStyle(ResetControllersStyle(g)).models == ResetControllersStyle(g).models
    ensures ResetControllersStyle(ResetControllersStyle(g)).body == ResetControllersStyle(g).body
  {
  }

  // ---------------------------------------------------------------------
  // Calibration, body and loading

  /** `OnCalibrationFinishedInvoke`: set the flag and fire the event when it
      has listeners. */
  function OnCalibrationFinishedInvoke(g: AvatarGo, hasListeners: bool): (r: (AvatarGo, bool))
    ensures r.0.calibrationFinished
    ensures r.0.(calibrationFinished := g.calibrationFinished) == g
    ensures r.1 == hasListeners
  {
    (g.(calibrationFinished := true), hasListeners)
  }

  /** Repeating the notification leaves the state as one call did; only
      the event fires again. */
  lemma NotifyIdempotent(g: AvatarGo, hasListeners: bool)
    ensures OnCalibrationFinishedInvoke(OnCalibrationFinishedInvoke(g, hasListeners).0, hasListeners).0
         == OnCalibrationFinishedInvoke(g, hasListeners).0
  {
  }

  /** `InitBody`: a fresh body carrying the given measures. */
  function InitBody(g: AvatarGo, m: AvatarBody.Measures): (r: AvatarGo)
    ensures r.body.Some? && r.body.value.measures == m
    ensures r.body.value.anchors == AvatarBody.NoAnchors
    ensures !r.body.value.completed && !r.body.value.started
    ensures r.(body := g.body) == g
  {
    g.(body := Some(AvatarBody.NewBody().(measures := m)))
  }

  /** How `loadAvatar` ends, as far as this model follows it. */
  datatype Load = NotCompleted | Builds

  /** The guard of `loadAvatar`: an incomplete body stops it with no
      effect. The body is read unconditionally, so it must exist. */
  function LoadAvatar(g: AvatarGo): (r: (Load, AvatarGo))
    requires g.body.Some?
    ensures r.0 == NotCompleted <==> !g.body.value.completed
    ensures r.0 == NotCompleted ==> r.1 == g
  {
    if !g.body.value.completed then (NotCompleted, g) else (Builds, g)
  }
}

=== FILE: common.dfy ===
/** Small shared vocabulary: an optional value standing for a nullable
    reference, and the scalar helpers the Unity scripts take from `Mathf`
    and `System.Math`. */
module Common {

  /** A reference that may be null. */
  datatype Option<+T> = None | Some(value: T)

  /** `Math.Abs` on reals. */
  function Abs(x: real): (r: real)
    ensures r >= 0.0
    ensures r == x || r == -x
  {
    if x < 0.0 then -x else x
  }

  /** `Mathf.Clamp(v, lo, hi)`: first the lower bound is tested, then the
      upper one, exactly as Unity does. */
  function Clamp(v: real, lo: real, hi: real): (r: real)
    ensures lo <= hi ==> lo <= r <= hi
    ensures lo <= v <= hi ==> r == v
    ensures v < lo ==> r == lo
  {
    if v < lo then lo else if v > hi then hi else v
  }

  /** `Mathf.Clamp01(v)`. */
  function Clamp01(v: real): (r: real)
    ensures 0.0 <= r <= 1.0
    ensures 0.0 <= v <= 1.0 ==> r == v
  {
    Clamp(v, 0.0, 1.0)
  }

  function Max(a: real, b: real): (r: real)
    ensures r >= a && r >= b
    ensures r == a || r == b
  {
    if a >= b then a else b
  }

  function Min(a: real, b: real): (r: real)
    ensures r <= a && r <= b
    ensures r == a || r == b
  {
    if a <= b then a else b
  }
}

=== FILE: continuous_input.dfy ===
/** `ContinuousInput`: a one-shot sampler. A capture request names an
    object; the next frame stores that object's position and clears the
    `capturing` flag; readers wait for the flag to clear. */
module ContinuousInput {
  import opened Common
  import opened Vectors
  import opened SceneTree

  datatype Sampler = Sampler(capturing: bool, captured: Vec3, target: Option<ObjId>)

  /** Fresh component: not capturing, the captured point is zero. */
  const Init := Sampler(false, Zero, None)

  /** Only a capture request sets `capturing`, and it always names a
      target. */
  ghost predicate Inv(s: Sampler) {
    s.capturing ==> s.target.Some?
  }

  /** `captureInstantPosition(gO)`: a null object is ignored; otherwise
      the object becomes the target, replacing any pending one. */
  function Capture(s: Sampler, g: Option<ObjId>): (r: Sampler)
    ensures g == None ==> r == s
    ensures g.Some? ==> r.capturing && r.target == g && r.captured == s.captured
  {
    if g == None then s else s.(capturing := true, target := g)
  }

  /** `Update`, given where every object currently is. */
  function Tick(s: Sampler, position: ObjId -> Vec3): (r: Sampler)
    requires Inv(s)
    ensures !r.capturing && r.target == s.target
    ensures s.capturing ==> r.captured == position(s.target.value)
    ensures !s.capturing ==> r == s
  {
    if s.capturing then s.(captured := position(s.target.value), capturing := false) else s
  }

  /** `getInstantPosition`: legal only once the capture has completed. The
      point read stays put while no new capture is requested: no frame
      changes it. */
  function Read(s: Sampler): (p: Vec3)
    requires !s.capturing
    ensures forall position: ObjId -> Vec3 :: Tick(s, position).captured == p
  {
    s.captured
  }

  lemma InitSatisfiesInv()
    ensures Inv(Init) && !Init.capturing && Read(Init) == Zero
  {
  }

  lemma OperationsPreserveInv(s: Sampler, g: Option<ObjId>, position: ObjId -> Vec3)
    requires Inv(s)
    ensures Inv(Capture(s, g))
    ensures Inv(Tick(s, position))
  {
  }

  /** The round trip: capture an object, let one frame pass, read back the
      object's position at that frame. */
  lemma CaptureTickRead(s: Sampler, g: ObjId, position: ObjId -> Vec3)
    requires Inv(s)
    ensures Read(Tick(Capture(s, Some(g)), position)) == position(g)
  {
  }

  /** A second capture before the next frame wins over the first. */
  lemma SecondCaptureWins(s: Sampler, g1: ObjId, g2: ObjId, position: ObjId -> Vec3)
    requires Inv(s)
    ensures Read(Tick(Capture(Capture(s, Some(g1)), Some(g2)), position)) == position(g2)
  {
  }

  /** A frame without a pending capture leaves the stored point, and
      hence any later read, alone. */
  lemma IdleTickKeepsPoint(s: Sampler, position: ObjId -> Vec3)
    requires Inv(s) && !s.capturing
    ensures Read(Tick(s, position)) == Read(s)
  {
  }
}

=== FILE: controller_fingers.dfy ===
/** `ControllerFingers`: the shapes a hand controller offers the finger
    solver, all in the controller's frame: a capsule around the grip, a
    plane through the thumb's rest position and a plane separating thumb
    from fingers. The maps between the controller's frame and the world
    are parameters. */
module ControllerFingers {
  import opened Common
  import opened Vectors

  /** Half-thickness of a finger, added to the capsule radius. */
  const FingerRadius: real := 0.005

  datatype Shape = Shape(
    startPoint: Vec3, endPoint: Vec3, radius: real,
    planePoint: Vec3, planeNormal: Vec3,
    separatorPoint: Vec3, separatorNormal: Vec3)

  /** The controller's transform: `TransformPoint`, `TransformDirection`
      and `InverseTransformPoint`. */
  datatype Frame = Frame(point: Vec3 -> Vec3, direction: Vec3 -> Vec3, inverse: Vec3 -> Vec3)

  /** `Start`: both plane normals are normalised; nothing else changes. */
  function Start(sh: Shape, norm: NormFn): (r: Shape)
    requires IsNorm(norm)
    ensures r.planeNormal == Normalized(norm, sh.planeNormal)
    ensures r.separatorNormal == Normalized(norm, sh.separatorNormal)
    ensures r.(planeNormal := sh.planeNormal, separatorNormal := sh.separatorNormal) == sh
  {
    sh.(planeNormal := Normalized(norm, sh.planeNormal), separatorNormal := Normalized(norm, sh.separatorNormal))
  }

  /** The capsule's projection parameter: where along the segment the
      point projects, clamped to the segment. The segment must not be
      degenerate, since its squared length is the divisor. */
  function CapsuleParam(sh: Shape, pos: Vec3): (h: real)
    requires sh.endPoint != sh.startPoint
    ensures 0.0 <= h <= 1.0
  {
    var es := Sub(sh.endPoint, sh.startPoint);
    assert es != Zero;
    DotSelfPositive(es);
    Clamp(Dot(Sub(pos, sh.startPoint), es) / Dot(es, es), 0.0, 1.0)
  }

  /** The point of the segment nearest to `pos` along the projection. */
  function ClosestOnSegment(sh: Shape, pos: Vec3): Vec3
    requires sh.endPoint != sh.startPoint
  {
    Add(sh.startPoint, Scale(CapsuleParam(sh, pos), Sub(sh.endPoint, sh.startPoint)))
  }

  /** `SDFCapsule` (`GetControllerSDF`) for a point already in the
      controller's frame. */
  function CapsuleDistance(norm: NormFn, sh: Shape, pos: Vec3): (r: real)
    requires IsNorm(norm)
    requires sh.endPoint != sh.startPoint
    ensures r >= -(sh.radius + FingerRadius)
  {
    var es := Sub(sh.endPoint, sh.startPoint);
    norm(Sub(Sub(pos, sh.startPoint), Scale(CapsuleParam(sh, pos), es))) - sh.radius - FingerRadius
  }

  /** The capsule distance is the distance to the nearest point of the
      segment, less the radius and the finger's half-thickness. */
  lemma CapsuleIsSegmentDistance(norm: NormFn, sh: Shape, pos: Vec3)
    requires IsNorm(norm)
    requires sh.endPoint != sh.startPoint
    ensures CapsuleDistance(norm, sh, pos) == Distance(norm, pos, ClosestOnSegment(sh, pos)) - sh.radius - FingerRadius
  {
    var es := Sub(sh.endPoint, sh.startPoint);
    var h := CapsuleParam(sh, pos);
    assert Sub(Sub(pos, sh.startPoint), Scale(h, es)) == Sub(pos, Add(sh.startPoint, Scale(h, es)));
  }

  /** Both ends of the segment are at the minimum distance. */
  lemma CapsuleEndpoints(norm: NormFn, sh: Shape)
    requires IsNorm(norm)
    requires sh.endPoint != sh.startPoint
    ensures CapsuleDistance(norm, sh, sh.startPoint) == -(sh.radius + FingerRadius)
    ensures CapsuleDistance(norm, sh, sh.endPoint) == -(sh.radius + FingerRadius)
  {
    var es := Sub(sh.endPoint, sh.startPoint);
    DotSelfPositive(es);
    assert CapsuleParam(sh, sh.startPoint) == 0.0 by {
      calc {
        Dot(Sub(sh.startPoint, sh.startPoint), es);
      ==
        0.0 * es.x + 0.0 * es.y + 0.0 * es.z;
      ==
        0.0;
      }
    }
    assert CapsuleParam(sh, sh.endPoint) == 1.0;
    assert Sub(Sub(sh.startPoint, sh.startPoint), Scale(0.0, es)) == Zero;
    assert Sub(Sub(sh.endPoint, sh.startPoint), Scale(1.0, es)) == Zero;
  }

  /** `GetControllerSDF`: a world point is taken into the controller's
      frame, then measured against the capsule; the result is its distance
      from the nearest point of the segment there, less the radii. */
  function ControllerDistance(norm: NormFn, sh: Shape, fr: Frame, pos: Vec3): (r: real)
    requires IsNorm(norm)
    requires sh.endPoint != sh.startPoint
    ensures r >= -(sh.radius + FingerRadius)
    ensures r == Distance(norm, fr.inverse(pos), ClosestOnSegment(sh, fr.inverse(pos))) - sh.radius - FingerRadius
  {
    CapsuleIsSegmentDistance(norm, sh, fr.inverse(pos));
    CapsuleDistance(norm, sh, fr.inverse(pos))
  }

  /** `PlaneDistance` (`GetThumbPlaneDistance`): the unsigned distance
      along the normal to the thumb plane, both taken into the world. */
  function ThumbPlaneDistance(sh: Shape, fr: Frame, pos: Vec3): (r: real)
    ensures r >= 0.0
    ensures r == Abs(SignedPlaneDistance(fr.point(sh.planePoint), fr.direction(sh.planeNormal), pos))
  {
    Abs(Dot(Sub(pos, fr.point(sh.planePoint)), fr.direction(sh.planeNormal)))
  }

  /** Signed offset of `pos` from the plane through `center` along `n`. */
  function SignedPlaneDistance(center: Vec3, n: Vec3, pos: Vec3): real {
    Dot(Sub(pos, center), n)
  }

  /** `SeparatorPlaneSDF` (`GetSDFSeparatorPlane`): the signed offset from
      the separator plane. */
  function SeparatorDistance(sh: Shape, fr: Frame, pos: Vec3): (r: real)
    ensures pos == fr.point(sh.separatorPoint) ==> r == 0.0
  {
    var c := fr.point(sh.separatorPoint);
    assert pos == c ==> Sub(pos, c) == Zero;
    SignedPlaneDistance(c, fr.direction(sh.separatorNormal), pos)
  }

  /** The signed offset is linear along the normal: a point `t` normals
      from the centre sits at `t` times the normal's squared length, so the
      two sides of the plane have opposite signs. */
  lemma SignedPlaneDistanceAlongNormal(center: Vec3, n: Vec3, t: real)
    ensures SignedPlaneDistance(center, n, Add(center, Scale(t, n))) == t * Dot(n, n)
    ensures SignedPlaneDistance(center, n, Add(center, Scale(-t, n))) == -SignedPlaneDistance(center, n, Add(center, Scale(t, n)))
  {
    assert Sub(Add(center, Scale(t, n)), center) == Scale(t, n);
    assert Sub(Add(center, Scale(-t, n)), center) == Scale(-t, n);
    calc {
      Dot(Scale(t, n), n);
    ==
      (t * n.x) * n.x + (t * n.y) * n.y + (t * n.z) * n.z;
    ==
      t * (n.x * n.x + n.y * n.y + n.z * n.z);
    }
    calc {
      Dot(Scale(-t, n), n);
    ==
      (-t * n.x) * n.x + (-t * n.y) * n.y + (-t * n.z) * n.z;
    ==
      -(t * (n.x * n.x + n.y * n.y + n.z * n.z));
    }
  }

  /** The separator distance of a point `t` normals from the separator's
      centre is `t` times the normal's squared length: points on the
      normal's side score positive, points behind it negative, whenever
      the normal is not zero. */
  lemma SeparatorAlongNormal(sh: Shape, fr: Frame, t: real)
    ensures var c := fr.point(sh.separatorPoint);
      var n := fr.direction(sh.separatorNormal);
      && SeparatorDistance(sh, fr, Add(c, Scale(t, n))) == t * Dot(n, n)
      && (n != Zero ==> (SeparatorDistance(sh, fr, Add(c, Scale(t, n))) > 0.0 <==> t > 0.0))
  {
    var c := fr.point(sh.separatorPoint);
    var n := fr.direction(sh.separatorNormal);
    SignedPlaneDistanceAlongNormal(c, n, t);
    if n != Zero {
      DotSelfPositive(n);
      PositiveFactorKeepsSign(t, Dot(n, n));
    }
  }

  /** Multiplying by a positive factor keeps the sign. */
  lemma PositiveFactorKeepsSign(t: real, d: real)
    requires d > 0.0
    ensures t * d > 0.0 <==> t > 0.0
  {
    if t <= 0.0 {
      assert (-t) * d >= 0.0;
    }
  }
}

=== FILE: finger_solver.dfy ===
/** The finger solver of `AvatarController_UnityIK`: thirty finger bones,
    each driven by a blend parameter `t` between its open and closed
    rotation, plus one thumb twist per hand. Each frame one
    finite-difference descent step is taken per bone against a penalty
    score. The rotations are not modelled: the joint positions a
    parameter vector produces come from a kinematics parameter. The chain
    scores the descent minimises are built from those positions and from
    the controller's and the held object's distance functions. */
module FingerSolver {
  import opened Common
  import opened Vectors
  import ControllerFingers
  import Sdf

  // ---------------------------------------------------------------------
  // Layout

  const BoneCount: nat := 30
  /** Bones per hand: four three-bone fingers, then the thumb. */
  const HandBones: nat := 15
  /** Offset of the thumb chain within a hand. */
  const ThumbOffset: nat := 12
  /** Start of the right thumb chain (`f == 12` in the twist update). */
  const RightThumb: nat := 12

  datatype Hand = RightHand | LeftHand
  /** In the order `InitFingers` adds them: index, middle, little, ring,
      then the thumb. */
  datatype Digit = Index | Middle | Little | Ring | Thumb
  datatype Joint = Proximal | Intermediate | Distal
  datatype Bone = Bone(hand: Hand, digit: Digit, joint: Joint)

  function HandNumber(h: Hand): nat { if h == RightHand then 0 else 1 }

  function DigitNumber(d: Digit): nat {
    match d
    case Index => 0
    case Middle => 1
    case Little => 2
    case Ring => 3
    case Thumb => 4
  }

  function JointNumber(j: Joint): nat {
    match j
    case Proximal => 0
    case Intermediate => 1
    case Distal => 2
  }

  /** Position of a bone in the `Fingers` list. */
  function BoneIndex(b: Bone): (k: nat)
    ensures k < BoneCount
  {
    HandNumber(b.hand) * HandBones + DigitNumber(b.digit) * 3 + JointNumber(b.joint)
  }

  /** The bone at a list position. */
  function BoneAt(k: nat): Bone
    requires k < BoneCount
  {
    var local := k % HandBones;
    var digits := [Index, Middle, Little, Ring, Thumb];
    var joints := [Proximal, Intermediate, Distal];
    Bone(if k < HandBones then RightHand else LeftHand, digits[local / 3], joints[local % 3])
  }

  /** Every bone is found again at its list position. */
  lemma BoneAtIndex(b: Bone)
    ensures BoneAt(BoneIndex(b)) == b
  {
    var local := DigitNumber(b.digit) * 3 + JointNumber(b.joint);
    assert BoneIndex(b) % HandBones == local && local / 3 == DigitNumber(b.digit) && local % 3 == JointNumber(b.joint);
  }

  /** Every list position holds the bone that indexes back to it: with
      `BoneAtIndex`, the layout is a bijection. */
  lemma IndexOfBoneAt(k: nat)
    requires k < BoneCount
    ensures BoneIndex(BoneAt(k)) == k
  {
    var local := k % HandBones;
    assert k == (k / HandBones) * HandBones + local;
    assert local == (local / 3) * 3 + local % 3;
  }

  /** The source's thumb test, `f - start >= 12` on the chain start. */
  predicate IsThumbBone(k: nat) {
    k % HandBones >= ThumbOffset
  }

  /** The thumb test picks out exactly the thumb bones, the right thumb
      chain starts at 12, and a chain never mixes thumb and finger. */
  lemma ThumbLayout(k: nat)
    requires k < BoneCount
    ensures IsThumbBone(k) <==> BoneAt(k).digit == Thumb
    ensures BoneIndex(Bone(RightHand, Thumb, Proximal)) == RightThumb
    ensures IsThumbBone(k) <==> IsThumbBone(k - k % 3)
  {
  }

  /** The parameters the solver keeps between frames. */
  datatype FingerParams = FingerParams(ts: seq<real>, rightThumbX: real, leftThumbX: real)

  /** `InitFingers` sets every `t` to 0; the twists start at the C#
      default 0. */
  const InitParams := FingerParams(seq(BoneCount, _ => 0.0), 0.0, 0.0)

  /** Every bound the update rules maintain: fingers in [0, 1], thumbs in
      [-1, 1], twists in [0, 1]. */
  predicate InBounds(p: FingerParams) {
    && |p.ts| == BoneCount
    && (forall k :: 0 <= k < BoneCount && !IsThumbBone(k) ==> 0.0 <= p.ts[k] <= 1.0)
    && (forall k :: 0 <= k < BoneCount && IsThumbBone(k) ==> -1.0 <= p.ts[k] <= 1.0)
    && 0.0 <= p.rightThumbX <= 1.0 && 0.0 <= p.leftThumbX <= 1.0
  }

  lemma InitInBounds()
    ensures InBounds(InitParams)
  {
  }

  // ---------------------------------------------------------------------
  // Scores

  /** Weight of a negative distance: a finger inside the controller. */
  const NegativePenalization: real := 2.0

  /** `d < 0 ? d * -2 : d` */
  function Penalty(d: real): (r: real)
    ensures r >= 0.0
    ensures r >= Abs(d)
    ensures r == 0.0 <==> d == 0.0
  {
    if d < 0.0 then d * -NegativePenalization else d
  }

  /** A separator value counts only on the wrong side; thumbs ignore the
      separator. */
  function SeparatorTerm(s: real, isThumb: bool): (r: real)
    ensures r >= 0.0
    ensures isThumb ==> r == 0.0
    ensures !isThumb && s >= 0.0 ==> r == s
  {
    if isThumb then 0.0 else if s < 0.0 then 0.0 else s
  }

  /** The three probe points of a chain: the two outer joints and a point
      beyond the last one along its `up` axis. */
  datatype Probes = Probes(j1: Vec3, j2: Vec3, j3: Vec3)

  /** `joint3 = joint2 + up * |joint2 - joint1| * LastFingerJointOffset`:
      the two joints, and a point on the last joint's `up` ray whose
      distance scales with the last bone's length. */
  function ProbePoints(norm: NormFn, j1: Vec3, j2: Vec3, up2: Vec3, lastJointOffset: real): (r: Probes)
    requires IsNorm(norm)
    ensures r.j1 == j1 && r.j2 == j2
    ensures j1 == j2 || lastJointOffset == 0.0 || up2 == Zero ==> r.j3 == j2
    ensures lastJointOffset >= 0.0 ==> exists c: real :: c >= 0.0 && r.j3 == Add(j2, Scale(c, up2))
  {
    var c := norm(Sub(j2, j1)) * lastJointOffset;
    assert j1 == j2 ==> Sub(j2, j1) == Zero;
    assert lastJointOffset >= 0.0 ==> c >= 0.0;
    Probes(j1, j2, Add(j2, Scale(c, up2)))
  }

  /** `DistanceTarget`, given the controller distances and separator values
      at the three probe points. */
  function ControllerScore(d1: real, d2: real, d3: real, s1: real, s2: real, s3: real, isThumb: bool): (r: real)
    ensures r >= 0.0
    ensures r >= Abs(d1) + Abs(d2) + Abs(d3)
  {
    Penalty(d1) + SeparatorTerm(s1, isThumb) + Penalty(d2) + SeparatorTerm(s2, isThumb) + Penalty(d3) + SeparatorTerm(s3, isThumb)
  }

  /** `DistanceObjectTarget`, given the object distances at the three probe
      points. */
  function ObjectScore(d1: real, d2: real, d3: real): (r: real)
    ensures r >= 0.0
    ensures r == 0.0 <==> d1 == 0.0 && d2 == 0.0 && d3 == 0.0
  {
    Penalty(d1) + Penalty(d2) + Penalty(d3)
  }

  /** A thumb chain's controller score depends on the distances alone: the
      separator is ignored. */
  lemma ThumbIgnoresSeparator(d1: real, d2: real, d3: real, s1: real, s2: real, s3: real, t1: real, t2: real, t3: real)
    ensures ControllerScore(d1, d2, d3, s1, s2, s3, true) == ControllerScore(d1, d2, d3, t1, t2, t3, true)
  {
  }

  /** `DistancePlaneThumb`: the three unsigned plane distances. */
  function PlaneScore(p1: real, p2: real, p3: real): (r: real)
    requires p1 >= 0.0 && p2 >= 0.0 && p3 >= 0.0
    ensures r >= 0.0
    ensures r == 0.0 <==> p1 == 0.0 && p2 == 0.0 && p3 == 0.0
  {
    p1 + p2 + p3
  }

  // ---------------------------------------------------------------------
  // Chain scores

  /** Where a chain's outer two joints sit, and the last joint's `up`
      axis, once the bones carry given parameters. */
  datatype ChainJoints = ChainJoints(j1: Vec3, j2: Vec3, up2: Vec3)

  /** Bending the bones: the joints of the chain starting at a bone under
      given parameters. */
  type Kinematics = (nat, FingerParams) -> ChainJoints

  /** The probe points of the chain at `f` under `p`. */
  function ChainProbes(norm: NormFn, kin: Kinematics, lastJointOffset: real, f: nat, p: FingerParams): Probes
    requires IsNorm(norm)
  {
    var j := kin(f, p);
    ProbePoints(norm, j.j1, j.j2, j.up2, lastJointOffset)
  }

  /** `DistanceTarget` against one controller, for the hand whose chains
      start at `start`: the capsule distance and the separator value at
      each probe point, with the hand's fifth chain as its thumb. A chain
      scores zero only with all three probes on the capsule's surface. */
  function ControllerChains(norm: NormFn, kin: Kinematics, lastJointOffset: real, start: nat,
                            sh: ControllerFingers.Shape, fr: ControllerFingers.Frame): (s: Score)
    requires IsNorm(norm) && sh.endPoint != sh.startPoint
    ensures forall f: nat, p: FingerParams :: s(f, p) >= 0.0
    ensures forall f: nat, p: FingerParams :: s(f, p) == 0.0 ==>
      var q := ChainProbes(norm, kin, lastJointOffset, f, p);
      && ControllerFingers.ControllerDistance(norm, sh, fr, q.j1) == 0.0
      && ControllerFingers.ControllerDistance(norm, sh, fr, q.j2) == 0.0
      && ControllerFingers.ControllerDistance(norm, sh, fr, q.j3) == 0.0
  {
    (f: nat, p: FingerParams) =>
      var q := ChainProbes(norm, kin, lastJointOffset, f, p);
      ControllerScore(
        ControllerFingers.ControllerDistance(norm, sh, fr, q.j1),
        ControllerFingers.ControllerDistance(norm, sh, fr, q.j2),
        ControllerFingers.ControllerDistance(norm, sh, fr, q.j3),
        ControllerFingers.SeparatorDistance(sh, fr, q.j1),
        ControllerFingers.SeparatorDistance(sh, fr, q.j2),
        ControllerFingers.SeparatorDistance(sh, fr, q.j3),
        f >= start + ThumbOffset)
  }

  /** `DistancePlaneThumb` against one controller: zero exactly when all
      three probes lie on the thumb plane. */
  function PlaneChains(norm: NormFn, kin: Kinematics, lastJointOffset: real,
                       sh: ControllerFingers.Shape, fr: ControllerFingers.Frame): (s: Score)
    requires IsNorm(norm)
    ensures forall f: nat, p: FingerParams :: s(f, p) >= 0.0
    ensures forall f: nat, p: FingerParams :: s(f, p) == 0.0 <==>
      var q := ChainProbes(norm, kin, lastJointOffset, f, p);
      && ControllerFingers.ThumbPlaneDistance(sh, fr, q.j1) == 0.0
      && ControllerFingers.ThumbPlaneDistance(sh, fr, q.j2) == 0.0
      && ControllerFingers.ThumbPlaneDistance(sh, fr, q.j3) == 0.0
  {
    (f: nat, p: FingerParams) =>
      var q := ChainProbes(norm, kin, lastJointOffset, f, p);
      PlaneScore(
        ControllerFingers.ThumbPlaneDistance(sh, fr, q.j1),
        ControllerFingers.ThumbPlaneDistance(sh, fr, q.j2),
        ControllerFingers.ThumbPlaneDistance(sh, fr, q.j3))
  }

  /** `DistanceObjectTarget` against the object under the palm: zero
      exactly when all three probes lie on the object's surface. */
  function ObjectChains(norm: NormFn, kin: Kinematics, lastJointOffset: real, obj: Sdf.Shape): (s: Score)
    requires IsNorm(norm)
    ensures forall f: nat, p: FingerParams :: s(f, p) >= 0.0
    ensures forall f: nat, p: FingerParams :: s(f, p) == 0.0 <==>
      var q := ChainProbes(norm, kin, lastJointOffset, f, p);
      && Sdf.ShapeDistance(norm, obj, q.j1) == 0.0
      && Sdf.ShapeDistance(norm, obj, q.j2) == 0.0
      && Sdf.ShapeDistance(norm, obj, q.j3) == 0.0
  {
    (f: nat, p: FingerParams) =>
      var q := ChainProbes(norm, kin, lastJointOffset, f, p);
      ObjectScore(Sdf.ShapeDistance(norm, obj, q.j1), Sdf.ShapeDistance(norm, obj, q.j2), Sdf.ShapeDistance(norm, obj, q.j3))
  }

  // ---------------------------------------------------------------------
  // The descent

  const SamplingDistance: real := 0.02
  const AutomaticRate: real := 0.1
  const ObjectsRate: real := 0.005
  /** Thumb gradients are amplified in the objects mode. */
  const ObjectsThumbGain: real := 20.0
  /** Below this score a chain stops; above this plane distance the twist
      is updated. */
  const Tolerance: real := 0.001
  /** Upper bound of a finger's `t` while holding an object. */
  const ObjectsMaxT: real := 0.75

  /** The score of the chain starting at a bone, under given parameters. */
  type Score = (nat, FingerParams) -> real

  function SetT(p: FingerParams, k: nat, t: real): (r: FingerParams)
    requires k < |p.ts|
    ensures |r.ts| == |p.ts| && r.ts[k] == t
    ensures forall j :: 0 <= j < |p.ts| && j != k ==> r.ts[j] == p.ts[j]
    ensures r.rightThumbX == p.rightThumbX && r.leftThumbX == p.leftThumbX
  {
    p.(ts := p.ts[k := t])
  }

  /** The forward difference of the chain's score when bone `k` moves by
      the sampling distance. */
  function Gradient(score: Score, f: nat, k: nat, p: FingerParams): real
    requires k < |p.ts|
  {
    (score(f, SetT(p, k, p.ts[k] + SamplingDistance)) - score(f, p)) / SamplingDistance
  }

  /** The twist of the thumb chain starting at `f`. */
  function ThumbX(p: FingerParams, f: nat): real {
    if f == RightThumb then p.rightThumbX else p.leftThumbX
  }

  function SetThumbX(p: FingerParams, f: nat, x: real): (r: FingerParams)
    ensures r.ts == p.ts
    ensures f == RightThumb ==> r.rightThumbX == x && r.leftThumbX == p.leftThumbX
    ensures f != RightThumb ==> r.leftThumbX == x && r.rightThumbX == p.rightThumbX
  {
    if f == RightThumb then p.(rightThumbX := x) else p.(leftThumbX := x)
  }

  /** The twist update after the thumb's first bone: only when the plane
      distance exceeds the tolerance, one clamped descent step. */
  function TwistStep(p: FingerParams, f: nat, plane: Score): (r: FingerParams)
    requires 0.0 <= ThumbX(p, f) <= 1.0
    ensures r.ts == p.ts
    ensures 0.0 <= ThumbX(r, f) <= 1.0
    ensures plane(f, p) <= Tolerance ==> r == p
    ensures f == RightThumb ==> r.leftThumbX == p.leftThumbX
    ensures f != RightThumb ==> r.rightThumbX == p.rightThumbX
  {
    var x := ThumbX(p, f);
    var d1 := plane(f, p);
    if d1 > Tolerance then
      var d2 := plane(f, SetThumbX(p, f, x + SamplingDistance));
      SetThumbX(p, f, Clamp01(x - AutomaticRate * ((d2 - d1) / SamplingDistance)))
    else p
  }

  /** The parameters bone `k`'s gradient is sampled at. Before sampling,
      the source resets the bone to its plain interpolated rotation, so for
      the thumb's first bone, the only one that carries a twist, the
      twist is not applied; every other bone sees the current twist. */
  function SampledAt(p: FingerParams, f: nat, k: nat): (r: FingerParams)
    ensures r.ts == p.ts
    ensures IsThumbBone(k) && k == f ==> ThumbX(r, f) == 0.0
    ensures !(IsThumbBone(k) && k == f) ==> r == p
  {
    if IsThumbBone(k) && k == f then SetThumbX(p, f, 0.0) else p
  }

  /** One bone of `FingersGradientDescent`: a descent step on `t`, clamped
      to [-1, 1] for a thumb and [0, 1] for a finger, then for the thumb's
      first bone the twist update. */
  function AutomaticBone(p: FingerParams, f: nat, k: nat, score: Score, plane: Score): (r: FingerParams)
    requires InBounds(p) && k < BoneCount && f <= k < f + 3 && f % 3 == 0
    ensures InBounds(r)
    ensures forall j :: 0 <= j < BoneCount && j != k ==> r.ts[j] == p.ts[j]
    ensures (r.rightThumbX != p.rightThumbX || r.leftThumbX != p.leftThumbX) ==>
              k == f && IsThumbBone(f) && plane(f, SetT(p, k, r.ts[k])) > Tolerance
    ensures IsThumbBone(k) ==> r.ts[k] == Clamp(p.ts[k] - AutomaticRate * Gradient(score, f, k, SampledAt(p, f, k)), -1.0, 1.0)
    ensures !IsThumbBone(k) ==> r.ts[k] == Clamp01(p.ts[k] - AutomaticRate * Gradient(score, f, k, p))
  {
    var step := p.ts[k] - AutomaticRate * Gradient(score, f, k, SampledAt(p, f, k));
    var p1 := SetT(p, k, if IsThumbBone(k) then Clamp(step, -1.0, 1.0) else Clamp01(step));
    if IsThumbBone(k) && k == f then TwistStep(p1, f, plane) else p1
  }

  /** The thumb's first bone steps the same whatever the current twist:
      its gradient is sampled untwisted. */
  lemma FirstThumbStepIgnoresTwist(p: FingerParams, f: nat, x: real, score: Score, plane: Score)
    requires InBounds(p) && f < BoneCount && f % 3 == 0 && IsThumbBone(f) && 0.0 <= x <= 1.0
    ensures AutomaticBone(SetThumbX(p, f, x), f, f, score, plane).ts[f] == AutomaticBone(p, f, f, score, plane).ts[f]
  {
    assert SampledAt(SetThumbX(p, f, x), f, f) == SampledAt(p, f, f);
  }

  /** Bones `f + i` to `f + 2` of one chain, stopping after the first bone
      whose update brings the score under the tolerance. */
  function AutomaticChain(p: FingerParams, f: nat, i: nat, score: Score, plane: Score): (r: FingerParams)
    requires InBounds(p) && f + 3 <= BoneCount && f % 3 == 0 && i <= 3
    ensures InBounds(r)
    ensures forall j :: 0 <= j < BoneCount && !(f + i <= j < f + 3) ==> r.ts[j] == p.ts[j]
    ensures !IsThumbBone(f) ==> r.rightThumbX == p.rightThumbX && r.leftThumbX == p.leftThumbX
    decreases 3 - i
  {
    if i == 3 then p
    else
      var p1 := AutomaticBone(p, f, f + i, score, plane);
      if score(f, p1) < Tolerance then p1 else AutomaticChain(p1, f, i + 1, score, plane)
  }

  /** Chains `c` to 4 of the hand whose bones start at `start`. */
  function AutomaticHand(p: FingerParams, start: nat, c: nat, score: Score, plane: Score): (r: FingerParams)
    requires InBounds(p) && start + HandBones <= BoneCount && start % HandBones == 0 && c <= 5
    ensures InBounds(r)
    ensures forall j :: 0 <= j < BoneCount && !(start + 3 * c <= j < start + HandBones) ==> r.ts[j] == p.ts[j]
    decreases 5 - c
  {
    if c == 5 then p
    else AutomaticHand(AutomaticChain(p, start + 3 * c, 0, score, plane), start, c + 1, score, plane)
  }

  /** The `Automatic` finger mode: the right hand against the right
      controller, then the left hand against the left one. */
  function Automatic(p: FingerParams, right: Score, rightPlane: Score, left: Score, leftPlane: Score): (r: FingerParams)
    requires InBounds(p)
    ensures InBounds(r)
  {
    AutomaticHand(AutomaticHand(p, 0, 0, right, rightPlane), HandBones, 0, left, leftPlane)
  }

  /** Once a bone's update brings its chain's score under the tolerance,
      the chain's remaining bones keep their parameters. */
  lemma EarlyStopKeepsRest(p: FingerParams, f: nat, i: nat, score: Score, plane: Score)
    requires InBounds(p) && f + 3 <= BoneCount && f % 3 == 0 && i < 3
    requires score(f, AutomaticBone(p, f, f + i, score, plane)) < Tolerance
    ensures var r := AutomaticChain(p, f, i, score, plane);
      forall j :: f + i < j < f + 3 ==> r.ts[j] == p.ts[j]
  {
  }

  /** A twist only changes on the thumb chain's first bone, and only when
      the thumb's plane distance exceeds the tolerance. */
  lemma TwistNeedsPlaneDistance(p: FingerParams, f: nat, k: nat, score: Score, plane: Score)
    requires InBounds(p) && k < BoneCount && f <= k < f + 3 && f % 3 == 0
    requires plane(f, SetT(p, k, AutomaticBone(p, f, k, score, plane).ts[k])) <= Tolerance
    ensures AutomaticBone(p, f, k, score, plane).rightThumbX == p.rightThumbX
    ensures AutomaticBone(p, f, k, score, plane).leftThumbX == p.leftThumbX
  {
  }

  // ---------------------------------------------------------------------
  // The objects mode

  /** Per-frame relaxation when the palm touches nothing. */
  const RelaxStep: real := ObjectsRate * 0.25
  /** The relaxed pose's `t`. */
  const RelaxedT: real := 0.1

  /** A finger creeps towards open but not below 0.1; a thumb creeps
      towards 0.1 from either side, bounded below by -0.9. */
  function Relax(t: real, isThumb: bool): real {
    if isThumb then
      if t > RelaxedT then Clamp(t - RelaxStep, RelaxedT, 1.0) else Clamp(t + RelaxStep, -0.9, RelaxedT)
    else Clamp(t - RelaxStep, RelaxedT, 1.0)
  }

  /** A thumb moves towards 0.1 and never crosses it, by at most one step
      unless it starts below -0.90125, where the lower clamp pulls it up to
      -0.9 at once. A finger in [0.1, 1] moves down by at most one step
      and stays in [0.1, 1]. */
  lemma RelaxBehaviour(t: real)
    requires -1.0 <= t <= 1.0
    ensures var r := Relax(t, true);
      && (t > RelaxedT ==> RelaxedT <= r < t && t - r <= RelaxStep)
      && (t <= RelaxedT ==> t <= r <= RelaxedT)
      && (-0.9 - RelaxStep <= t <= RelaxedT ==> r - t <= RelaxStep)
      && (t < -0.9 - RelaxStep ==> r == -0.9)
    ensures var r := Relax(t, false);
      && RelaxedT <= r <= 1.0
      && (RelaxedT <= t ==> r <= t && t - r <= RelaxStep)
  {
  }

  /** The no-contact branch: every bone of the hand relaxes, with no early
      stop; the other hand is untouched. */
  function RelaxHand(p: FingerParams, start: nat): (r: FingerParams)
    requires InBounds(p) && start + HandBones <= BoneCount
    ensures InBounds(r)
    ensures forall k :: start <= k < start + HandBones ==> r.ts[k] == Relax(p.ts[k], IsThumbBone(k))
    ensures forall k :: 0 <= k < BoneCount && !(start <= k < start + HandBones) ==> r.ts[k] == p.ts[k]
    ensures r.rightThumbX == p.rightThumbX && r.leftThumbX == p.leftThumbX
  {
    p.(ts := seq(BoneCount, k requires 0 <= k < BoneCount =>
      if start <= k < start + HandBones then Relax(p.ts[k], IsThumbBone(k)) else p.ts[k]))
  }

  /** The parameters with neither thumb twisted. */
  function NoTwist(p: FingerParams): (r: FingerParams)
    ensures r == FingerParams(p.ts, 0.0, 0.0)
  {
    p.(rightThumbX := 0.0, leftThumbX := 0.0)
  }

  /** `s` read with both thumbs untwisted: the objects pass sets each bone
      to its plain interpolated rotation and never applies a twist. */
  function Untwisted(s: Score): (r: Score)
    ensures forall f: nat, p: FingerParams :: r(f, p) == s(f, NoTwist(p))
  {
    (f: nat, p: FingerParams) => s(f, NoTwist(p))
  }

  /** An untwisted score sees only the bend parameters. */
  lemma UntwistedSameBends(s: Score, f: nat, p: FingerParams, q: FingerParams)
    requires p.ts == q.ts
    ensures Untwisted(s)(f, p) == Untwisted(s)(f, q)
  {
    assert NoTwist(p) == NoTwist(q);
  }

  /** One bone of `FingersObjectsGradientDescent` with contact: a thumb
      steps twenty times harder within [-1, 1], a finger within [0, 0.75];
      no twist. */
  function ObjectsBone(p: FingerParams, f: nat, k: nat, score: Score): (r: FingerParams)
    requires InBounds(p) && k < BoneCount
    ensures InBounds(r)
    ensures forall j :: 0 <= j < BoneCount && j != k ==> r.ts[j] == p.ts[j]
    ensures r.rightThumbX == p.rightThumbX && r.leftThumbX == p.leftThumbX
    ensures IsThumbBone(k) ==> -1.0 <= r.ts[k] <= 1.0
    ensures !IsThumbBone(k) ==> 0.0 <= r.ts[k] <= ObjectsMaxT
  {
    var g := Gradient(score, f, k, p);
    SetT(p, k, if IsThumbBone(k) then Clamp(p.ts[k] - ObjectsRate * g * ObjectsThumbGain, -1.0, 1.0)
               else Clamp(p.ts[k] - ObjectsRate * g, 0.0, ObjectsMaxT))
  }

  function ObjectsChain(p: FingerParams, f: nat, i: nat, score: Score): (r: FingerParams)
    requires InBounds(p) && f + 3 <= BoneCount && i <= 3
    ensures InBounds(r)
    ensures forall j :: 0 <= j < BoneCount && !(f + i <= j < f + 3) ==> r.ts[j] == p.ts[j]
    ensures r.rightThumbX == p.rightThumbX && r.leftThumbX == p.leftThumbX
    decreases 3 - i
  {
    if i == 3 then p
    else
      var p1 := ObjectsBone(p, f, f + i, score);
      if score(f, p1) < Tolerance then p1 else ObjectsChain(p1, f, i + 1, score)
  }

  function ObjectsHandContact(p: FingerParams, start: nat, c: nat, score: Score): (r: FingerParams)
    requires InBounds(p) && start + HandBones <= BoneCount && c <= 5
    ensures InBounds(r)
    ensures forall j :: 0 <= j < BoneCount && !(start + 3 * c <= j < start + HandBones) ==> r.ts[j] == p.ts[j]
    ensures r.rightThumbX == p.rightThumbX && r.leftThumbX == p.leftThumbX
    decreases 5 - c
  {
    if c == 5 then p
    else ObjectsHandContact(ObjectsChain(p, start + 3 * c, 0, score), start, c + 1, score)
  }

  /** `FingersObjectsGradientDescent` for one hand: relax without contact,
      descend against the touched object's distance otherwise. */
  function ObjectsHand(p: FingerParams, start: nat, contact: bool, score: Score): (r: FingerParams)
    requires InBounds(p) && start + HandBones <= BoneCount
    ensures InBounds(r)
  {
    if contact then ObjectsHandContact(p, start, 0, score) else RelaxHand(p, start)
  }

  /** The `Objects` finger mode: right hand, then left, each scored with
      the thumbs untwisted. */
  function Objects(p: FingerParams, rightContact: bool, right: Score, leftContact: bool, left: Score): (r: FingerParams)
    requires InBounds(p)
    ensures InBounds(r)
    ensures r.rightThumbX == p.rightThumbX && r.leftThumbX == p.leftThumbX
  {
    var p1 := ObjectsHand(p, 0, rightContact, Untwisted(right));
    assert p1.rightThumbX == p.rightThumbX && p1.leftThumbX == p.leftThumbX;
    var p2 := ObjectsHand(p1, HandBones, leftContact, Untwisted(left));
    assert p2.rightThumbX == p1.rightThumbX && p2.leftThumbX == p1.leftThumbX;
    p2
  }

  /** With contact, every finger bone the pass reaches ends in [0, 0.75]. */
  lemma {:induction false} ObjectsContactFingerBound(p: FingerParams, f: nat, i: nat, score: Score)
    requires InBounds(p) && f + 3 <= BoneCount && i <= 3
    ensures var r := ObjectsChain(p, f, i, score);
      forall j :: f + i <= j < f + 3 && !IsThumbBone(j) && r.ts[j] != p.ts[j] ==> 0.0 <= r.ts[j] <= ObjectsMaxT
    decreases 3 - i
  {
    if i < 3 {
      var p1 := ObjectsBone(p, f, f + i, score);
      if score(f, p1) >= Tolerance {
        ObjectsContactFingerBound(p1, f, i + 1, score);
      }
    }
  }

  /** With an untwisted score, one step bends the same from any twist. */
  lemma ObjectsBoneTwistFree(p: FingerParams, q: FingerParams, f: nat, k: nat, s: Score)
    requires InBounds(p) && InBounds(q) && p.ts == q.ts && k < BoneCount
    ensures ObjectsBone(p, f, k, Untwisted(s)).ts == ObjectsBone(q, f, k, Untwisted(s)).ts
  {
    UntwistedSameBends(s, f, p, q);
    UntwistedSameBends(s, f, SetT(p, k, p.ts[k] + SamplingDistance), SetT(q, k, q.ts[k] + SamplingDistance));
  }

  /** ... and so does a chain pass. */
  lemma {:induction false} ObjectsChainTwistFree(p: FingerParams, q: FingerParams, f: nat, i: nat, s: Score)
    requires InBounds(p) && InBounds(q) && p.ts == q.ts && f + 3 <= BoneCount && i <= 3
    ensures ObjectsChain(p, f, i, Untwisted(s)).ts == ObjectsChain(q, f, i, Untwisted(s)).ts
    decreases 3 - i
  {
    if i < 3 {
      var p1, q1 := ObjectsBone(p, f, f + i, Untwisted(s)), ObjectsBone(q, f, f + i, Untwisted(s));
      ObjectsBoneTwistFree(p, q, f, f + i, s);
      UntwistedSameBends(s, f, p1, q1);
      ObjectsChainTwistFree(p1, q1, f, i + 1, s);
    }
  }

  /** ... and so does a hand pass with contact. */
  lemma {:induction false} ObjectsHandContactTwistFree(p: FingerParams, q: FingerParams, start: nat, c: nat, s: Score)
    requires InBounds(p) && InBounds(q) && p.ts == q.ts && start + HandBones <= BoneCount && c <= 5
    ensures ObjectsHandContact(p, start, c, Untwisted(s)).ts == ObjectsHandContact(q, start, c, Untwisted(s)).ts
    decreases 5 - c
  {
    if c < 5 {
      var p1, q1 := ObjectsChain(p, start + 3 * c, 0, Untwisted(s)), ObjectsChain(q, start + 3 * c, 0, Untwisted(s));
      ObjectsChainTwistFree(p, q, start + 3 * c, 0, s);
      ObjectsHandContactTwistFree(p1, q1, start, c + 1, s);
    }
  }

  /** ... and so does either branch of a hand's pass. */
  lemma ObjectsHandTwistFree(p: FingerParams, q: FingerParams, start: nat, contact: bool, s: Score)
    requires InBounds(p) && InBounds(q) && p.ts == q.ts && start + HandBones <= BoneCount
    ensures ObjectsHand(p, start, contact, Untwisted(s)).ts == ObjectsHand(q, start, contact, Untwisted(s)).ts
  {
    if contact {
      ObjectsHandContactTwistFree(p, q, start, 0, s);
    } else {
      var a, b := RelaxHand(p, start), RelaxHand(q, start);
      assert forall k :: 0 <= k < BoneCount ==> a.ts[k] == b.ts[k];
    }
  }

  /** The objects pass never applies a twist: whatever the thumbs' twists,
      the same bends produce the same bends. */
  lemma ObjectsIgnoresTwist(p: FingerParams, q: FingerParams, rightContact: bool, right: Score, leftContact: bool, left: Score)
    requires InBounds(p) && InBounds(q) && p.ts == q.ts
    ensures Objects(p, rightContact, right, leftContact, left).ts == Objects(q, rightContact, right, leftContact, left).ts
  {
    var r := Untwisted(right);
    ObjectsHandTwistFree(p, q, 0, rightContact, right);
    ObjectsHandTwistFree(ObjectsHand(p, 0, rightContact, r), ObjectsHand(q, 0, rightContact, r), HandBones, leftContact, left);
  }
}

=== FILE: ik_controller.dfy ===
/** `AvatarController_UnityIK`: each frame, `OnAnimatorIK` turns the body's
    anchor joints into end-effector targets for Unity's humanoid IK, and
    `LateUpdate` then places the hips, stretches the arms, poses the
    fingers and positions the controller models. A three-valued flag
    delays the first targets by one frame, so that the reference vector
    is captured in the calibration pose first. Bone rotations, Unity's IK
    solve and the transform hierarchy are not modelled: rotations the
    routines read are inputs, positions they read are inputs, and what
    they write is returned. */
module IkController {
  import opened Common
  import opened Vectors
  import AvatarBody
  import ArmsStretch
  import FingerSolver
  import ControllerFingers
  import Sdf

  /** `BendFingersType`; the first member is the field's default. */
  datatype BendFingersType = Open | Uniform | Automatic | Objects

  /** The switches `AvatarGo` sets through the public setters. */
  datatype Settings = Settings(
    attached: bool, clamp: bool, stretch: bool, fingers: BendFingersType, uniformT: real)

  const DefaultSettings := Settings(false, false, false, Open, 0.0)

  /** The controller's own state: the calibration flag, the settings, the
      reference vector captured at the first IK pass, and the finger
      solver's parameters. */
  datatype Ik = Ik(flag: nat, settings: Settings, reference: Vec3, params: FingerSolver.FingerParams)

  /** The state after `Start`: flag 0 and the fingers initialised. */
  const InitIk := Ik(0, DefaultSettings, Zero, FingerSolver.InitParams)

  /** `CalibrationFinished` */
  predicate CalibrationFinished(c: Ik) {
    c.flag >= 2
  }

  /** What every operation keeps: the flag never passes 2, the finger
      parameters stay within their bounds and the uniform bend is a
      fraction. */
  predicate Inv(c: Ik) {
    c.flag <= 2 && FingerSolver.InBounds(c.params) && 0.0 <= c.settings.uniformT <= 1.0
  }

  lemma InitSatisfiesInv()
    ensures Inv(InitIk) && !CalibrationFinished(InitIk)
  {
    FingerSolver.InitInBounds();
  }

  // ---------------------------------------------------------------------
  // Setters

  datatype Command =
    | SetArmStretch(on: bool)
    | SetControllersAttached(on: bool)
    | SetClampControllers(on: bool)
    | SetAutomaticFingers
    | SetUniformFingers(t: real)
    | SetObjectsFingers
    | SetOpenFingers

  /** The public setters. `SetUniformFingers` asserts its argument is a
      fraction. Each setter changes its own switch and nothing else; the
      finger setters also change the mode. */
  function Configure(c: Ik, cmd: Command): (r: Ik)
    requires cmd.SetUniformFingers? ==> 0.0 <= cmd.t <= 1.0
    ensures r.flag == c.flag && r.reference == c.reference && r.params == c.params
    ensures Inv(c) ==> Inv(r)
    ensures r.settings.attached == (if cmd.SetControllersAttached? then cmd.on else c.settings.attached)
    ensures r.settings.clamp == (if cmd.SetClampControllers? then cmd.on else c.settings.clamp)
    ensures r.settings.stretch == (if cmd.SetArmStretch? then cmd.on else c.settings.stretch)
    ensures r.settings.uniformT == (if cmd.SetUniformFingers? then cmd.t else c.settings.uniformT)
    ensures r.settings.fingers == match cmd
      case SetAutomaticFingers => Automatic
      case SetUniformFingers(_) => Uniform
      case SetObjectsFingers => Objects
      case SetOpenFingers => Open
      case _ => c.settings.fingers
  {
    var s := c.settings;
    c.(settings := match cmd
      case SetArmStretch(on) => s.(stretch := on)
      case SetControllersAttached(on) => s.(attached := on)
      case SetClampControllers(on) => s.(clamp := on)
      case SetAutomaticFingers => s.(fingers := Automatic)
      case SetUniformFingers(t) => s.(uniformT := t, fingers := Uniform)
      case SetObjectsFingers => s.(fingers := Objects)
      case SetOpenFingers => s.(fingers := Open))
  }

  // ---------------------------------------------------------------------
  // OnAnimatorIK

  /** The component references `OnAnimatorIK` tests first. */
  datatype Presence = Presence(animator: bool, properties: bool, ikActive: bool)

  predicate Enabled(pr: Presence) {
    pr.animator && pr.properties && pr.ikActive
  }

  /** The tracked head's transform. */
  datatype Head = Head(position: Vec3, forward: Vec3, right: Vec3)

  /** World positions of the anchor joints and of the avatar's hips bone,
      and where each hand's grab point sits relative to its hand bone: the
      grab position turned into world axes by the hand's rotation from the
      previous frame (its `TransformPoint` less its position). */
  datatype Scene = Scene(
    wristLeft: Vec3, wristRight: Vec3, root: Vec3, ankleLeft: Vec3, ankleRight: Vec3,
    hipsBone: Vec3, leftGrabOffset: Vec3, rightGrabOffset: Vec3)

  /** The four IK goal positions. */
  datatype Targets = Targets(leftHand: Vec3, rightHand: Vec3, leftFoot: Vec3, rightFoot: Vec3)

  datatype IkOutcome = IkOutcome(c: Ik, targets: Option<Targets>)

  /** All six anchor joints exist. */
  predicate AllAnchors(a: AvatarBody.Anchors) {
    a.wristLeft.Some? && a.wristRight.Some? && a.root.Some? &&
    a.ankleLeft.Some? && a.ankleRight.Some? && a.neck.Some?
  }

  /** The centre of the head: the head position moved along its forward
      and right axes by the body's measures. */
  function CenterHead(h: Head, m: AvatarBody.Measures): Vec3 {
    Add(Add(h.position, Scale(m.depthCenterHead, h.forward)), Scale(m.widthCenterHead, h.right))
  }

  /** The pelvis-to-head-centre direction in the body's frame, normalised.
      `toBody` is the inverse of the animator's body rotation. */
  function ReferenceVector(norm: NormFn, h: Head, m: AvatarBody.Measures, pelvis: Vec3, toBody: Vec3 -> Vec3): Vec3 {
    Normalized(norm, toBody(Sub(CenterHead(h, m), pelvis)))
  }

  /** How far the root anchor is from the avatar's hips bone. */
  function HipsOffset(s: Scene): Vec3 {
    Sub(s.root, s.hipsBone)
  }

  /** The hand's grab point once the hand bone has been put at `w`. */
  function GrabPoint(w: Vec3, grabOffset: Vec3): Vec3 {
    Add(w, grabOffset)
  }

  /** A hand goal. The hand bone is first put at the wrist shifted by the
      hips offset, `w`; the goal is `w` mirrored past the grab point found
      there, which leaves it the grab offset short of `w`. */
  function HandTarget(wrist: Vec3, grabOffset: Vec3, offset: Vec3): (t: Vec3)
    ensures t == Sub(Sub(wrist, offset), grabOffset)
  {
    var w := Sub(wrist, offset);
    Add(w, Sub(w, GrabPoint(w, grabOffset)))
  }

  /** A foot goal: the ankle shifted by the hips offset, so that it sits
      relative to the hips bone where the ankle sits relative to the
      root. */
  function FootTarget(ankle: Vec3, root: Vec3, hips: Vec3): (t: Vec3)
    ensures Sub(t, hips) == Sub(ankle, root)
  {
    Sub(ankle, Sub(root, hips))
  }

  /** The four goals: relative to the hips bone, each sits where its
      anchor sits relative to the root anchor, the hands then pulled back
      by their grab offsets. */
  function TargetsOf(s: Scene): (t: Targets)
    ensures Sub(t.leftHand, s.hipsBone) == Sub(Sub(s.wristLeft, s.root), s.leftGrabOffset)
    ensures Sub(t.rightHand, s.hipsBone) == Sub(Sub(s.wristRight, s.root), s.rightGrabOffset)
    ensures Sub(t.leftFoot, s.hipsBone) == Sub(s.ankleLeft, s.root)
    ensures Sub(t.rightFoot, s.hipsBone) == Sub(s.ankleRight, s.root)
  {
    var off := HipsOffset(s);
    Targets(HandTarget(s.wristLeft, s.leftGrabOffset, off), HandTarget(s.wristRight, s.rightGrabOffset, off),
            FootTarget(s.ankleLeft, s.root, s.hipsBone), FootTarget(s.ankleRight, s.root, s.hipsBone))
  }

  /** `OnAnimatorIK`. It returns early without components or with IK off;
      it then reads the driver's head, which must exist; it returns early
      if the body or any anchor joint is missing; on the first full pass it
      only records the reference vector and moves the flag to 1; on every
      later pass it sets the four goals. */
  function OnAnimatorIK(norm: NormFn, c: Ik, pr: Presence, head: Option<Head>, body: Option<AvatarBody.Body>,
                        pelvis: Vec3, toBody: Vec3 -> Vec3, s: Scene): (r: IkOutcome)
    requires IsNorm(norm)
    requires Enabled(pr) ==> head.Some?
    ensures r.c.settings == c.settings && r.c.params == c.params
    ensures Inv(c) ==> Inv(r.c)
    ensures r.targets.Some? <==>
      Enabled(pr) && body.Some? && AllAnchors(body.value.anchors) && c.flag != 0
    ensures r.targets.Some? ==> r.targets.value == TargetsOf(s)
    ensures r.c != c ==>
      Enabled(pr) && body.Some? && AllAnchors(body.value.anchors) && c.flag == 0 &&
      r.c.flag == 1 && r.c.reference == ReferenceVector(norm, head.value, body.value.measures, pelvis, toBody)
    ensures c.flag == 0 && Enabled(pr) && body.Some? && AllAnchors(body.value.anchors) ==> r.c.flag == 1
  {
    if !Enabled(pr) then IkOutcome(c, None)
    else if body.None? || !AllAnchors(body.value.anchors) then IkOutcome(c, None)
    else if c.flag == 0 then
      IkOutcome(c.(flag := 1, reference := ReferenceVector(norm, head.value, body.value.measures, pelvis, toBody)), None)
    else IkOutcome(c, Some(TargetsOf(s)))
  }

  /** The hand goal and the grab point are mirror images about the shifted
      wrist: IK drives the hand so that its grab point lands where the
      wrist anchor is. */
  lemma HandTargetMirrorsGrab(wrist: Vec3, grabOffset: Vec3, offset: Vec3)
    ensures var w := Sub(wrist, offset);
      Sub(HandTarget(wrist, grabOffset, offset), w) == Sub(w, GrabPoint(w, grabOffset))
  {
  }

  /** Moving every anchor joint by the same amount leaves the goals where
      they were: the hips offset absorbs the move, so the goals depend on
      the tracked body's shape relative to its root, not on where it
      stands. */
  lemma TargetsIgnoreTrackedTranslation(s: Scene, t: Vec3)
    ensures var moved := s.(wristLeft := Add(s.wristLeft, t), wristRight := Add(s.wristRight, t),
                            root := Add(s.root, t), ankleLeft := Add(s.ankleLeft, t), ankleRight := Add(s.ankleRight, t));
      TargetsOf(moved) == TargetsOf(s)
  {
  }

  // ---------------------------------------------------------------------
  // LateUpdate

  /** Where a controller model ends up: absent, held at a world position,
      or reset to its parent's origin. */
  datatype Placement = NoModel | WorldAt(position: Vec3) | LocalZero

  /** What the finger pass leaves on the bones: all open, all blended by
      one fraction, or blended by the solver's parameters. */
  datatype FingerPose = OpenPose | UniformPose(t: real) | SolvedPose

  /** A controller as the finger solver reads it: its shapes and its
      transform. */
  datatype Held = Held(shape: ControllerFingers.Shape, frame: ControllerFingers.Frame)

  /** The capsule's segment is not degenerate, so its distance is
      defined. */
  predicate Usable(h: Held) {
    h.shape.endPoint != h.shape.startPoint
  }

  /** The solver's inputs for one frame: how the bones bend, the
      `LastFingerJointOffset` of the third probe, the controllers held in
      each hand, and for each palm whether it touches a collider and the
      shape of the object it touches. */
  datatype FingerInputs = FingerInputs(
    kin: FingerSolver.Kinematics, lastJointOffset: real,
    right: Held, left: Held,
    rightContact: bool, rightObject: Sdf.Shape,
    leftContact: bool, leftObject: Sdf.Shape)

  /** The per-frame inputs of `LateUpdate`. `modelLeft` and `modelRight`
      are the models' parents' `TransformDirection`, absent for a null
      model. */
  datatype LateInputs = LateInputs(
    arms: (ArmsStretch.Arm, ArmsStretch.Arm), fingers: FingerInputs,
    leftGrab: Vec3, rightGrab: Vec3,
    modelLeft: Option<Vec3 -> Vec3>, modelRight: Option<Vec3 -> Vec3>)

  /** What one `LateUpdate` writes. */
  datatype Written = Written(
    hips: Vec3, handsRotated: bool, arms: Option<(ArmsStretch.Arm, ArmsStretch.Arm)>,
    pose: FingerPose, left: Placement, right: Placement)

  datatype LateOutcome = LateOutcome(c: Ik, written: Option<Written>)

  /** The held model's offset from the grab point, in its parent's
      frame. */
  const ModelOffset := Scale(-0.1, Forward)

  function Place(clamp: bool, grab: Vec3, model: Option<Vec3 -> Vec3>): (r: Placement)
    ensures model.None? <==> r == NoModel
    ensures model.Some? && !clamp ==> r == LocalZero
    ensures model.Some? && clamp ==> r.WorldAt? && Add(r.position, model.value(ModelOffset)) == grab
  {
    if model.None? then NoModel
    else if clamp then WorldAt(Sub(grab, model.value(ModelOffset)))
    else LocalZero
  }

  /** The finger pass for the current mode. The automatic mode scores the
      right hand's chains (bones 0 to 14) against the right controller and
      the left hand's against the left one; the objects mode scores each
      hand's chains against the object under its palm. */
  function FingerPass(norm: NormFn, p: FingerSolver.FingerParams, mode: BendFingersType, uniformT: real, f: FingerInputs): (r: (FingerSolver.FingerParams, FingerPose))
    requires IsNorm(norm) && FingerSolver.InBounds(p)
    requires mode == Automatic ==> Usable(f.right) && Usable(f.left)
    ensures FingerSolver.InBounds(r.0)
    ensures mode == Open ==> r == (p, OpenPose)
    ensures mode == Uniform ==> r == (p, UniformPose(uniformT))
    ensures mode == Automatic || mode == Objects ==> r.1 == SolvedPose
    ensures mode == Objects ==> r.0.rightThumbX == p.rightThumbX && r.0.leftThumbX == p.leftThumbX
  {
    match mode
    case Open => (p, OpenPose)
    case Uniform => (p, UniformPose(uniformT))
    case Automatic =>
      var right := FingerSolver.ControllerChains(norm, f.kin, f.lastJointOffset, 0, f.right.shape, f.right.frame);
      var rightPlane := FingerSolver.PlaneChains(norm, f.kin, f.lastJointOffset, f.right.shape, f.right.frame);
      var left := FingerSolver.ControllerChains(norm, f.kin, f.lastJointOffset, FingerSolver.HandBones, f.left.shape, f.left.frame);
      var leftPlane := FingerSolver.PlaneChains(norm, f.kin, f.lastJointOffset, f.left.shape, f.left.frame);
      (FingerSolver.Automatic(p, right, rightPlane, left, leftPlane), SolvedPose)
    case Objects =>
      var right := FingerSolver.ObjectChains(norm, f.kin, f.lastJointOffset, f.rightObject);
      var left := FingerSolver.ObjectChains(norm, f.kin, f.lastJointOffset, f.leftObject);
      (FingerSolver.Objects(p, f.rightContact, right, f.leftContact, left), SolvedPose)
  }

  /** `LateUpdate`. While the flag is below 2 it only moves the flag from 1
      to 2. Afterwards it reads the root anchor, which must exist, puts the
      hips there, turns the hands if controllers are attached, stretches
      the arms if enabled, runs the finger pass and places the models. */
  function LateUpdate(norm: NormFn, c: Ik, body: Option<AvatarBody.Body>, rootPos: Vec3, in_: LateInputs): (r: LateOutcome)
    requires IsNorm(norm)
    requires FingerSolver.InBounds(c.params)
    requires c.flag >= 2 ==> body.Some? && body.value.anchors.root.Some?
    requires c.flag >= 2 && c.settings.fingers == Automatic ==> Usable(in_.fingers.right) && Usable(in_.fingers.left)
    ensures Inv(c) ==> Inv(r.c)
    ensures r.c.settings == c.settings && r.c.reference == c.reference
    ensures r.written.Some? <==> c.flag >= 2
    ensures c.flag < 2 ==> r.c == c.(flag := if c.flag == 1 then 2 else 0)
    ensures c.flag >= 2 ==> r.c.flag == c.flag
    ensures r.written.Some? ==> var w := r.written.value;
      && w.hips == rootPos
      && w.handsRotated == c.settings.attached
      && (w.arms.Some? <==> c.settings.stretch)
      && (w.left == Place(c.settings.clamp, in_.leftGrab, in_.modelLeft))
      && (w.right == Place(c.settings.clamp, in_.rightGrab, in_.modelRight))
  {
    if c.flag < 2 then LateUpdate0(c)
    else
      var s := c.settings;
      var arms := if s.stretch then Some(ArmsStretch.DoUpdate(norm, in_.arms.0, in_.arms.1)) else None;
      var pass := FingerPass(norm, c.params, s.fingers, s.uniformT, in_.fingers);
      LateOutcome(c.(params := pass.0),
                  Some(Written(rootPos, s.attached, arms, pass.1,
                               Place(s.clamp, in_.leftGrab, in_.modelLeft), Place(s.clamp, in_.rightGrab, in_.modelRight))))
  }

  /** The early return of `LateUpdate`. */
  function LateUpdate0(c: Ik): (r: LateOutcome)
    requires c.flag < 2
    ensures r.written == None && r.c.flag == (if c.flag == 1 then 2 else 0)
  {
    LateOutcome(c.(flag := if c.flag == 1 then 2 else c.flag), None)
  }

  /** Calibration in two frames. From flag 0 with everything present, the
      first `OnAnimatorIK` captures the reference vector and sets no goal;
      the `LateUpdate` that follows finishes calibration without writing
      anything; the next `OnAnimatorIK` sets the goals from the scene. */
  lemma {:induction false} CalibrationSequence(norm: NormFn, c: Ik, pr: Presence, h: Head, body: AvatarBody.Body,
                                               pelvis: Vec3, toBody: Vec3 -> Vec3, s: Scene, rootPos: Vec3, in_: LateInputs)
    requires IsNorm(norm) && Inv(c) && c.flag == 0
    requires Enabled(pr) && AllAnchors(body.anchors)
    ensures var ik1 := OnAnimatorIK(norm, c, pr, Some(h), Some(body), pelvis, toBody, s);
      && ik1.targets == None && !CalibrationFinished(ik1.c)
      && var late := LateUpdate(norm, ik1.c, Some(body), rootPos, in_);
      && late.written == None && CalibrationFinished(late.c)
      && OnAnimatorIK(norm, late.c, pr, Some(h), Some(body), pelvis, toBody, s).targets == Some(TargetsOf(s))
  {
    var ik1 := OnAnimatorIK(norm, c, pr, Some(h), Some(body), pelvis, toBody, s);
    assert ik1.c.flag == 1;
    var late := LateUpdate(norm, ik1.c, Some(body), rootPos, in_);
    assert late.c.flag == 2;
  }

  /** Without a first complete IK pass the flag stays at 0: `LateUpdate`
      alone never finishes calibration. */
  lemma LateUpdateAloneNeverCalibrates(norm: NormFn, c: Ik, body: Option<AvatarBody.Body>, rootPos: Vec3, in_: LateInputs)
    requires IsNorm(norm) && FingerSolver.InBounds(c.params) && c.flag == 0
    ensures LateUpdate(norm, c, body, rootPos, in_).c == c
  {
  }
}

=== FILE: pipeline_utils.dfy ===
/** The calibration pipeline's stages, the transition between them and the
    messages shown to the user at each stage. */
module PipelineUtils {

  /** The pipeline stages. `Dirty` is never stored as the current stage; it
      only selects messages. */
  datatype Stage = Dirty | Devices | TPose | RootAvatar | Done

  /** The integer each stage has in the C# enum. */
  function Value(s: Stage): int {
    match s
    case Dirty => -1
    case Devices => 0
    case TPose => 1
    case RootAvatar => 10
    case Done => 11
  }

  /** A stage the pipeline can actually be in. */
  predicate IsLive(s: Stage) {
    s != Dirty
  }

  /** `s` is the live stage that comes right after `current`: it lies above
      `current` and no live stage lies strictly between them. */
  ghost predicate IsImmediateSuccessor(current: Stage, s: Stage) {
    IsLive(s) && Value(current) < Value(s) &&
    forall t: Stage :: IsLive(t) && Value(current) < Value(t) ==> Value(s) <= Value(t)
  }

  /** `nextStage`. The driver argument of the source is never read, so it
      is not a parameter here. */
  function NextStage(current: Stage): (r: Stage)
    ensures IsLive(r) && r != Devices
    ensures Value(current) <= Value(r)
    ensures current != Done ==> Value(current) < Value(r)
    ensures current == Done || current == Dirty ==> r == Done
  {
    match current
    case Devices => TPose
    case TPose => RootAvatar
    case RootAvatar => Done
    case Done => Done
    case Dirty => Done
  }

  /** For the three working stages, the next stage is the one right after
      it in the enum order; only `Dirty` skips straight to `Done`. */
  lemma NextStageIsImmediateSuccessor(current: Stage)
    requires current in {Devices, TPose, RootAvatar}
    ensures IsImmediateSuccessor(current, NextStage(current))
  {
  }

  /** ... and conversely, the immediate successor of a working stage is
      unique, so it is what `NextStage` returns. */
  lemma ImmediateSuccessorIsNextStage(current: Stage, s: Stage)
    requires IsImmediateSuccessor(current, s)
    ensures s == NextStage(current) || current == Dirty
  {
    assert IsLive(NextStage(current));
    if current != Dirty && current != Done {
      assert Value(s) <= Value(NextStage(current));
    }
  }

  /** `NextStage` applied `n` times. */
  function Advance(s: Stage, n: nat): Stage
    decreases n
  {
    if n == 0 then s else Advance(NextStage(s), n - 1)
  }

  /** `Done` is a fixpoint however often the pipeline is advanced. */
  lemma {:induction false} DoneIsFixpoint(n: nat)
    ensures Advance(Done, n) == Done
    decreases n
  {
    if n > 0 {
      DoneIsFixpoint(n - 1);
    }
  }

  /** The stage value never decreases along any number of steps. */
  lemma {:induction false} AdvanceIsMonotone(s: Stage, n: nat)
    ensures Value(s) <= Value(Advance(s, n))
    decreases n
  {
    if n > 0 {
      AdvanceIsMonotone(NextStage(s), n - 1);
    }
  }

  /** From any stage, three steps reach `Done` and it stays there. */
  lemma {:induction false} ThreeStepsReachDone(s: Stage, n: nat)
    requires n >= 3
    ensures Advance(s, n) == Done
  {
    var s3 := Advance(s, 3);
    assert s3 == Done;
    AdvanceSplit(s, 3, n - 3);
    DoneIsFixpoint(n - 3);
  }

  /** Advancing `m + k` steps is advancing `m` and then `k`. */
  lemma {:induction false} AdvanceSplit(s: Stage, m: nat, k: nat)
    ensures Advance(s, m + k) == Advance(Advance(s, m), k)
    decreases m
  {
    if m > 0 {
      AdvanceSplit(NextStage(s), m - 1, k);
    }
  }

  const IntroDevices := "Setting up device indices and taking some measures... Please, stand on a T-pose. Press TRIGGER when ready!"
  const IntroTPose := "Taking some measures... Please, stand on a T-pose. Press TRIGGER when ready!"
  const IntroRootAvatar := "\n\n\n\n\nSetting up root... Please, stand on a T-pose inside the avatar shown. Press TRIGGER when ready!"
  const IntroDone := "Avatar setup completed successfully."

  /** Instructions shown before a stage (`introMessageAt`). */
  function IntroMessage(current: Stage): (r: string)
    ensures r == "" <==> current == Dirty
  {
    match current
    case Dirty => ""
    case Devices => IntroDevices
    case TPose => IntroTPose
    case RootAvatar => IntroRootAvatar
    case Done => IntroDone
  }

  const SuccessDevices := "Devices were identified correctly!"
  const SuccessTPose := "Measures were correctly captured!"

  /** Message shown after a stage completed (`successMessageAt`). */
  function SuccessMessage(current: Stage): (r: string)
    ensures r != "" <==> current == Devices || current == TPose
  {
    match current
    case Devices => SuccessDevices
    case TPose => SuccessTPose
    case _ => ""
  }

  const FailureDirty := "Please, connect more controllers and/or trackers."
  const FailureNotEnoughDevices := "Not enough devices! Need at least two controllers and/or trackers."
  const FailureNoPlane := "Could not identify tracked objects! Make sure you're standing on a T-pose."
  const FailureHeadNotAligned := "Your head is not aligned with the rest of your body! Make sure you're standing on a T-pose."

  /** Message shown after a stage failed (`failureMessageAt`); `code` tells
      the identification failures apart and defaults to -1 in the source. */
  function FailureMessage(current: Stage, code: int): (r: string)
    ensures current == Dirty ==> r != ""
    ensures current == Devices ==> (r != "" <==> code in {0, 1, 2})
    ensures current in {TPose, RootAvatar, Done} ==> r == ""
  {
    match current
    case Dirty => FailureDirty
    case Devices =>
      if code == 0 then FailureNotEnoughDevices
      else if code == 1 then FailureNoPlane
      else if code == 2 then FailureHeadNotAligned
      else ""
    case _ => ""
  }

  /** The three identification failures are reported with three different
      messages. */
  lemma FailureMessagesDistinct(c1: int, c2: int)
    requires c1 in {0, 1, 2} && c2 in {0, 1, 2} && c1 != c2
    ensures FailureMessage(Devices, c1) != FailureMessage(Devices, c2)
  {
    assert |FailureNotEnoughDevices| == 66;
    assert |FailureNoPlane| == 74;
    assert |FailureHeadNotAligned| == 91;
  }

  const ProgressDirty := "Found {0} controller(s) and {1} tracker(s)."
  const ProgressTPose := "Taking some measures... Please, stand on a T-pose."
  const ProgressRootAvatar := "Setting up root... Please, stand on a T-pose inside the avatar shown."

  /** Message shown while a stage runs (`progressMessageAt`). */
  function ProgressMessage(current: Stage): (r: string)
    ensures r != "" <==> current in {Dirty, TPose, RootAvatar}
  {
    match current
    case Dirty => ProgressDirty
    case TPose => ProgressTPose
    case RootAvatar => ProgressRootAvatar
    case _ => ""
  }
}

=== FILE: plane_fit.dfy ===
/** `Utils.FitPlane`: the least-squares plane z = a x + b y + d through a
    set of points, written as a x + b y + c z + d = 0 with c = -1, solved
    from the 2x2 normal equations of the centred points. */
module PlaneFit {
  import opened Common
  import opened Vectors

  datatype Plane = Plane(a: real, b: real, c: real, d: real)

  /** Sum of `f` over the points. */
  function SumOf(ps: seq<Vec3>, f: Vec3 -> real): real
    decreases |ps|
  {
    if |ps| == 0 then 0.0 else f(ps[0]) + SumOf(ps[1..], f)
  }

  function X(p: Vec3): real { p.x }
  function Y(p: Vec3): real { p.y }
  function Z(p: Vec3): real { p.z }

  /** Componentwise mean of a non-empty point list. */
  function Mean(ps: seq<Vec3>): (m: Vec3)
    requires |ps| > 0
  {
    var n := |ps| as real;
    Vec3(SumOf(ps, X) / n, SumOf(ps, Y) / n, SumOf(ps, Z) / n)
  }

  /** The five second moments of the centred points. */
  datatype Moments = Moments(xx: real, xy: real, xz: real, yy: real, yz: real)

  /** The product of two coordinates of a point centred on `m`. */
  function Centred(m: Vec3, i: nat, j: nat): Vec3 -> real
    requires i < 3 && j < 3
  {
    (p: Vec3) => Coord(Sub(p, m), i) * Coord(Sub(p, m), j)
  }

  function Coord(v: Vec3, i: nat): real
    requires i < 3
  {
    if i == 0 then v.x else if i == 1 then v.y else v.z
  }

  function CentredMoments(ps: seq<Vec3>, m: Vec3): Moments {
    Moments(SumOf(ps, Centred(m, 0, 0)),
            SumOf(ps, Centred(m, 0, 1)),
            SumOf(ps, Centred(m, 0, 2)),
            SumOf(ps, Centred(m, 1, 1)),
            SumOf(ps, Centred(m, 1, 2)))
  }

  /** Determinant of the normal equations. */
  function Det(k: Moments): real {
    k.xx * k.yy - k.xy * k.xy
  }

  /** `FitPlane`: fails (`None`, leaving the outputs unassigned) for fewer
      than three points or a singular system. */
  function FitPlane(ps: seq<Vec3>): (r: Option<Plane>)
    ensures r == None <==> |ps| < 3 || Det(CentredMoments(ps, Mean(ps))) == 0.0
    ensures r.Some? ==> r.value.c == -1.0
  {
    if |ps| < 3 then None
    else
      var m := Mean(ps);
      Solve(CentredMoments(ps, m), m)
  }

  /** Solves the normal equations by Cramer's rule and puts the plane
      through the mean `m`; a singular system has no solution. */
  function Solve(k: Moments, m: Vec3): (r: Option<Plane>)
    ensures r == None <==> Det(k) == 0.0
  {
    var det := Det(k);
    if det != 0.0 then
      var a := (k.yy * k.xz - k.xy * k.yz) / det;
      var b := (k.xx * k.yz - k.xy * k.xz) / det;
      Some(Plane(a, b, -1.0, -a * m.x - b * m.y + m.z))
    else None
  }

  /** Value of the plane's equation at a point; zero on the plane. */
  function Eval(pl: Plane, p: Vec3): real {
    pl.a * p.x + pl.b * p.y + pl.c * p.z + pl.d
  }

  /** The fitted plane passes through the centroid of the points. */
  lemma FitPlaneThroughCentroid(ps: seq<Vec3>)
    requires FitPlane(ps).Some?
    ensures Eval(FitPlane(ps).value, Mean(ps)) == 0.0
  {
    var pl := FitPlane(ps).value;
    var m := Mean(ps);
    calc {
      Eval(pl, m);
    ==
      pl.a * m.x + pl.b * m.y + (-1.0) * m.z + (-pl.a * m.x - pl.b * m.y + m.z);
    ==
      0.0;
    }
  }

  /** Cramer's rule for the 2x2 system [xx xy; xy yy] (a, b) = (xz, yz). */
  lemma {:induction false} Cramer(xx: real, xy: real, yy: real, xz: real, yz: real)
    requires xx * yy - xy * xy != 0.0
    ensures var det := xx * yy - xy * xy;
            var a := (yy * xz - xy * yz) / det;
            var b := (xx * yz - xy * xz) / det;
            xx * a + xy * b == xz && xy * a + yy * b == yz
  {
    var det := xx * yy - xy * xy;
    var a := (yy * xz - xy * yz) / det;
    var b := (xx * yz - xy * xz) / det;
    calc {
      xx * a + xy * b;
    ==
      (xx * (yy * xz - xy * yz) + xy * (xx * yz - xy * xz)) / det;
    ==
      (xz * det) / det;
    ==
      xz;
    }
    calc {
      xy * a + yy * b;
    ==
      (xy * (yy * xz - xy * yz) + yy * (xx * yz - xy * xz)) / det;
    ==
      (yz * det) / det;
    ==
      yz;
    }
  }

  /** The slopes `a`, `b` solve the least-squares normal equations of the
      centred moments `k`. */
  predicate SolvesNormalEquations(k: Moments, pl: Plane) {
    k.xx * pl.a + k.xy * pl.b == k.xz && k.xy * pl.a + k.yy * pl.b == k.yz
  }

  /** On success the slopes solve the least-squares normal equations. */
  lemma FitPlaneSolvesNormalEquations(ps: seq<Vec3>)
    requires FitPlane(ps).Some?
    ensures SolvesNormalEquations(CentredMoments(ps, Mean(ps)), FitPlane(ps).value)
  {
    var m := Mean(ps);
    var k := CentredMoments(ps, m);
    assert FitPlane(ps) == Solve(k, m);
    SolveSolves(k, m);
  }

  /** A solution of `Solve` satisfies the normal equations it solves. */
  lemma SolveSolves(k: Moments, m: Vec3)
    requires Solve(k, m).Some?
    ensures SolvesNormalEquations(k, Solve(k, m).value)
  {
    Cramer(k.xx, k.xy, k.yy, k.xz, k.yz);
  }

  /** Removing the element at `i` from a sum. */
  lemma {:induction false} SumOfRemove(ps: seq<Vec3>, i: nat, f: Vec3 -> real)
    requires i < |ps|
    ensures SumOf(ps, f) == f(ps[i]) + SumOf(ps[..i] + ps[i + 1..], f)
    decreases |ps|
  {
    if i > 0 {
      SumOfRemove(ps[1..], i - 1, f);
      assert ps[1..][..i - 1] + ps[1..][i..] == (ps[..i] + ps[i + 1..])[1..];
    } else {
      assert ps[..i] + ps[i + 1..] == ps[1..];
    }
  }

  /** Removing slot `i` removes one occurrence of its point. */
  lemma MultisetRemove(qs: seq<Vec3>, i: nat)
    requires i < |qs|
    ensures multiset(qs[..i] + qs[i + 1..]) == multiset(qs) - multiset{qs[i]}
  {
    assert qs == qs[..i] + [qs[i]] + qs[i + 1..];
  }

  /** The first point of `ps` sits somewhere in its permutation `qs`, and
      the rests are again permutations of each other. */
  lemma PermutationSplit(ps: seq<Vec3>, qs: seq<Vec3>) returns (i: nat)
    requires multiset(ps) == multiset(qs) && |ps| > 0
    ensures i < |qs| && qs[i] == ps[0]
    ensures multiset(ps[1..]) == multiset(qs[..i] + qs[i + 1..])
  {
    assert ps[0] in multiset(qs);
    i :| 0 <= i < |qs| && qs[i] == ps[0];
    MultisetRemove(qs, i);
    MultisetTail(ps);
  }

  lemma MultisetTail(ps: seq<Vec3>)
    requires |ps| > 0
    ensures multiset(ps[1..]) == multiset(ps) - multiset{ps[0]}
  {
    assert ps == [ps[0]] + ps[1..];
  }

  /** A sum depends only on the multiset of its points. */
  lemma {:induction false} SumOfPermutation(ps: seq<Vec3>, qs: seq<Vec3>, f: Vec3 -> real)
    requires multiset(ps) == multiset(qs)
    ensures SumOf(ps, f) == SumOf(qs, f)
    decreases |ps|
  {
    if |ps| > 0 {
      var i := PermutationSplit(ps, qs);
      SumOfPermutation(ps[1..], qs[..i] + qs[i + 1..], f);
      SumOfRemove(qs, i, f);
    } else {
      assert |qs| == 0;
    }
  }

  /** The fit does not depend on the order of the points. */
  lemma FitPlaneOrderIndependent(ps: seq<Vec3>, qs: seq<Vec3>)
    requires multiset(ps) == multiset(qs)
    ensures FitPlane(ps) == FitPlane(qs)
  {
    assert |ps| == |multiset(ps)| == |qs|;
    if |ps| >= 3 {
      SumOfPermutation(ps, qs, X);
      SumOfPermutation(ps, qs, Y);
      SumOfPermutation(ps, qs, Z);
      var m := Mean(ps);
      assert Mean(qs) == m;
      SumOfPermutation(ps, qs, Centred(m, 0, 0));
      SumOfPermutation(ps, qs, Centred(m, 0, 1));
      SumOfPermutation(ps, qs, Centred(m, 0, 2));
      SumOfPermutation(ps, qs, Centred(m, 1, 1));
      SumOfPermutation(ps, qs, Centred(m, 1, 2));
      assert CentredMoments(ps, m) == CentredMoments(qs, m);
      assert CentredMoments(qs, Mean(qs)) == CentredMoments(ps, Mean(ps));
    }
  }
}

=== FILE: scene_tree.dfy ===
/** The scene hierarchy as a tree of named transforms, and the depth-first
    name search `Utils.FindDescendants` in its two overloads. */
module SceneTree {
  import opened Common

  /** Identity of a scene object. */
  type ObjId = int

  /** A transform with its name and its children in sibling order. */
  datatype Node = Node(id: ObjId, name: string, children: seq<Node>)

  /** Every node of the subtree, parent before children, children in
      sibling order. */
  function PreOrder(n: Node): (r: seq<Node>)
    ensures |r| > 0 && r[0] == n
    decreases n
  {
    [n] + PreOrderAll(n.children)
  }

  function PreOrderAll(ns: seq<Node>): seq<Node>
    decreases ns
  {
    if |ns| == 0 then [] else PreOrder(ns[0]) + PreOrderAll(ns[1..])
  }

  /** Reference definition: the first node of `s` carrying `name`. */
  function FirstNamed(s: seq<Node>, name: string): (r: Option<Node>)
    ensures r == None <==> forall i :: 0 <= i < |s| ==> s[i].name != name
    ensures r.Some? ==> exists i :: 0 <= i < |s| && s[i] == r.value &&
                          s[i].name == name &&
                          forall j :: 0 <= j < i ==> s[j].name != name
  {
    if |s| == 0 then None
    else if s[0].name == name then Some(s[0])
    else
      var rest := FirstNamed(s[1..], name);
      if rest.Some? then
        var i :| 0 <= i < |s| - 1 && s[1..][i] == rest.value && s[1..][i].name == name &&
                 forall j :: 0 <= j < i ==> s[1..][j].name != name;
        assert s[i + 1] == rest.value;
        rest
      else rest
  }

  /** The first match in a concatenation is the first match of the left
      part, or, failing that, of the right part. */
  lemma {:induction false} FirstNamedAppend(a: seq<Node>, b: seq<Node>, name: string)
    ensures FirstNamed(a + b, name) ==
            (if FirstNamed(a, name).Some? then FirstNamed(a, name) else FirstNamed(b, name))
    decreases |a|
  {
    if |a| > 0 {
      assert (a + b)[0] == a[0];
      assert (a + b)[1..] == a[1..] + b;
      FirstNamedAppend(a[1..], b, name);
    } else {
      assert a + b == b;
    }
  }

  /** `FindDescendants(current, name)`: the node itself when its name
      matches, otherwise the first match among the children, each searched
      depth-first in sibling order. */
  function Find(n: Node, name: string): Option<Node>
    decreases n
  {
    if n.name == name then Some(n) else FindIn(n.children, name)
  }

  /** The loop over the children in `FindDescendants`. */
  function FindIn(ns: seq<Node>, name: string): Option<Node>
    decreases ns
  {
    if |ns| == 0 then None
    else
      var found := Find(ns[0], name);
      if found.Some? then found else FindIn(ns[1..], name)
  }

  /** The search is exactly "first node in pre-order that has the name". */
  lemma {:induction false} FindIsFirstInPreOrder(n: Node, name: string)
    ensures Find(n, name) == FirstNamed(PreOrder(n), name)
    decreases n
  {
    FirstNamedAppend([n], PreOrderAll(n.children), name);
    if n.name != name {
      FindInIsFirstInPreOrder(n.children, name);
    }
  }

  lemma {:induction false} FindInIsFirstInPreOrder(ns: seq<Node>, name: string)
    ensures FindIn(ns, name) == FirstNamed(PreOrderAll(ns), name)
    decreases ns
  {
    if |ns| > 0 {
      FindIsFirstInPreOrder(ns[0], name);
      FindInIsFirstInPreOrder(ns[1..], name);
      FirstNamedAppend(PreOrder(ns[0]), PreOrderAll(ns[1..]), name);
    }
  }

  /** The consequences users of the search rely on: the root itself wins
      when it matches, a result carries the name and lies in the subtree,
      and nothing is found exactly when no node of the subtree has it. */
  lemma FindSpec(n: Node, name: string)
    ensures n.name == name ==> Find(n, name) == Some(n)
    ensures Find(n, name) == None <==>
            forall i :: 0 <= i < |PreOrder(n)| ==> PreOrder(n)[i].name != name
    ensures Find(n, name).Some? ==>
            Find(n, name).value.name == name && Find(n, name).value in PreOrder(n)
  {
    FindIsFirstInPreOrder(n, name);
  }

  /** `FindDescendants(current, names)`: the match for the earliest name of
      the list that occurs anywhere in the tree. */
  function FindAny(n: Node, names: seq<string>): (r: Option<Node>)
    ensures r == None <==> forall i :: 0 <= i < |names| ==> Find(n, names[i]) == None
    ensures r.Some? ==> exists i :: 0 <= i < |names| && Find(n, names[i]) == r &&
                          forall j :: 0 <= j < i ==> Find(n, names[j]) == None
    decreases |names|
  {
    if |names| == 0 then None
    else if Find(n, names[0]).Some? then Find(n, names[0])
    else
      var rest := FindAny(n, names[1..]);
      if rest.Some? then
        var i :| 0 <= i < |names| - 1 && Find(n, names[1..][i]) == rest &&
                 forall j :: 0 <= j < i ==> Find(n, names[1..][j]) == None;
        assert Find(n, names[i + 1]) == rest;
        rest
      else rest
  }

  /** Whatever `FindAny` returns is a node of the tree carrying one of the
      requested names. */
  lemma FindAnyIsNamedDescendant(n: Node, names: seq<string>)
    requires FindAny(n, names).Some?
    ensures FindAny(n, names).value.name in names
    ensures FindAny(n, names).value in PreOrder(n)
  {
    var i :| 0 <= i < |names| && Find(n, names[i]) == FindAny(n, names);
    FindSpec(n, names[i]);
  }
}

=== FILE: sdf.dfy ===
/** Signed distance functions of a sphere and of a box, the two shapes a
    held object offers the finger solver. A world point is taken into the
    box's local frame by subtracting the box's own position and undoing a
    rotation: its parent's when it has a parent, its own otherwise. The
    rotations themselves are parameters. */
module Sdf {
  import opened Common
  import opened Vectors

  /** `SphereSDF.Distance`: distance to the centre minus the radius. */
  function SphereDistance(norm: NormFn, center: Vec3, radius: real, p: Vec3): (r: real)
    requires IsNorm(norm)
    ensures r >= -radius
    ensures r == -radius <==> p == center
  {
    Distance(norm, p, center) - radius
  }

  /** The sphere's distance depends only on the offset from the centre:
      moving point and centre together changes nothing. */
  lemma SphereTranslationInvariant(norm: NormFn, center: Vec3, radius: real, p: Vec3, t: Vec3)
    requires IsNorm(norm)
    ensures SphereDistance(norm, Add(center, t), radius, Add(p, t)) == SphereDistance(norm, center, radius, p)
  {
    assert Sub(Add(p, t), Add(center, t)) == Sub(p, center);
  }

  /** A larger radius never increases the distance. */
  lemma SphereRadiusMonotone(norm: NormFn, center: Vec3, r1: real, r2: real, p: Vec3)
    requires IsNorm(norm) && r1 <= r2
    ensures SphereDistance(norm, center, r2, p) <= SphereDistance(norm, center, r1, p)
  {
  }

  /** Componentwise `math.abs`, `math.max(_, 0)`. */
  function AbsV(v: Vec3): Vec3 { Vec3(Abs(v.x), Abs(v.y), Abs(v.z)) }
  function PosPart(v: Vec3): Vec3 { Vec3(Max(v.x, 0.0), Max(v.y, 0.0), Max(v.z, 0.0)) }
  function MaxComponent(v: Vec3): real { Max(v.x, Max(v.y, v.z)) }

  /** How far the point sticks out of each face pair: `|p| - Size/2`. */
  function Excess(size: Vec3, p: Vec3): Vec3 {
    Sub(AbsV(p), Scale(0.5, size))
  }

  /** The interior term `min(max(q.x, q.y, q.z), 0)`: never positive. */
  function InteriorTerm(q: Vec3): (r: real)
    ensures r <= 0.0
    ensures r == 0.0 <==> MaxComponent(q) >= 0.0
  {
    Min(MaxComponent(q), 0.0)
  }

  /** The point lies within the box's half-sizes on every axis. */
  predicate InsideBox(size: Vec3, p: Vec3) {
    Abs(p.x) <= size.x / 2.0 && Abs(p.y) <= size.y / 2.0 && Abs(p.z) <= size.z / 2.0
  }

  /** `CubeSDF.Distance` for a point already in the box's local frame.
      Inside the box the distance is never positive; outside it is exactly
      the length of the outward excess, which is positive. */
  function BoxDistance(norm: NormFn, size: Vec3, p: Vec3): (r: real)
    requires IsNorm(norm)
    ensures InsideBox(size, p) ==> r <= 0.0
    ensures !InsideBox(size, p) ==> r == norm(PosPart(Excess(size, p))) && r > 0.0
  {
    var q := Excess(size, p);
    if InsideBox(size, p) then
      assert PosPart(q) == Zero;
      norm(PosPart(q)) + InteriorTerm(q)
    else
      assert q.x > 0.0 || q.y > 0.0 || q.z > 0.0;
      assert PosPart(q) != Zero;
      norm(PosPart(q)) + InteriorTerm(q)
  }

  /** A box in the scene: its size, its position, and the inverse of its
      own rotation and of its parent's, if it has a parent. */
  datatype Box = Box(size: Vec3, position: Vec3, unrotate: Vec3 -> Vec3, parentUnrotate: Option<Vec3 -> Vec3>)

  /** The box's local frame: the offset from its own position, turned by
      the inverse of the parent's rotation when there is a parent and of
      its own rotation otherwise. */
  function BoxLocal(b: Box, p: Vec3): (l: Vec3)
    ensures b.parentUnrotate.Some? ==> l == b.parentUnrotate.value(Sub(p, b.position))
    ensures b.parentUnrotate.None? ==> l == b.unrotate(Sub(p, b.position))
  {
    var offset := Sub(p, b.position);
    if b.parentUnrotate.Some? then b.parentUnrotate.value(offset) else b.unrotate(offset)
  }

  /** `CubeSDF.Distance` for a world point: not positive exactly when the
      point, taken into the box's local frame, lies within the box. */
  function CubeDistance(norm: NormFn, b: Box, p: Vec3): (r: real)
    requires IsNorm(norm)
    ensures r <= 0.0 <==> InsideBox(b.size, BoxLocal(b, p))
  {
    BoxDistance(norm, b.size, BoxLocal(b, p))
  }

  /** A box with a parent is turned by the parent's rotation alone: its
      own rotation has no effect on the distance. */
  lemma ParentRotationWins(norm: NormFn, b: Box, own: Vec3 -> Vec3, p: Vec3)
    requires IsNorm(norm) && b.parentUnrotate.Some?
    ensures CubeDistance(norm, b.(unrotate := own), p) == CubeDistance(norm, b, p)
  {
  }

  /** Moving point and box together changes nothing: the distance depends
      on the offset from the box's position. */
  lemma CubeTranslationInvariant(norm: NormFn, b: Box, p: Vec3, t: Vec3)
    requires IsNorm(norm)
    ensures CubeDistance(norm, b.(position := Add(b.position, t)), Add(p, t)) == CubeDistance(norm, b, p)
  {
    assert Sub(Add(p, t), Add(b.position, t)) == Sub(p, b.position);
  }

  /** The objects the finger solver can close the hand on: the two `ISDF`
      implementations. */
  datatype Shape = Sphere(center: Vec3, radius: real) | Cube(box: Box)

  /** `ISDF.Distance`. */
  function ShapeDistance(norm: NormFn, s: Shape, p: Vec3): (r: real)
    requires IsNorm(norm)
    ensures s.Sphere? ==> (r == -s.radius <==> p == s.center) && r >= -s.radius
    ensures s.Cube? ==> (r <= 0.0 <==> InsideBox(s.box.size, BoxLocal(s.box, p)))
  {
    match s
    case Sphere(center, radius) => SphereDistance(norm, center, radius, p)
    case Cube(b) => CubeDistance(norm, b, p)
  }

  /** Flipping the sign of any coordinate does not change the distance: the
      box is symmetric about each of its planes. */
  lemma BoxMirrorSymmetric(norm: NormFn, size: Vec3, p: Vec3)
    requires IsNorm(norm)
    ensures BoxDistance(norm, size, Vec3(-p.x, p.y, p.z)) == BoxDistance(norm, size, p)
    ensures BoxDistance(norm, size, Vec3(p.x, -p.y, p.z)) == BoxDistance(norm, size, p)
    ensures BoxDistance(norm, size, Vec3(p.x, p.y, -p.z)) == BoxDistance(norm, size, p)
  {
    assert AbsV(Vec3(-p.x, p.y, p.z)) == AbsV(p);
    assert AbsV(Vec3(p.x, -p.y, p.z)) == AbsV(p);
    assert AbsV(Vec3(p.x, p.y, -p.z)) == AbsV(p);
  }

  /** At the centre of a box with positive sizes the distance is minus half
      the smallest size: the nearest face is the closest pair. */
  lemma BoxCentreDistance(norm: NormFn, size: Vec3)
    requires IsNorm(norm)
    requires size.x > 0.0 && size.y > 0.0 && size.z > 0.0
    ensures BoxDistance(norm, size, Zero) == -Min(size.x, Min(size.y, size.z)) / 2.0
  {
    var q := Excess(size, Zero);
    assert q == Vec3(-size.x / 2.0, -size.y / 2.0, -size.z / 2.0);
    assert PosPart(q) == Zero;
  }
}

=== FILE: single_input.dfy ===
/** `SingleInput`: the per-frame controller that walks the user through the
    calibration pipeline. One call of `Tick` is one `Update`; the
    coroutines it starts are replaced by the events `IdleElapsed` (the one
    second of `ControllersIdleForSecs` has passed), `BlockControllers`
    (someone called `blockControllers`) and `MeasurementDone` (a body
    measurement routine finished and reported its result). */
module SingleInput {
  import opened PipelineUtils
  import opened AvatarDriver

  /** `applicationBusy` and `controllerRecent`. */
  datatype Gate = Gate(busy: bool, recent: bool)

  /** `controllersStarted` and whether each SteamVR controller is bound. */
  datatype Controllers = Controllers(started: bool, left: bool, right: bool)

  /** The floor marker of the loaded mannequin with `floorMarkerFlag`. The
      counter is reset whenever the marker is cleared and only moves while
      one is pending, so outside `Pending` it is 0. */
  datatype Marker = NoMarker | Pending(count: int)

  /** The flags of the body that the pipeline reads and writes, and whether
      one of its measurement coroutines is running. */
  datatype BodyFlags = BodyFlags(started: bool, completed: bool, measuring: bool)

  /** The controller's state, with the driver's `ready` flag. */
  datatype Ctl = Ctl(
    stage: Stage,
    succeeded: bool,
    gate: Gate,
    ctrls: Controllers,
    marker: Marker,
    ready: bool,
    body: BodyFlags)

  /** The state at start-up for a driver of the given type. */
  function Init(kind: DriverType): (c: Ctl)
    ensures c.stage == Devices && !c.succeeded
    ensures c.ready <==> kind == Simulation
    ensures Inv(c)
  {
    Ctl(Devices, false, Gate(false, false), Controllers(false, false, false), NoMarker,
        kind == Simulation, BodyFlags(false, false, false))
  }

  /** What the frame observes of the outside world. The driver's own
      routines (`detectDevices`, `identifyDevices`) and the mannequin
      loader are represented by their results. */
  datatype Env = Env(
    driverPresent: bool,
    kind: DriverType,
    leftTriggerDown: bool,
    rightTriggerDown: bool,
    spaceDown: bool,
    devicesConnected: bool,      // result of detectDevices
    handLeftActive: bool,        // driver.handLeft.activeInHierarchy
    handRightActive: bool,       // driver.handRight.activeInHierarchy
    identified: bool,            // result of identifyDevices
    markerLoaded: bool)          // loadAvatarMannequin returned a marker

  /** The outside routines a frame can call. */
  datatype Effect =
    | Snap            // the avatar is moved onto the floor
    | LoadMannequin
    | Finish          // setCompleted, loadAvatar, OnCalibrationFinishedInvoke
    | Detect
    | Identify
    | HeightWidth     // the pipeline starts with computeHeightWidthMeasure
    | FeetFromRoot    // the pipeline starts with computeFeetMeasuresUsingRoot
    | RootMeasure     // ForwardPipeline: joints, computeRootMeasuresUsingAvatar

  datatype Outcome = Outcome(next: Ctl, fx: set<Effect>)

  /** The effects that start the pipeline. */
  predicate StartsPipeline(fx: set<Effect>) {
    HeightWidth in fx || FeetFromRoot in fx
  }

  /** What the controller keeps true between frames. */
  ghost predicate Inv(c: Ctl) {
    && c.stage != Dirty
    && (c.stage != Devices ==> c.body.started)
    && (!c.body.started ==> c.stage == Devices && !c.succeeded && !c.body.measuring)
    && (c.body.completed <==> c.stage == Done)
    && (c.marker.Pending? ==> c.stage == RootAvatar && !c.body.measuring && !c.succeeded
                              && 0 <= c.marker.count <= 2)
    && (c.body.measuring ==> !c.succeeded && (c.stage == TPose || c.stage == RootAvatar))
    && (c.succeeded ==> (c.stage == TPose || c.stage == RootAvatar))
  }

  /** The condition of `StickAvatarToGround` (`placeLastAvatar` is never
      set, so it is left out): a marker is pending and the post-increment
      of the counter reads 2. */
  predicate Snaps(c: Ctl) {
    c.marker.Pending? && c.marker.count == 2
  }

  /** `StickAvatarToGround`: the counter only moves while a marker is
      pending; when it reads 2 the avatar is snapped and the marker and
      counter are cleared. Nothing else changes. */
  function StickToGround(c: Ctl): (r: Ctl)
    ensures c.marker == NoMarker ==> r == c
    ensures Snaps(c) ==> r.marker == NoMarker
    ensures c.marker.Pending? && !Snaps(c) ==> r.marker == Pending(c.marker.count + 1)
    ensures r.(marker := c.marker) == c
  {
    match c.marker
    case NoMarker => c
    case Pending(n) => if n == 2 then c.(marker := NoMarker) else c.(marker := Pending(n + 1))
  }

  /** The "succeeded" block of `Update`: one `nextStage` step; entering
      ROOT_AVATAR loads the mannequin and takes its floor marker, entering
      DONE completes the body. */
  function Progress(c: Ctl, markerLoaded: bool): (r: Ctl)
    requires c.succeeded
  {
    var next := NextStage(c.stage);
    c.(stage := next,
       succeeded := false,
       marker := if next == RootAvatar then (if markerLoaded then Pending(0) else NoMarker) else c.marker,
       body := c.body.(completed := c.body.completed || next == Done))
  }

  /** `StartControllers`: both controllers are re-read from the hands'
      activity; `controllersStarted` is raised by either and never
      lowered. */
  function StartControllers(k: Controllers, e: Env): (r: Controllers)
    ensures r.left == e.handLeftActive && r.right == e.handRightActive
    ensures r.started <==> k.started || e.handLeftActive || e.handRightActive
  {
    Controllers(k.started || e.handLeftActive || e.handRightActive, e.handLeftActive, e.handRightActive)
  }

  /** `IsTriggerDown`: a trigger of a bound controller, or the space key. */
  function TriggerDown(k: Controllers, e: Env): bool {
    (k.left && e.leftTriggerDown) || (k.right && e.rightTriggerDown) || e.spaceDown
  }

  predicate Gated(c: Ctl) {
    c.marker.Pending? || c.gate.busy || c.gate.recent
  }

  /** `Update`: a frame without a driver does nothing; otherwise the ground
      snap and the stage progress run unconditionally, and the rest only
      when no marker is pending and the input is neither busy nor
      recent. */
  function Tick(c: Ctl, e: Env): (r: Outcome)
    ensures !e.driverPresent ==> r == Outcome(c, {})
    ensures Snap in r.fx <==> e.driverPresent && Snaps(c)
    ensures c.body.started ==> r.next.body.started
  {
    if !e.driverPresent then Outcome(c, {})
    else
      var o := Prelude(c, e);
      if Gated(o.next) then o else Handle(o.next, e, o.fx)
  }

  /** Ground snap, then the "succeeded" block: a pending success is
      consumed by advancing one stage, and the mannequin is loaded or the
      calibration finished only on entering ROOT_AVATAR or DONE. */
  function Prelude(c: Ctl, e: Env): (r: Outcome)
    ensures !r.next.succeeded
    ensures r.next.stage == if c.succeeded then NextStage(c.stage) else c.stage
    ensures Snap in r.fx <==> Snaps(c)
    ensures LoadMannequin in r.fx <==> c.succeeded && NextStage(c.stage) == RootAvatar
    ensures Finish in r.fx <==> c.succeeded && NextStage(c.stage) == Done
  {
    var c1 := StickToGround(c);
    var snap: set<Effect> := if Snaps(c) then {Snap} else {};
    if c1.succeeded then
      var c2 := Progress(c1, e.markerLoaded);
      Outcome(c2, snap + (if c2.stage == RootAvatar then {LoadMannequin} else {})
                       + (if c2.stage == Done then {Finish} else {}))
    else Outcome(c1, snap)
  }

  /** Device detection runs while the controllers are not started on a
      SteamVR driver. */
  predicate Detects(c: Ctl, e: Env) {
    !c.ctrls.started && e.kind == SteamVR
  }

  /** Device detection: it clears the driver's ready flag and starts the
      controllers when all devices are connected. Nothing else changes. */
  function Detection(c: Ctl, e: Env): (r: Ctl)
    ensures !Detects(c, e) ==> r == c
    ensures Detects(c, e) ==> !r.ready
    ensures Detects(c, e) && e.devicesConnected ==> r.ctrls == StartControllers(c.ctrls, e)
    ensures r.(ready := c.ready, ctrls := c.ctrls) == c
  {
    if !Detects(c, e) then c
    else if e.devicesConnected then c.(ready := false, ctrls := StartControllers(c.ctrls, e))
    else c.(ready := false)
  }

  /** `UpdateControllers`: a controller that is not bound makes both be
      re-read. Only the controllers change. */
  function UpdateControllers(c: Ctl, e: Env): (r: Ctl)
    ensures c.ctrls.left && c.ctrls.right ==> r == c
    ensures !c.ctrls.left || !c.ctrls.right ==> r.ctrls == StartControllers(c.ctrls, e)
    ensures r.(ctrls := c.ctrls) == c
  {
    if !c.ctrls.left || !c.ctrls.right then c.(ctrls := StartControllers(c.ctrls, e)) else c
  }

  /** A SteamVR driver without any bound controller stops the frame after
      detection. */
  predicate NoController(c: Ctl, e: Env) {
    e.kind == SteamVR && !c.ctrls.left && !c.ctrls.right
  }

  /** Detection, then the controller update and the response unless no
      controller is bound. Only starting the pipeline moves the stage, and
      devices are detected exactly when the controllers are not started on
      SteamVR. */
  function Handle(c: Ctl, e: Env, fx: set<Effect>): (r: Outcome)
    ensures fx <= r.fx && Snap !in r.fx - fx
    ensures Detects(c, e) ==> Detect in r.fx
    ensures Detect in r.fx - fx ==> Detects(c, e)
    ensures r.next.stage == c.stage || (!c.body.started && r.next.body.started)
  {
    var c1 := Detection(c, e);
    var fx1 := if Detects(c, e) then fx + {Detect} else fx;
    if NoController(c1, e) then Outcome(c1, fx1)
    else Respond(UpdateControllers(c1, e), e, fx1)
  }

  /** Identification, pipeline start or forward step, at most one of them. */
  function Respond(c: Ctl, e: Env, fx: set<Effect>): (r: Outcome)
    ensures r.fx in {fx, fx + {Identify}, fx + {HeightWidth}, fx + {FeetFromRoot}, fx + {RootMeasure}}
    ensures StartsPipeline(r.fx - fx) ==>
      c.ready && !c.body.started && r.next.body.started && r.next.stage == NextStage(Devices)
    ensures RootMeasure in r.fx - fx ==> c.stage == RootAvatar && r.next.body.measuring
    ensures r.next.stage == c.stage || (!c.body.started && r.next.body.started)
  {
    var trigger := TriggerDown(c.ctrls, e);
    if trigger && !c.ready then
      // identifyDevices blocks the input and, on success, sets the driver
      // ready and unblocks it; the controllers are then restarted
      var steam := e.kind == SteamVR;
      var c1 := if steam then c.(gate := c.gate.(busy := !e.identified), ready := e.identified) else c;
      Outcome(c1.(ctrls := StartControllers(c1.ctrls, e)), if steam then fx + {Identify} else fx)
    else if c.ready && !c.body.started then
      // pipeline start: DEVICES is replaced by its successor
      var next := NextStage(Devices);
      if e.kind != Simulation then
        Outcome(c.(stage := next, gate := Gate(true, true), body := c.body.(started := true, measuring := true)),
                fx + {HeightWidth})
      else
        Outcome(c.(stage := next, succeeded := true, body := c.body.(started := true)),
                fx + {FeetFromRoot})
    else if (trigger || e.kind == Simulation) && c.stage == RootAvatar then
      // ForwardPipeline
      Outcome(c.(gate := Gate(true, true), body := c.body.(measuring := true)), fx + {RootMeasure})
    else Outcome(c, fx)
  }

  /** The second of `ControllersIdleForSecs(1)` has passed. */
  function IdleElapsed(c: Ctl): (r: Ctl)
    ensures !r.gate.recent
    ensures r.(gate := c.gate) == c && r.gate.busy == c.gate.busy
  {
    c.(gate := c.gate.(recent := false))
  }

  /** `blockControllers(flag)`. */
  function BlockControllers(c: Ctl, flag: bool): (r: Ctl)
    ensures r.gate.busy == flag
    ensures r.(gate := c.gate) == c && r.gate.recent == c.gate.recent
  {
    c.(gate := c.gate.(busy := flag))
  }

  /** A measurement coroutine finished: it unblocks the input and hands its
      result to the `succeeded` callback (both routines always report
      true). */
  function MeasurementDone(c: Ctl): (r: Ctl)
    requires c.body.measuring
    ensures r.succeeded && !r.gate.busy && !r.body.measuring
    ensures r.stage == c.stage && r.ready == c.ready && r.marker == c.marker
  {
    c.(succeeded := true, gate := c.gate.(busy := false), body := c.body.(measuring := false))
  }
}

=== FILE: single_input_props.dfy ===
/** Properties of the calibration controller `SingleInput`. */
module SingleInputProperties {
  import opened PipelineUtils
  import opened AvatarDriver
  import opened SingleInput

  lemma PreludePreservesInv(c: Ctl, e: Env)
    requires Inv(c)
    ensures Inv(Prelude(c, e).next)
    ensures !Prelude(c, e).next.succeeded
  {
  }

  /** The ground snap and the stage progress touch only the stage, the
      marker and the body's completion. */
  lemma PreludeFrame(c: Ctl, e: Env)
    ensures var o := Prelude(c, e);
      && o.fx <= {Snap, LoadMannequin, Finish}
      && o.next.gate == c.gate && o.next.ctrls == c.ctrls && o.next.ready == c.ready
      && o.next.body.started == c.body.started && o.next.body.measuring == c.body.measuring
  {
  }

  /** Detection, identification and the pipeline steps leave the ground
      snap's marker and the stage's completion alone, and only add their
      own effects. */
  lemma HandleFrame(c: Ctl, e: Env, fx: set<Effect>)
    ensures var o := Handle(c, e, fx);
      && fx <= o.fx && o.fx - fx <= {Detect, Identify, HeightWidth, FeetFromRoot, RootMeasure}
      && o.next.marker == c.marker && o.next.body.completed == c.body.completed
  {
  }

  /** With the body started, detection and the response keep it started
      and can only detect, identify or forward. */
  lemma HandleStarted(c: Ctl, e: Env, fx: set<Effect>)
    requires c.body.started
    ensures var o := Handle(c, e, fx);
      o.next.body.started && o.fx - fx <= {Detect, Identify, RootMeasure}
  {
  }

  /** The forward step leaves the stage at ROOT_AVATAR, raises both gate
      flags and marks a measurement as running. */
  lemma HandleForward(c: Ctl, e: Env, fx: set<Effect>)
    requires RootMeasure !in fx
    ensures var o := Handle(c, e, fx);
      RootMeasure in o.fx ==>
        o.next.stage == RootAvatar && o.next.gate == Gate(true, true) && o.next.body.measuring
  {
  }

  /** Identification ends the response: nothing is started or forwarded,
      and its result decides readiness and the gate. */
  lemma HandleIdentify(c: Ctl, e: Env, fx: set<Effect>)
    requires Identify !in fx
    ensures var o := Handle(c, e, fx);
      Identify in o.fx ==>
        && e.kind == SteamVR && o.fx - fx <= {Detect, Identify}
        && o.next.body.started == c.body.started && o.next.body.measuring == c.body.measuring
        && (o.next.ready <==> e.identified) && (o.next.gate.busy <==> !e.identified)
  {
    var c1 := Detection(c, e);
    if !NoController(c1, e) {
      RespondIdentify(UpdateControllers(c1, e), e, if Detects(c, e) then fx + {Detect} else fx);
    }
  }

  lemma HandlePreservesInv(c: Ctl, e: Env, fx: set<Effect>)
    requires Inv(c) && !Gated(c) && !c.succeeded
    ensures Inv(Handle(c, e, fx).next)
  {
  }

  lemma TickPreservesInv(c: Ctl, e: Env)
    requires Inv(c)
    ensures Inv(Tick(c, e).next)
  {
    if e.driverPresent {
      PreludePreservesInv(c, e);
      var o := Prelude(c, e);
      if !Gated(o.next) {
        HandlePreservesInv(o.next, e, o.fx);
      }
    }
  }

  lemma EventsPreserveInv(c: Ctl, flag: bool)
    requires Inv(c)
    ensures Inv(IdleElapsed(c))
    ensures Inv(BlockControllers(c, flag))
    ensures c.body.measuring ==> Inv(MeasurementDone(c))
  {
  }

  /** The stage never moves backwards. */
  lemma TickStageMonotone(c: Ctl, e: Env)
    requires Inv(c)
    ensures Value(c.stage) <= Value(Tick(c, e).next.stage)
  {
    if e.driverPresent {
      var o := Prelude(c, e);
      assert Value(c.stage) <= Value(o.next.stage);
      PreludePreservesInv(c, e);
    }
  }

  /** A completed stage is left in the next frame by exactly one
      `nextStage` step, whatever the input gating says, and `succeeded` is
      cleared. */
  lemma SucceededAdvancesOneStep(c: Ctl, e: Env)
    requires Inv(c) && c.succeeded && e.driverPresent
    ensures Tick(c, e).next.stage == NextStage(c.stage)
    ensures !Tick(c, e).next.succeeded
  {
    var o := Prelude(c, e);
    assert o.next.stage == NextStage(c.stage) && o.next.body.started;
  }

  /** Entering DONE completes the body and fires the calibration-finished
      event in the same frame. */
  lemma EnteringDoneFinishes(c: Ctl, e: Env)
    requires Inv(c) && c.succeeded && c.stage == RootAvatar && e.driverPresent
    ensures Tick(c, e).next.stage == Done
    ensures Tick(c, e).next.body.completed
    ensures Finish in Tick(c, e).fx
  {
    SucceededAdvancesOneStep(c, e);
  }

  /** While a floor marker is pending, or the input is busy or recent, the
      frame neither detects, identifies, starts nor forwards anything, and
      leaves the driver, the controllers, the input gate and the body's
      started and measuring flags alone. */
  lemma GatedTickDoesNothing(c: Ctl, e: Env)
    requires Inv(c)
    requires c.gate.busy || c.gate.recent || (c.marker.Pending? && !Snaps(c))
    ensures var o := Tick(c, e);
      && o.fx <= {Snap, LoadMannequin, Finish}
      && o.next.ready == c.ready && o.next.ctrls == c.ctrls && o.next.gate == c.gate
      && o.next.body.started == c.body.started && o.next.body.measuring == c.body.measuring
  {
  }

  /** A freshly placed floor marker is snapped on the third frame after it
      appeared; the two frames before only count. */
  lemma {:induction false} GroundSnapOnThirdTick(c: Ctl, e1: Env, e2: Env, e3: Env)
    requires Inv(c) && c.marker == Pending(0)
    requires e1.driverPresent && e2.driverPresent && e3.driverPresent
    ensures var o1 := Tick(c, e1);
            var o2 := Tick(o1.next, e2);
            var o3 := Tick(o2.next, e3);
      && Snap !in o1.fx && Snap !in o2.fx && Snap in o3.fx
      && o1.next.marker.Pending? && o2.next.marker.Pending?
      && o3.next.marker == NoMarker
  {
    var p1 := Prelude(c, e1);
    HandleFrame(p1.next, e1, p1.fx);
    var o1 := Tick(c, e1);
    assert o1.next.marker == Pending(1);
    var p2 := Prelude(o1.next, e2);
    HandleFrame(p2.next, e2, p2.fx);
    var o2 := Tick(o1.next, e2);
    assert o2.next.marker == Pending(2);
    var p3 := Prelude(o2.next, e3);
    HandleFrame(p3.next, e3, p3.fx);
    assert Snaps(o2.next);
    assert p3.next.marker == NoMarker;
  }

  /** The identification branch of the response. */
  lemma RespondIdentify(c: Ctl, e: Env, fx: set<Effect>)
    requires Identify !in fx
    ensures var o := Respond(c, e, fx);
      Identify in o.fx ==>
        && e.kind == SteamVR && o.fx == fx + {Identify} && o.next.body == c.body
        && (o.next.ready <==> e.identified) && (o.next.gate.busy <==> !e.identified)
  {
  }

  /** Identification happens only while the input is open, and then the
      frame does nothing further: the pipeline is neither started nor
      forwarded. */
  lemma IdentifyOnlyOnTrigger(c: Ctl, e: Env)
    ensures var o := Tick(c, e);
      Identify in o.fx ==>
        && e.kind == SteamVR && !c.gate.busy && !c.gate.recent
        && !StartsPipeline(o.fx) && RootMeasure !in o.fx
  {
    var o := Tick(c, e);
    if Identify in o.fx {
      PreludeFrame(c, e);
      var p := Prelude(c, e);
      TickUngated(c, e);
      HandleIdentify(p.next, e, p.fx);
    }
  }

  /** After identification the driver is ready, and the input unblocked,
      exactly when identification succeeded; the body is untouched. */
  lemma IdentifyDecidesReadiness(c: Ctl, e: Env)
    ensures var o := Tick(c, e);
      Identify in o.fx ==>
        && o.next.body.started == c.body.started && o.next.body.measuring == c.body.measuring
        && (o.next.ready <==> e.identified)
        && (o.next.gate.busy <==> !e.identified)
  {
    var o := Tick(c, e);
    if Identify in o.fx {
      PreludeFrame(c, e);
      var p := Prelude(c, e);
      TickUngated(c, e);
      HandleIdentify(p.next, e, p.fx);
    }
  }

  /** A frame whose effects go beyond the ground snap and the stage
      progress ran the ungated part. */
  lemma TickUngated(c: Ctl, e: Env)
    ensures var o := Tick(c, e);
      !(o.fx <= {Snap, LoadMannequin, Finish}) ==>
        && e.driverPresent && !Gated(Prelude(c, e).next)
        && o == Handle(Prelude(c, e).next, e, Prelude(c, e).fx)
  {
    PreludeFrame(c, e);
  }

  /** Once the body is started the pipeline is never started again, and
      the body stays started. */
  lemma StartedIsFinal(c: Ctl, e: Env)
    requires Inv(c) && c.body.started
    ensures Tick(c, e).next.body.started && !StartsPipeline(Tick(c, e).fx)
  {
    if e.driverPresent {
      PreludeFrame(c, e);
      var o := Prelude(c, e);
      if !Gated(o.next) {
        HandleStarted(o.next, e, o.fx);
      }
    }
  }

  /** The pipeline start needs no trigger and moves to T_POSE; under the
      simulator it reports success at once, while a real driver measures
      with the input blocked. */
  lemma PipelineStart(c: Ctl, e: Env)
    requires Inv(c)
    ensures var o := Tick(c, e);
      StartsPipeline(o.fx) ==>
        && !c.body.started && o.next.body.started && o.next.stage == TPose
        && (e.kind == Simulation ==> o.next.succeeded && FeetFromRoot in o.fx)
        && (e.kind == SteamVR ==> o.next.body.measuring && o.next.gate == Gate(true, true)
                                  && HeightWidth in o.fx)
  {
    if c.body.started {
      StartedIsFinal(c, e);
    }
  }

  /** Ticks run one after another, collecting their effects. */
  function Run(c: Ctl, es: seq<Env>): (r: (Ctl, seq<set<Effect>>))
    ensures |r.1| == |es|
    decreases |es|
  {
    if |es| == 0 then (c, [])
    else
      var o := Tick(c, es[0]);
      var rest := Run(o.next, es[1..]);
      (rest.0, [o.fx] + rest.1)
  }

  /** Number of frames in which the pipeline was started. */
  function Starts(fxs: seq<set<Effect>>): nat {
    if |fxs| == 0 then 0
    else (if StartsPipeline(fxs[0]) then 1 else 0) + Starts(fxs[1..])
  }

  /** Over any run the pipeline is started at most once, and never again
      once the body is started. */
  lemma {:induction false} RunStartsAtMostOnce(c: Ctl, es: seq<Env>)
    requires Inv(c)
    ensures Starts(Run(c, es).1) <= 1
    ensures c.body.started ==> Starts(Run(c, es).1) == 0
    ensures c.body.started ==> Run(c, es).0.body.started
    ensures Run(c, es).0.body.started || Starts(Run(c, es).1) == 0
    decreases |es|
  {
    if |es| > 0 {
      var o := Tick(c, es[0]);
      TickPreservesInv(c, es[0]);
      PipelineStart(c, es[0]);
      if c.body.started {
        StartedIsFinal(c, es[0]);
      }
      RunStartsAtMostOnce(o.next, es[1..]);
      var fxs := Run(c, es).1;
      assert fxs == [o.fx] + Run(o.next, es[1..]).1;
      assert fxs[1..] == Run(o.next, es[1..]).1;
    }
  }

  /** `ForwardPipeline` acts only in ROOT_AVATAR, and raises the recent
      flag so that the next frame cannot forward again. */
  lemma ForwardOnlyAtRootAvatar(c: Ctl, e: Env, e2: Env)
    requires Inv(c)
    ensures var o := Tick(c, e);
      RootMeasure in o.fx ==>
        && o.next.stage == RootAvatar
        && o.next.gate == Gate(true, true) && o.next.body.measuring
        && RootMeasure !in Tick(o.next, e2).fx
  {
    if e.driverPresent {
      PreludeFrame(c, e);
      var p := Prelude(c, e);
      if !Gated(p.next) {
        HandleForward(p.next, e, p.fx);
      }
      var o := Tick(c, e);
      PreludeFrame(o.next, e2);
    }
  }

  /** A simulator driver is never made unready. */
  lemma SimulatorStaysReady(c: Ctl, e: Env)
    requires c.ready && e.kind == Simulation
    ensures Tick(c, e).next.ready
  {
  }

  /** Detection leaves the driver not ready unless identification ran in
      the same frame. */
  lemma DetectClearsReady(c: Ctl, e: Env)
    ensures var o := Tick(c, e); Detect in o.fx && Identify !in o.fx ==> !o.next.ready
  {
  }
}

=== FILE: steamvr_driver.dfy ===
/** `SteamVRDriver`: counting the tracked devices reported by the runtime,
    activating roles by device count, and identifying which device is which
    from where it stands in a T-pose. */
module SteamVRDriver {
  import opened Common
  import opened Vectors
  import opened SceneTree
  import opened PlaneFit
  import opened AvatarDriver

  /** `HEAD_COSINE_DEVIATION_THRESHOLD` */
  const HeadCosineDeviationThreshold: real := 0.5
  /** `MAX_HEAD_TO_WAIST_DISTANCE` */
  const MaxHeadToWaistDistance: real := 0.8
  /** `maxDeviceCount`: the runtime reports this many device slots. */
  const MaxDeviceCount: nat := 16
  /** Length of the `TrackerIndices` buffer. */
  const TrackerSlotCount: nat := 3

  // ---------------------------------------------------------------------
  // Device detection

  /** One slot of the runtime's report: the render-model name and whether
      the tracking result is `Running_OK`. */
  datatype Device = Device(renderModel: string, runningOk: bool)

  datatype DeviceClass = Hmd | Controller | Tracker | Ignored

  /** `sub` occurs in `s` starting at index `i`. */
  predicate OccursAt(s: string, sub: string, i: int) {
    0 <= i && i + |sub| <= |s| && s[i..i + |sub|] == sub
  }

  /** `String.Contains`: `sub` occurs somewhere in `s`. */
  function Contains(s: string, sub: string): (r: bool)
    ensures r <==> exists i :: OccursAt(s, sub, i)
    decreases |s|
  {
    if |sub| > |s| then false
    else if s[..|sub|] == sub then
      assert OccursAt(s, sub, 0);
      true
    else
      var t := s[1..];
      var r := Contains(t, sub);
      if r then
        var i :| OccursAt(t, sub, i);
        assert s[i + 1..i + 1 + |sub|] == t[i..i + |sub|];
        assert OccursAt(s, sub, i + 1);
        r
      else
        ContainsStep(s, sub);
        r
  }

  /** An occurrence past the first index is an occurrence in the tail. */
  lemma ContainsStep(s: string, sub: string)
    requires |sub| <= |s| && s[..|sub|] != sub
    ensures forall i :: OccursAt(s, sub, i) ==> OccursAt(s[1..], sub, i - 1)
  {
    forall i | OccursAt(s, sub, i)
      ensures OccursAt(s[1..], sub, i - 1)
    {
      assert s[1..][i - 1..i - 1 + |sub|] == s[i..i + |sub|];
    }
  }

  /** The chain of tests in `detectDevices`: only running devices count,
      and "hmd" is tested before "controller", which is tested before
      "tracker_vive". */
  function Classify(d: Device): (k: DeviceClass)
    ensures !d.runningOk ==> k == Ignored
    ensures k == Hmd <==> d.runningOk && Contains(d.renderModel, "hmd")
    ensures k == Controller <==>
      d.runningOk && !Contains(d.renderModel, "hmd") && Contains(d.renderModel, "controller")
    ensures k == Tracker <==>
      d.runningOk && !Contains(d.renderModel, "hmd") && !Contains(d.renderModel, "controller") &&
      Contains(d.renderModel, "tracker_vive")
  {
    if Contains(d.renderModel, "hmd") && d.runningOk then Hmd
    else if Contains(d.renderModel, "controller") && d.runningOk then Controller
    else if Contains(d.renderModel, "tracker_vive") && d.runningOk then Tracker
    else Ignored
  }

  /** Number of devices of class `k`. */
  function CountOf(ds: seq<Device>, k: DeviceClass): nat
    decreases |ds|
  {
    if |ds| == 0 then 0
    else CountOf(ds[..|ds| - 1], k) + (if Classify(ds[|ds| - 1]) == k then 1 else 0)
  }

  /** Slot numbers of the trackers, in slot order. */
  function TrackerSlots(ds: seq<Device>): (r: seq<nat>)
    ensures |r| == CountOf(ds, Tracker)
    ensures forall j :: 0 <= j < |r| ==> r[j] < |ds| && Classify(ds[r[j]]) == Tracker
    decreases |ds|
  {
    if |ds| == 0 then []
    else
      var front := TrackerSlots(ds[..|ds| - 1]);
      assert forall j :: 0 <= j < |front| ==> ds[..|ds| - 1][front[j]] == ds[front[j]];
      front + (if Classify(ds[|ds| - 1]) == Tracker then [|ds| - 1] else [])
  }

  /** What `detectDevices` leaves behind. */
  datatype Detection = Detection(controllers: nat, trackers: nat, trackerIndices: seq<int>, connected: bool)

  /** `detectDevices`: counts the running controllers and trackers, records
      the slot of each tracker in `TrackerIndices`, and reports whether
      there are at least two controllers and three trackers. It also
      clears `ready`, which the caller models. The buffer has three slots,
      so a fourth running tracker would overflow it. */
  method DetectDevices(ds: seq<Device>, oldIndices: seq<int>) returns (r: Detection)
    requires |ds| == MaxDeviceCount && |oldIndices| == TrackerSlotCount
    requires CountOf(ds, Tracker) <= TrackerSlotCount
    ensures r.controllers == CountOf(ds, Controller)
    ensures r.trackers == CountOf(ds, Tracker)
    ensures |r.trackerIndices| == TrackerSlotCount
    ensures forall j :: 0 <= j < r.trackers ==> r.trackerIndices[j] == TrackerSlots(ds)[j]
    ensures forall j :: r.trackers <= j < TrackerSlotCount ==> r.trackerIndices[j] == oldIndices[j]
    ensures r.connected <==> r.controllers >= 2 && r.trackers >= 3
  {
    var controllers: nat := 0;
    var trackers: nat := 0;
    var indices := oldIndices;
    var i := 0;
    while i < MaxDeviceCount
      invariant 0 <= i <= MaxDeviceCount
      invariant controllers == CountOf(ds[..i], Controller)
      invariant trackers == CountOf(ds[..i], Tracker) <= CountOf(ds, Tracker)
      invariant Recorded(indices, TrackerSlots(ds[..i]), oldIndices)
    {
      CountOfPrefixBound(ds, i + 1);
      controllers, trackers, indices := DetectStep(ds, i, controllers, trackers, indices, oldIndices);
      i := i + 1;
    }
    assert ds[..MaxDeviceCount] == ds;
    r := Detection(controllers, trackers, indices, controllers >= 2 && trackers >= 3);
  }

  /** One pass of the loop in `detectDevices`: the device in slot `i` adds
      to its class's count, and a tracker's slot goes into the next free
      place of the buffer. */
  method DetectStep(ds: seq<Device>, i: nat, controllers: nat, trackers: nat, indices: seq<int>, oldIndices: seq<int>)
    returns (controllers': nat, trackers': nat, indices': seq<int>)
    requires i < |ds|
    requires controllers == CountOf(ds[..i], Controller) && trackers == CountOf(ds[..i], Tracker)
    requires CountOf(ds[..i + 1], Tracker) <= TrackerSlotCount
    requires Recorded(indices, TrackerSlots(ds[..i]), oldIndices)
    ensures controllers' == CountOf(ds[..i + 1], Controller) && trackers' == CountOf(ds[..i + 1], Tracker)
    ensures Recorded(indices', TrackerSlots(ds[..i + 1]), oldIndices)
  {
    PrefixStep(ds, i);
    controllers', trackers', indices' := controllers, trackers, indices;
    var k := Classify(ds[i]);
    if k == Controller {
      controllers' := controllers + 1;
    } else if k == Tracker {
      RecordedStep(indices, TrackerSlots(ds[..i]), oldIndices, i);
      indices' := indices[trackers := i];
      trackers' := trackers + 1;
    }
  }

  /** The index buffer holds the tracker slots found so far, followed by
      its old contents. */
  predicate Recorded(indices: seq<int>, slots: seq<nat>, oldIndices: seq<int>) {
    && |indices| == TrackerSlotCount == |oldIndices|
    && |slots| <= TrackerSlotCount
    && (forall j :: 0 <= j < |slots| ==> indices[j] == slots[j])
    && (forall j :: |slots| <= j < TrackerSlotCount ==> indices[j] == oldIndices[j])
  }

  /** Recording one more tracker slot at the next free position. */
  lemma RecordedStep(indices: seq<int>, slots: seq<nat>, oldIndices: seq<int>, i: nat)
    requires Recorded(indices, slots, oldIndices) && |slots| < TrackerSlotCount
    ensures Recorded(indices[|slots| := i], slots + [i], oldIndices)
  {
  }

  /** Extending a prefix by one slot extends the counts and the tracker
      slots by that slot's device. */
  lemma PrefixStep(ds: seq<Device>, i: nat)
    requires i < |ds|
    ensures forall k :: CountOf(ds[..i + 1], k) == CountOf(ds[..i], k) + (if Classify(ds[i]) == k then 1 else 0)
    ensures TrackerSlots(ds[..i + 1]) == TrackerSlots(ds[..i]) + (if Classify(ds[i]) == Tracker then [i] else [])
  {
    assert ds[..i + 1][..i] == ds[..i];
  }

  /** A prefix has no more devices of a class than the whole report. */
  lemma {:induction false} CountOfPrefixBound(ds: seq<Device>, i: nat)
    requires i <= |ds|
    ensures CountOf(ds[..i], Tracker) <= CountOf(ds, Tracker)
    decreases |ds| - i
  {
    if i < |ds| {
      CountOfPrefixBound(ds, i + 1);
      assert ds[..i + 1][..i] == ds[..i];
    } else {
      assert ds[..i] == ds;
    }
  }

  /** Which roles `setDevicesIndex` switches on, and the tracker slot each
      tracked role is bound to (`None`: left as it was). */
  datatype Activation = Activation(
    handLeft: bool, handRight: bool, pelvis: bool, footLeft: bool, footRight: bool,
    pelvisIndex: Option<int>, footLeftIndex: Option<int>, footRightIndex: Option<int>)

  /** `setDevicesIndex`: the right hand needs one controller, the left hand
      two; the pelvis takes the first tracker, the right foot the second
      and the left foot the third. It always reports success. */
  function SetDevicesIndex(controllers: nat, trackers: nat, indices: seq<int>): (a: Activation)
    requires |indices| == TrackerSlotCount
    ensures a.handRight <==> controllers >= 1
    ensures a.handLeft <==> controllers >= 2
    ensures a.pelvis <==> trackers >= 1
    ensures a.footRight <==> trackers >= 2
    ensures a.footLeft <==> trackers >= 3
    ensures a.pelvisIndex == (if a.pelvis then Some(indices[0]) else None)
    ensures a.footRightIndex == (if a.footRight then Some(indices[1]) else None)
    ensures a.footLeftIndex == (if a.footLeft then Some(indices[2]) else None)
  {
    Activation(controllers >= 2, controllers >= 1, trackers >= 1, trackers >= 3, trackers >= 2,
               if trackers >= 1 then Some(indices[0]) else None,
               if trackers >= 3 then Some(indices[2]) else None,
               if trackers >= 2 then Some(indices[1]) else None)
  }

  /** After a successful detection every role is active. */
  lemma ConnectedActivatesAll(controllers: nat, trackers: nat, indices: seq<int>)
    requires controllers >= 2 && trackers >= 3 && |indices| == TrackerSlotCount
    ensures var a := SetDevicesIndex(controllers, trackers, indices);
      a.handLeft && a.handRight && a.pelvis && a.footLeft && a.footRight
  {
  }

  // ---------------------------------------------------------------------
  // Identification

  /** The points handed to the plane fit and the object behind each: slot
      0 is the head, then the active hands, then the active trackers. */
  datatype Layout = Layout(points: seq<Vec3>, objects: seq<Option<Node>>)

  /** What identification needs to know about the scene. */
  datatype Scene = Scene(
    roles: Roles,
    active: ObjId -> bool,         // activeInHierarchy
    position: ObjId -> Vec3,
    headForward: Vec3)             // HMD.transform.forward

  function IsActive(sc: Scene, n: Option<Node>): bool {
    n.Some? && sc.active(n.value.id)
  }

  function ActiveHands(sc: Scene): nat {
    (if IsActive(sc, sc.roles.handLeft) then 1 else 0) + (if IsActive(sc, sc.roles.handRight) then 1 else 0)
  }

  function ActiveTrackers(sc: Scene): nat {
    (if IsActive(sc, sc.roles.pelvis) then 1 else 0) +
    (if IsActive(sc, sc.roles.footLeft) then 1 else 0) +
    (if IsActive(sc, sc.roles.footRight) then 1 else 0)
  }

  /** The roles `SetDevicesIndex` switches on fit the counted devices: a
      scene where only those roles are active has no more active hands
      than controllers and no more active tracked roles than trackers. */
  lemma ActivationFitsLayout(sc: Scene, controllers: nat, trackers: nat, indices: seq<int>)
    requires |indices| == TrackerSlotCount
    requires var a := SetDevicesIndex(controllers, trackers, indices);
      && (IsActive(sc, sc.roles.handLeft) ==> a.handLeft)
      && (IsActive(sc, sc.roles.handRight) ==> a.handRight)
      && (IsActive(sc, sc.roles.pelvis) ==> a.pelvis)
      && (IsActive(sc, sc.roles.footLeft) ==> a.footLeft)
      && (IsActive(sc, sc.roles.footRight) ==> a.footRight)
    ensures ActiveHands(sc) <= controllers && ActiveTrackers(sc) <= trackers
  {
  }

  /** Writes the position of an active role object into slot `i` and
      advances the slot; an inactive one is skipped. */
  function Put(l: Layout, sc: Scene, n: Option<Node>, i: nat): (r: (Layout, nat))
    requires |l.points| == |l.objects|
    requires IsActive(sc, n) ==> i < |l.points|
    ensures |r.0.points| == |l.points| && |r.0.objects| == |l.objects|
    ensures r.1 == if IsActive(sc, n) then i + 1 else i
    ensures !IsActive(sc, n) ==> r.0 == l
    ensures IsActive(sc, n) ==> r.0.objects == l.objects[i := n]
    ensures Consistent(l, sc) ==> Consistent(r.0, sc)
  {
    if IsActive(sc, n) then
      (Layout(l.points[i := sc.position(n.value.id)], l.objects[i := n]), i + 1)
    else (l, i)
  }

  /** Every slot's point is the position of its object, and an empty slot
      holds the zero vector. */
  predicate Consistent(l: Layout, sc: Scene) {
    && |l.points| == |l.objects|
    && forall j :: 0 <= j < |l.objects| ==>
         if l.objects[j].Some? then l.points[j] == sc.position(l.objects[j].value.id) else l.points[j] == Zero
  }

  /** The active roles of each kind, in the order the layout writes them:
      left hand before right; pelvis, left foot, right foot. */
  function HandsInOrder(sc: Scene): (r: seq<Option<Node>>)
    ensures |r| == ActiveHands(sc)
    ensures forall k :: 0 <= k < |r| ==> IsActive(sc, r[k])
  {
    (if IsActive(sc, sc.roles.handLeft) then [sc.roles.handLeft] else []) +
    (if IsActive(sc, sc.roles.handRight) then [sc.roles.handRight] else [])
  }

  function TrackersInOrder(sc: Scene): (r: seq<Option<Node>>)
    ensures |r| == ActiveTrackers(sc)
    ensures forall k :: 0 <= k < |r| ==> IsActive(sc, r[k])
  {
    (if IsActive(sc, sc.roles.pelvis) then [sc.roles.pelvis] else []) +
    (if IsActive(sc, sc.roles.footLeft) then [sc.roles.footLeft] else []) +
    (if IsActive(sc, sc.roles.footRight) then [sc.roles.footRight] else [])
  }

  /** The fresh arrays of `n` slots, with the head in slot 0 when it is
      active. */
  function HeadSlot(sc: Scene, n: nat): (l: Layout)
    requires 1 <= n
    ensures |l.points| == |l.objects| == n && Consistent(l, sc)
    ensures l.objects[0] == (if IsActive(sc, sc.roles.head) then sc.roles.head else None)
    ensures forall j :: 1 <= j < n ==> l.objects[j] == None
  {
    var l0 := Layout(seq(n, _ => Zero), seq(n, _ => None));
    if IsActive(sc, sc.roles.head) then Layout(l0.points[0 := sc.position(sc.roles.head.value.id)], l0.objects[0 := sc.roles.head]) else l0
  }

  /** Writing the hands fills slots `1 ..` in order and leaves the rest. */
  function PutHands(l: Layout, sc: Scene): (r: Layout)
    requires |l.points| == |l.objects| && 1 + ActiveHands(sc) <= |l.objects|
    ensures |r.points| == |r.objects| == |l.objects|
    ensures Consistent(l, sc) ==> Consistent(r, sc)
    ensures forall k :: 0 <= k < ActiveHands(sc) ==> r.objects[1 + k] == HandsInOrder(sc)[k]
    ensures forall j :: 0 <= j < |l.objects| && !(1 <= j < 1 + ActiveHands(sc)) ==> r.objects[j] == l.objects[j]
  {
    var h1 := Put(l, sc, sc.roles.handLeft, 1);
    var h2 := Put(h1.0, sc, sc.roles.handRight, h1.1);
    h2.0
  }

  /** Writing the tracked roles fills slots `s ..` in order and leaves the rest. */
  function PutTrackers(l: Layout, sc: Scene, s: nat): (r: Layout)
    requires |l.points| == |l.objects| && s + ActiveTrackers(sc) <= |l.objects|
    ensures |r.points| == |r.objects| == |l.objects|
    ensures Consistent(l, sc) ==> Consistent(r, sc)
    ensures forall k :: 0 <= k < ActiveTrackers(sc) ==> r.objects[s + k] == TrackersInOrder(sc)[k]
    ensures forall j :: 0 <= j < |l.objects| && !(s <= j < s + ActiveTrackers(sc)) ==> r.objects[j] == l.objects[j]
  {
    var t1 := Put(l, sc, sc.roles.pelvis, s);
    var t2 := Put(t1.0, sc, sc.roles.footLeft, t1.1);
    var t3 := Put(t2.0, sc, sc.roles.footRight, t2.1);
    t3.0
  }

  /** The `points` and `deviceObjects` arrays; unwritten slots keep the
      default zero vector and null. Hands fill from slot 1 and tracked roles
      from slot `1 + controllers`. */
  function BuildLayout(sc: Scene, controllers: nat, trackers: nat): (l: Layout)
    requires ActiveHands(sc) <= controllers + trackers && ActiveTrackers(sc) <= trackers
    ensures |l.points| == |l.objects| == 1 + controllers + trackers
  {
    PutTrackers(PutHands(HeadSlot(sc, 1 + controllers + trackers), sc), sc, 1 + controllers)
  }

  /** What the layout holds, with no more active hands than controllers:
      slot 0 the head if it is active, then the active hands in order from
      slot 1, then the active tracked roles in order from slot
      `1 + controllers`; every other slot is empty, and every written slot
      holds its object's position. */
  lemma {:induction false} BuildLayoutSlots(sc: Scene, controllers: nat, trackers: nat)
    requires ActiveHands(sc) <= controllers && ActiveTrackers(sc) <= trackers
    ensures var l := BuildLayout(sc, controllers, trackers);
      && Consistent(l, sc)
      && l.objects[0] == (if IsActive(sc, sc.roles.head) then sc.roles.head else None)
      && (forall k :: 0 <= k < |HandsInOrder(sc)| ==> l.objects[1 + k] == HandsInOrder(sc)[k])
      && (forall j :: 1 + |HandsInOrder(sc)| <= j < 1 + controllers ==> l.objects[j] == None)
      && (forall k :: 0 <= k < |TrackersInOrder(sc)| ==> l.objects[1 + controllers + k] == TrackersInOrder(sc)[k])
      && (forall j :: 1 + controllers + |TrackersInOrder(sc)| <= j < |l.objects| ==> l.objects[j] == None)
  {
    var hands, tracked := HandsInOrder(sc), TrackersInOrder(sc);
    var l1 := HeadSlot(sc, 1 + controllers + trackers);
    var l2 := PutHands(l1, sc);
    assert l2.objects[0] == l1.objects[0];
    assert forall j :: 1 + |hands| <= j < |l1.objects| ==> l2.objects[j] == None;
  }

  /** Makes the unit normal point along the head's forward direction
      (`n = -1 * n` when the deviation is negative). */
  function OrientNormal(n: Vec3, f: Vec3): (r: Vec3)
    ensures r == n || r == Neg(n)
    ensures Dot(r, f) == Abs(Dot(n, f))
  {
    if Dot(n, f) < 0.0 then
      DotNeg(n, f);
      Neg(n)
    else n
  }

  /** Negating one side of a dot product negates it. */
  lemma DotNeg(n: Vec3, f: Vec3)
    ensures Dot(Neg(n), f) == -Dot(n, f)
  {
    var m := Neg(n);
    assert m.x * f.x == -(n.x * f.x);
    assert m.y * f.y == -(n.y * f.y);
    assert m.z * f.z == -(n.z * f.z);
  }

  /** Scaling by -1, as the source writes the flip, is negation. */
  lemma ScaleMinusOneIsNeg(n: Vec3)
    ensures Scale(-1.0, n) == Neg(n)
  {
  }

  /** The point (0, 0, -d/c) taken as the plane's origin. */
  function PlanePoint(pl: Plane): Vec3
    requires pl.c != 0.0
  {
    Vec3(0.0, 0.0, -pl.d / pl.c)
  }

  /** The chosen point lies on the plane. */
  lemma PlanePointOnPlane(pl: Plane)
    requires pl.c != 0.0
    ensures Eval(pl, PlanePoint(pl)) == 0.0
  {
    var z := -pl.d / pl.c;
    calc {
      Eval(pl, PlanePoint(pl));
    ==
      pl.a * 0.0 + pl.b * 0.0 + pl.c * z + pl.d;
    ==
      pl.c * (-pl.d / pl.c) + pl.d;
    ==
      0.0;
    }
  }

  /** 2D coordinates in the plane. */
  datatype UV = UV(u: real, v: real)

  /** Projection of `q` onto the plane through `p` with unit normal `n`. */
  function Project(q: Vec3, p: Vec3, n: Vec3): Vec3 {
    Sub(q, Scale(Dot(Sub(q, p), n), n))
  }

  /** Coordinates of every point in the plane, relative to the head's:
      u along up x n, v along up. The head itself is put at the origin. */
  function PlaneCoordinates(points: seq<Vec3>, p: Vec3, n: Vec3): (uv: seq<UV>)
    requires |points| > 0
    ensures |uv| == |points| && uv[0] == UV(0.0, 0.0)
  {
    var u := Cross(Up, n);
    var h := Project(points[0], p, n);
    var u0 := Dot(h, u);
    var v0 := Dot(h, Up);
    seq(|points|, i requires 0 <= i < |points| =>
      if i == 0 then UV(0.0, 0.0)
      else UV(Dot(Project(points[i], p, n), u) - u0, Dot(Project(points[i], p, n), Up) - v0))
  }

  /** The loop over the controllers: each one to the left of the head
      (u < 0) becomes the left hand, any other the right hand. */
  function AssignHands(rs: Roles, uv: seq<UV>, objs: seq<Option<Node>>, from: nat, count: nat): Roles
    requires |uv| == |objs| && from + count <= |uv|
    decreases count
  {
    if count == 0 then rs
    else
      var rs1 := AssignHands(rs, uv, objs, from, count - 1);
      var i := from + count - 1;
      if uv[i].u < 0.0 then rs1.(handLeft := objs[i]) else rs1.(handRight := objs[i])
  }

  /** The loop over the trackers: one vertically within 0.8 of the head is
      the pelvis; otherwise left of the head is the left foot, else the
      right foot. */
  function AssignTrackers(rs: Roles, uv: seq<UV>, objs: seq<Option<Node>>, from: nat, count: nat): Roles
    requires |uv| == |objs| && from + count <= |uv|
    decreases count
  {
    if count == 0 then rs
    else
      var rs1 := AssignTrackers(rs, uv, objs, from, count - 1);
      var i := from + count - 1;
      if Abs(uv[i].v) < MaxHeadToWaistDistance then rs1.(pelvis := objs[i])
      else if uv[i].u < 0.0 then rs1.(footLeft := objs[i])
      else rs1.(footRight := objs[i])
  }

  /** The class each tracker rule gives a slot. */
  predicate IsPelvisSlot(x: UV) { Abs(x.v) < MaxHeadToWaistDistance }
  predicate IsFootLeftSlot(x: UV) { !IsPelvisSlot(x) && x.u < 0.0 }
  predicate IsFootRightSlot(x: UV) { !IsPelvisSlot(x) && x.u >= 0.0 }
  predicate IsHandLeftSlot(x: UV) { x.u < 0.0 }
  predicate IsHandRightSlot(x: UV) { x.u >= 0.0 }

  /** Reference definition: the object of the last slot in
      [from, from + count) satisfying `p`, or `dflt` when none does. */
  function LastMatch(p: UV -> bool, uv: seq<UV>, objs: seq<Option<Node>>, from: nat, count: nat,
                     dflt: Option<Node>): Option<Node>
    requires |uv| == |objs| && from + count <= |uv|
    decreases count
  {
    if count == 0 then dflt
    else if p(uv[from + count - 1]) then objs[from + count - 1]
    else LastMatch(p, uv, objs, from, count - 1, dflt)
  }

  /** `LastMatch` is the default when no slot matches, and otherwise the
      object of a matching slot after which no slot matches. */
  lemma {:induction false} LastMatchMeaning(p: UV -> bool, uv: seq<UV>, objs: seq<Option<Node>>, from: nat, count: nat,
                                            dflt: Option<Node>)
    requires |uv| == |objs| && from + count <= |uv|
    ensures var r := LastMatch(p, uv, objs, from, count, dflt);
      && ((forall i :: from <= i < from + count ==> !p(uv[i])) ==> r == dflt)
      && ((exists i :: from <= i < from + count && p(uv[i])) ==>
            exists i :: from <= i < from + count && p(uv[i]) && r == objs[i] &&
              forall j :: i < j < from + count ==> !p(uv[j]))
    decreases count
  {
    if count > 0 {
      var k := from + count - 1;
      var r := LastMatch(p, uv, objs, from, count, dflt);
      if p(uv[k]) {
        assert r == objs[k];
      } else {
        assert r == LastMatch(p, uv, objs, from, count - 1, dflt);
        LastMatchMeaning(p, uv, objs, from, count - 1, dflt);
        if exists i :: from <= i < from + count && p(uv[i]) {
          var i0 :| from <= i0 < from + count && p(uv[i0]);
          assert i0 < k;
          var i :| from <= i < k && p(uv[i]) && r == objs[i] && forall j :: i < j < k ==> !p(uv[j]);
          assert forall j :: i < j < from + count ==> !p(uv[j]);
        }
      }
    }
  }

  /** The hand loop binds each hand to its last matching controller and
      leaves it alone when none matches; nothing else changes. */
  lemma {:induction false} AssignHandsIsLastMatch(rs: Roles, uv: seq<UV>, objs: seq<Option<Node>>, from: nat, count: nat)
    requires |uv| == |objs| && from + count <= |uv|
    ensures var r := AssignHands(rs, uv, objs, from, count);
      && r.handLeft == LastMatch(IsHandLeftSlot, uv, objs, from, count, rs.handLeft)
      && r.handRight == LastMatch(IsHandRightSlot, uv, objs, from, count, rs.handRight)
      && r.head == rs.head && r.pelvis == rs.pelvis
      && r.footLeft == rs.footLeft && r.footRight == rs.footRight
    decreases count
  {
    if count > 0 {
      AssignHandsIsLastMatch(rs, uv, objs, from, count - 1);
    }
  }

  /** The tracker loop binds each tracked role to its last matching
      tracker and leaves it alone when none matches; nothing else
      changes. */
  lemma {:induction false} AssignTrackersIsLastMatch(rs: Roles, uv: seq<UV>, objs: seq<Option<Node>>, from: nat, count: nat)
    requires |uv| == |objs| && from + count <= |uv|
    ensures var r := AssignTrackers(rs, uv, objs, from, count);
      && r.pelvis == LastMatch(IsPelvisSlot, uv, objs, from, count, rs.pelvis)
      && r.footLeft == LastMatch(IsFootLeftSlot, uv, objs, from, count, rs.footLeft)
      && r.footRight == LastMatch(IsFootRightSlot, uv, objs, from, count, rs.footRight)
      && r.head == rs.head && r.handLeft == rs.handLeft && r.handRight == rs.handRight
    decreases count
  {
    if count > 0 {
      AssignTrackersIsLastMatch(rs, uv, objs, from, count - 1);
    }
  }

  datatype Identification = Failed(code: int) | Identified(roles: Roles)

  /** `identifyDevices`. Fails with code 0 for fewer than two controllers
      and trackers together, 1 when the plane fit fails, 2 when the plane's
      normal is within 30 degrees of perpendicular to the head's forward
      direction; otherwise re-binds the hands and tracked roles. */
  function Identify(sc: Scene, controllers: nat, trackers: nat, norm: NormFn): (r: Identification)
    requires AllBound(sc.roles)
    requires ActiveHands(sc) <= controllers + trackers && ActiveTrackers(sc) <= trackers
    ensures r.Failed? ==> r.code in {0, 1, 2}
    ensures r == Failed(0) <==> controllers + trackers < 2
  {
    if controllers + trackers < 2 then Failed(0)
    else
      var l := BuildLayout(sc, controllers, trackers);
      var fit := FitPlane(l.points);
      if fit.None? then Failed(1)
      else
        var pl := fit.value;
        var n := Normalized(norm, Vec3(pl.a, pl.b, pl.c));
        var f := Normalized(norm, sc.headForward);
        var deviation := Dot(n, f);
        if Abs(deviation) < HeadCosineDeviationThreshold then Failed(2)
        else
          var n1 := OrientNormal(n, f);
          var uv := PlaneCoordinates(l.points, PlanePoint(pl), n1);
          var rs1 := AssignHands(sc.roles, uv, l.objects, 1, controllers);
          Identified(AssignTrackers(rs1, uv, l.objects, 1 + controllers, trackers))
  }

  /** The failure codes in order: 1 exactly when the fit fails, 2 exactly
      when the fit succeeds but the normal is too far from the head's
      forward direction. */
  lemma IdentifyFailureCodes(sc: Scene, controllers: nat, trackers: nat, norm: NormFn)
    requires AllBound(sc.roles)
    requires ActiveHands(sc) <= controllers + trackers && ActiveTrackers(sc) <= trackers
    requires controllers + trackers >= 2
    ensures var l := BuildLayout(sc, controllers, trackers);
            var fit := FitPlane(l.points);
            var r := Identify(sc, controllers, trackers, norm);
      && (r == Failed(1) <==> fit.None?)
      && (r == Failed(2) <==>
            (fit.Some? &&
             Abs(Dot(Normalized(norm, Vec3(fit.value.a, fit.value.b, fit.value.c)),
                     Normalized(norm, sc.headForward))) < HeadCosineDeviationThreshold))
  {
  }

  /** On success the oriented normal points along the head's forward
      direction by at least the threshold, and the plane's reference point
      lies on the fitted plane. */
  lemma IdentifiedOrientation(sc: Scene, controllers: nat, trackers: nat, norm: NormFn)
    requires AllBound(sc.roles)
    requires ActiveHands(sc) <= controllers + trackers && ActiveTrackers(sc) <= trackers
    requires Identify(sc, controllers, trackers, norm).Identified?
    ensures var l := BuildLayout(sc, controllers, trackers);
            var pl := FitPlane(l.points).value;
            var n := Normalized(norm, Vec3(pl.a, pl.b, pl.c));
            var f := Normalized(norm, sc.headForward);
      && Dot(OrientNormal(n, f), f) >= HeadCosineDeviationThreshold
      && Eval(pl, PlanePoint(pl)) == 0.0
  {
    var l := BuildLayout(sc, controllers, trackers);
    PlanePointOnPlane(FitPlane(l.points).value);
  }

  /** On success the head keeps its binding, each hand is the last
      controller on its side (or keeps its binding when there is none),
      and likewise for the pelvis and the feet. */
  lemma IdentifiedRoles(sc: Scene, controllers: nat, trackers: nat, norm: NormFn)
    requires AllBound(sc.roles)
    requires ActiveHands(sc) <= controllers + trackers && ActiveTrackers(sc) <= trackers
    requires Identify(sc, controllers, trackers, norm).Identified?
    ensures var l := BuildLayout(sc, controllers, trackers);
            var pl := FitPlane(l.points).value;
            var n := Normalized(norm, Vec3(pl.a, pl.b, pl.c));
            var f := Normalized(norm, sc.headForward);
            var uv := PlaneCoordinates(l.points, PlanePoint(pl), OrientNormal(n, f));
            var rs := Identify(sc, controllers, trackers, norm).roles;
            var o := l.objects;
      && rs.head == sc.roles.head
      && rs.handLeft == LastMatch(IsHandLeftSlot, uv, o, 1, controllers, sc.roles.handLeft)
      && rs.handRight == LastMatch(IsHandRightSlot, uv, o, 1, controllers, sc.roles.handRight)
      && rs.pelvis == LastMatch(IsPelvisSlot, uv, o, 1 + controllers, trackers, sc.roles.pelvis)
      && rs.footLeft == LastMatch(IsFootLeftSlot, uv, o, 1 + controllers, trackers, sc.roles.footLeft)
      && rs.footRight == LastMatch(IsFootRightSlot, uv, o, 1 + controllers, trackers, sc.roles.footRight)
  {
    var l := BuildLayout(sc, controllers, trackers);
    var pl := FitPlane(l.points).value;
    var n := Normalized(norm, Vec3(pl.a, pl.b, pl.c));
    var f := Normalized(norm, sc.headForward);
    var uv := PlaneCoordinates(l.points, PlanePoint(pl), OrientNormal(n, f));
    var rs1 := AssignHands(sc.roles, uv, l.objects, 1, controllers);
    AssignHandsIsLastMatch(sc.roles, uv, l.objects, 1, controllers);
    AssignTrackersIsLastMatch(rs1, uv, l.objects, 1 + controllers, trackers);
  }

  /** The driver's state around `identifyDevices`: its `ready` flag, whether
      the input is blocked, and the role bindings. */
  datatype DriverState = DriverState(ready: bool, blocked: bool, roles: Roles)

  /** `identifyDevices` on the driver: it blocks the input first; only full
      success re-binds the roles, sets `ready` and unblocks the input. A
      failure leaves the input blocked and `ready` as it was. */
  function IdentifyDevices(ready: bool, sc: Scene, controllers: nat, trackers: nat, norm: NormFn): (r: DriverState)
    requires AllBound(sc.roles)
    requires ActiveHands(sc) <= controllers + trackers && ActiveTrackers(sc) <= trackers
    ensures var id := Identify(sc, controllers, trackers, norm);
      && (id.Identified? ==> r == DriverState(true, false, id.roles))
      && (id.Failed? ==> r == DriverState(ready, true, sc.roles))
  {
    match Identify(sc, controllers, trackers, norm)
    case Failed(_) => DriverState(ready, true, sc.roles)
    case Identified(rs) => DriverState(true, false, rs)
  }
}

=== FILE: vectors.dfy ===
/** Real-valued 3-vectors and the little vector algebra the scripts use.
    The Euclidean length (which needs a square root) is not computed: every
    operation that takes a length receives a norm function and, where its
    contract needs it, the promise `IsNorm(norm)`. */
module Vectors {

  datatype Vec3 = Vec3(x: real, y: real, z: real)

  const Zero := Vec3(0.0, 0.0, 0.0)
  /** `Vector3.up` */
  const Up := Vec3(0.0, 1.0, 0.0)
  /** `Vector3.forward` */
  const Forward := Vec3(0.0, 0.0, 1.0)

  function Add(a: Vec3, b: Vec3): Vec3 {
    Vec3(a.x + b.x, a.y + b.y, a.z + b.z)
  }

  function Sub(a: Vec3, b: Vec3): Vec3 {
    Vec3(a.x - b.x, a.y - b.y, a.z - b.z)
  }

  function Scale(k: real, a: Vec3): Vec3 {
    Vec3(k * a.x, k * a.y, k * a.z)
  }

  function Neg(a: Vec3): Vec3 {
    Vec3(-a.x, -a.y, -a.z)
  }

  function Dot(a: Vec3, b: Vec3): real {
    a.x * b.x + a.y * b.y + a.z * b.z
  }

  function Cross(a: Vec3, b: Vec3): Vec3 {
    Vec3(a.y * b.z - a.z * b.y, a.z * b.x - a.x * b.z, a.x * b.y - a.y * b.x)
  }

  /** Unit quaternion (w, x, y, z). Rotating vectors is not modelled; only
      the identity and Unity's `Quaternion.Inverse`, the conjugate, occur. */
  datatype Quat = Quat(w: real, x: real, y: real, z: real)

  const Identity := Quat(1.0, 0.0, 0.0, 0.0)

  /** The C# default value of a `Quaternion` field. */
  const QuatDefault := Quat(0.0, 0.0, 0.0, 0.0)

  function Inverse(q: Quat): (r: Quat)
    ensures r.w == q.w
  {
    Quat(q.w, -q.x, -q.y, -q.z)
  }

  type NormFn = Vec3 -> real

  /** What the model assumes of the vector length `magnitude`. */
  ghost predicate IsNorm(norm: NormFn) {
    forall v :: norm(v) >= 0.0 && (norm(v) == 0.0 <==> v == Zero)
  }

  /** The smallest length `Vector3.Normalize` still divides by. */
  const NormalizeEpsilon: real := 0.00001

  /** `Vector3.normalized`: the vector divided by its length, or the zero
      vector when the length is at most 1e-5. */
  function Normalized(norm: NormFn, v: Vec3): Vec3 {
    var m := norm(v);
    if m > NormalizeEpsilon then Scale(1.0 / m, v) else Zero
  }

  /** `Vector3.Distance(a, b)` */
  function Distance(norm: NormFn, a: Vec3, b: Vec3): (r: real)
    requires IsNorm(norm)
    ensures r >= 0.0
    ensures r == 0.0 <==> a == b
  {
    assert Sub(a, b) == Zero <==> a == b;
    norm(Sub(a, b))
  }

  /** A vector's dot product with itself is never negative. */
  lemma DotSelfNonNegative(v: Vec3)
    ensures Dot(v, v) >= 0.0
  {
    calc {
      Dot(v, v);
    ==
      v.x * v.x + v.y * v.y + v.z * v.z;
    >=
      0.0;
    }
  }

  /** ... and positive unless the vector is zero. */
  lemma DotSelfPositive(v: Vec3)
    requires v != Zero
    ensures Dot(v, v) > 0.0
  {
    assert v.x != 0.0 || v.y != 0.0 || v.z != 0.0;
    calc {
      Dot(v, v);
    ==
      v.x * v.x + v.y * v.y + v.z * v.z;
    >
      0.0;
    }
  }

  /** The normalised vector is the original scaled by a non-negative factor:
      normalising never reverses a direction. */
  lemma NormalizedIsNonNegativeMultiple(norm: NormFn, v: Vec3)
    requires IsNorm(norm)
    ensures exists c: real :: c >= 0.0 && Normalized(norm, v) == Scale(c, v)
  {
    var m := norm(v);
    if m > NormalizeEpsilon {
      assert 1.0 / m >= 0.0;
      assert Normalized(norm, v) == Scale(1.0 / m, v);
    } else {
      assert Normalized(norm, v) == Scale(0.0, v);
    }
  }
}
